=== FILE: README.md ===
# mzIdentML mirror and ledger: a Dafny model of the decision logic

The repository keeps a local mirror of mzIdentML (`.mzid`) files from the
PRIDE FTP archive. It then records one row per mirrored file in a CSV
ledger. Later runs fill in that ledger's schema-validation verdicts, from
the smallest file to the largest. This project models the pure logic of that
pipeline and proves properties about it. The disk, the FTP server, the XML
parser and the clock become inputs: a walk of the mirror, per-file facts,
a directory lister, a validator outcome and a jitter value.

Modules (one per file):

- `Base`: `Option` and the `byte` type.
- `Strings`, `Seqs`: the pieces of Python's `str` and list behaviour the
  code relies on. These are `lower`, `startswith`/`endswith`, `in`,
  `split("/")`, `split()`, `"/".join`, `strip`, `rstrip`, `int()`, and list
  comprehensions with a condition.
- `Sizes`: `format_file_size` and its reader `parse_file_size`, and how the
  two relate.
- `Paths`: `parse_directory`, ISO dates, `os.path.join` and `os.path.dirname`.
- `MarkerSearch`: the chunked byte search `contains_string` as written, and
  a corrected version of it.
- `SchemaLocation`: reading the schema version out of a root element's
  `xsi:schemaLocation`, `xsi:noNamespaceSchemaLocation` and `version`
  attributes.
- `Validator`: the validator worker `_schema_validate_impl` and the timeout
  wrapper around it.
- `Report`: the ledger builder `generate_report` and the crosslinking
  subset.
- `Scheduler`: `validate_schemas`. It covers the stable size sort, the
  row filter, the skip rule, the verdict mapping, the halt on memory
  failure, and the ledger state after each write.
- `Crawler`: the FTP crawler `gatherMzid.py`. It covers login with capped
  exponential backoff, leaf selection, the skip-if-present download rule,
  and the year/month/project traversal.
- `Extractor`: `unzipAll.py`. It covers archive dispatch, zip member
  filtering, gzip output naming, the success/failure partition, and the
  non-`.mzid` anomaly list.

## Model

| member | source | states |
|---|---|---|
| Sizes.FormatFileSize | report.py:22-28 | Below 1024 the text is the decimal integer followed by " B", with no decimal point. Otherwise it is a number of tenths nearest to n / 1024^k, followed by the k-th unit name (KB to PB), where k is the unit index. |
| Sizes.UnitIndex | report.py:24-28 | The unit chosen is the least k with n < 1024^(k+1), capped at PB. |
| Sizes.RoundHalfEven | report.py:26 | The `.1f` rounding gives an integer within half a step of num/den. |
| Sizes.ParseNamedUnit | validate_schemas.py:35-41 | A number followed by a unit name is read with that unit's multiplier. Longer unit names are tried before "B". |
| Sizes.ParseFormatted | validate_schemas.py:35-41 | A formatted size `x unit` reads back as the value of x scaled by the unit and truncated towards zero. |
| Sizes.FirstUnit | validate_schemas.py:35-41 | The unit chosen is the first name in the order PB, TB, GB, MB, KB, B that the text ends with. The text ends with none of the names before it. |
| Sizes.ParseWithUnitsFirst | validate_schemas.py:33-43 | The parser scales the number before the first matching unit by 1024 to that unit's power. With no unit, the whole text is read as bytes. |
| Sizes.ParseFileSizeUnit | validate_schemas.py:33-43 | For any text whose stripped form ends in a unit name, with no earlier name in parse order matching, the size is the stripped number before the unit, scaled by that unit. |
| Sizes.ParseFileSizeBytes | validate_schemas.py:33-43 | Text whose stripped form does not end in "B" names no unit, and its number is read as bytes. |
| Sizes.BytesRoundTrip | validate_schemas.py:33-43 | "n B" reads back to exactly n. |
| Sizes.ParseOfFormatted | validate_schemas.py:33-43 | Reading a formatted size gives the displayed tenths times the unit, divided by ten and truncated. This is exact arithmetic; Python's float product can be one byte higher for PB values from about 2^51 bytes (see "## Left out"). |
| Sizes.FormatParseRoundTrip | report.py:22-28 | Every formatted size reads back, exactly below 1 KiB and otherwise to within half a tenth of the displayed unit. |
| Sizes.FormatParseExact | report.py:22-28 | A size that is a whole multiple of half its unit (1536 gives "1.5 KB") reads back exactly. |
| Paths.IsoFormatReadsBack | report.py:215 | `date.isoformat()` text is 10 characters, and its year, month and day fields read back as the date's numbers. |
| Paths.ParseDirectory | report.py:44-62 | A path with fewer than three components is returned whole with no date. Otherwise the project is the last component, and the date is the one the two components before it name. A date, when present, is a valid first of the month. On a path where the source raises, there is no date. |
| Paths.MonthDate | report.py:53-61 | A date exists exactly when both components read with `int()` and `date()` accepts the year (a year below 100 plus 2000) with that month. It is then the first of that month. Numerals that overflow a C int give none. |
| Paths.ParseDirectoryOfSegments | report.py:50-61 | For any slash-free year and month components, the directory gives back its project and the month those components name. It raises exactly when they overflow `date()`. |
| Paths.MonthDateSigned | report.py:54-59 | "-5" reads as the year 1995 and " 7" as July. |
| Paths.MonthDateGrouped | report.py:54-59 | "2_0" reads as the year 2020. |
| Paths.MonthDateOverflow | report.py:55-60 | A year of 2^31 overflows `date()`, so the source raises and the model has no date. |
| Strings.ParseInt | report.py:54-55 | A number is read only from stripped text ending in a digit; a negative value needs a leading minus. Stripped text made only of digits reads as its decimal value. Text ending in anything other than a digit is rejected. |
| Strings.ParseIntGrouped | report.py:54-55 | `int()` reads "2_0" as 20. |
| Strings.ParseIntSigned | report.py:54-55 | `int()` reads " -5 " as -5. |
| Strings.ParseIntRejects | report.py:54-55 | `int()` rejects "2__0", "_20" and "20_". |
| Strings.ParseIntNegative | report.py:54-55 | A minus sign before a run of digits gives the negated value. |
| Paths.ParseMirrorDirectory | report.py:50-61 | A directory `prefix/year/month/project` with numeral year and month gives back the project. It also gives the first of that month, with two-digit years placed in the 2000s, exactly when that date is valid. It raises only when a numeral does not fit a C int. |
| Paths.PathJoin | unzipAll.py:85 | The joined path ends with the second part. |
| Paths.PathJoinShape | unzipAll.py:85 | An absolute second part replaces the first. Otherwise the path starts with the first part, at most one character is added between them, and a non-empty first part is followed by a "/" right before the second part. |
| Paths.Dirname | unzipAll.py:71 | The directory part is a prefix of the path. It is empty exactly when the path has no "/". It has no trailing "/" unless it is all slashes. Between it and any later "/" there are only slashes. |
| Paths.DirnameOfJoin | unzipAll.py:71 | The directory part of `join(root, name)` is `root` again. |
| MarkerSearch.ReadChunk | report.py:79 | A read returns the next `chunk_size` bytes, or the rest of the file when fewer remain or the size is negative. |
| MarkerSearch.ScanSound | report.py:77-87 | Whenever the chunked search answers yes, the marker does occur in the file. |
| MarkerSearch.ScanExact | report.py:77-87 | From any round whose kept tail reaches back `len(marker) - 1` bytes, with no match ending earlier, the search answers yes exactly when the marker occurs, for markers no longer than a chunk. |
| MarkerSearch.ContainsStringInFile | report.py:71-90 | An unreadable file never contains the marker. A yes means the marker occurs in the file's bytes. With a marker no longer than a chunk, the answer is yes exactly when the marker occurs. |
| MarkerSearch.ContainsStringExact | report.py:71-87 | With a marker no longer than one chunk, the search answers yes exactly when the marker occurs in the file. |
| MarkerSearch.LedgerSearchExact | report.py:71-90 | With the ledger's marker "MS:1002511" and the default 1 MiB chunk, the column is True exactly when the marker occurs. An empty file gives False. |
| MarkerSearch.ShortChunksMissMarker | report.py:83-86 | As written, with a chunk size of 1 the search misses "abc" in a file holding "abc". |
| MarkerSearch.ScanFixedExact | report.py:77-87 | With the tail cut from the joined window, the same holds from any such round for every non-zero chunk size. |
| MarkerSearch.ContainsStringFixedExact | report.py:83-86 | When the carried tail is taken from the joined window, the search answers yes exactly when the marker occurs, for every non-zero chunk size. |
| SchemaLocation.ChooseLocation | report.py:118-124 | `schemaLocation` is used when it is non-empty. Otherwise `noNamespaceSchemaLocation` is used when it is non-empty. Otherwise there is no location. |
| SchemaLocation.FileNameVersion | schema_validate.py:43-47 | A version is returned exactly when the name starts with "mzIdentML" and ends with ".xsd". The name is then prefix + version + suffix. |
| SchemaLocation.FileNameVersionIff | schema_validate.py:43-47 | The version read from a name is v if and only if the name is "mzIdentML" + v + ".xsd". |
| SchemaLocation.UrlFileName | report.py:131 | The file name taken from a URL holds no "/" and ends the URL. |
| SchemaLocation.LocationVersion | report.py:126-134 | A version comes from a location of at least two tokens whose last token's file name has the mzIdentML form. |
| SchemaLocation.ReportVersion | report.py:108-144 | With no readable root there is no version. The location-derived version is preferred. Failing that the root's `version` attribute is used when it is non-empty. |
| SchemaLocation.ReportVersionOfStandardRoot | report.py:126-134 | A standard `namespace .../mzIdentMLv.xsd` location yields v. |
| SchemaLocation.ReportVersionOfSingleUrl | report.py:129-139 | A one-token location gives no version from the location, so the `version` attribute decides. |
| Validator.SupportedSchemaNames | schema_validate.py:13-19 | The supported schema files are exactly the five mzIdentML 1.0.0 to 1.3.0 names. |
| Validator.SupportedVersionOf | schema_validate.py:43-47 | Every supported schema name yields a version that is among the supported versions. |
| Validator.ErrorLines | schema_validate.py:108-111 | One "Error: message, Line: n" line per XSD error, in order. |
| Validator.Rejection | schema_validate.py:107-111 | A rejection reports the header, then one line for each of the first twenty errors, in order. |
| Validator.SchemaName | schema_validate.py:80-91 | The schema file name is that of the last URL of an even-length token list. |
| Validator.CheckSchema | schema_validate.py:94-116 | An unsupported name gives exactly "Unsupported schema: name". A missing schema file gives the not-found message. The result is valid exactly when the name is supported, the file loads and the document passes. Failure lists a header plus at most 20 errors. |
| Validator.ValidateImpl | schema_validate.py:50-116 | No location gives the no-location message and no version. An odd token count gives the format message. An empty token list raises IndexError. Otherwise the named schema is checked. Valid never carries messages. |
| Validator.ValidHasSupportedVersion | schema_validate.py:94-105 | A valid verdict always comes with one of the five supported versions. |
| Validator.SingleUrlRejected | schema_validate.py:80-83 | A single-URL location is rejected by the validator as badly formatted. The ledger builder still takes its version from the `version` attribute. |
| Validator.ValidateWithTimeout | schema_validate.py:136-143 | A timeout gives an invalid verdict with no version and one message mentioning "timed out". Otherwise the worker's result is passed through. |
| Validator.TimeoutMentioned | schema_validate.py:142 | The timeout message, lower-cased, contains "timed out" for every timeout value. |
| Report.ArchiveTail | report.py:65-68 | A name is an archive exactly when some tail of it, with letters lower-cased, is ".zip", ".gz" or ".gzip". |
| Report.MzidNotArchive | report.py:65-68 | A name ending in ".mzid", in any case, is never an archive. |
| Report.ArchiveSuffix | report.py:65-68 | Any name ending in ".zip", ".gz" or ".gzip", in any letter case, is an archive. |
| Report.BuildRow | report.py:186-223 | The row is keyed by the directory's project and the file name. Its verdict is empty. It is parseable exactly when the parse raised no error. The date is empty exactly when the directory names no date, and otherwise 10 characters. The size is the formatted byte count. The marker column is "True" exactly when the file is readable and contains "MS:1002511". A parseable row carries the root's version and no error. An unparseable row carries the parse error and no version. |
| Report.DateText | report.py:215 | The date column is empty exactly when there is no date. Otherwise it is the ISO text whose fields read back as the date. |
| Report.MarkerColumn | report.py:199-200 | The marker column is "True" exactly when the file is readable and contains "MS:1002511". |
| Report.SizeColumn | report.py:197-217 | The size column reads back to the file size: exactly below 1 KiB, otherwise within half a tenth of the unit. |
| Report.NewRows | report.py:174-225 | At most one row per file. No row has a key already present, is the ledger itself or is an archive. Every row has an empty verdict. Unparseable rows have no version. Parseable rows have no error. |
| Report.NewRowsBy | report.py:174-191 | At most one row per file. Every row is built from a file of the walk that was neither skipped outright nor filed under a key already present. |
| Report.NewRowsAppend | report.py:174-191 | For any row builder, the rows for two consecutive stretches of the walk are the rows for each stretch, in order. |
| Report.LedgerKeyed | report.py:186-216 | The ledger builder files each row under the project and file name it was built from. |
| Report.KeysOfNewRows | report.py:186-191 | The keys of the new rows are exactly the keys of the files not skipped, for any builder that files rows under their keys. |
| Report.NothingLeft | report.py:189-191 | Once every file's key is known, no rows are produced. |
| Report.ExtraKeysIgnored | report.py:189 | Adding keys no pending file uses does not change the rows produced. |
| Report.LoadedKeys | report.py:147-159 | A key is loaded exactly when one of the rows read before loading stopped has it. When the whole ledger was read, these are all its keys. |
| Report.GenerateReport | report.py:162-225 | The existing rows are kept as they are, and the new rows are appended after them. |
| Report.FullRun | report.py:162-191 | A run that loaded the whole ledger appends what the ledger builder makes of the walk, skipping the keys already present. |
| Report.RunIdempotent | report.py:147-191 | For any builder that files rows under their keys, a second run after a complete run appends nothing. |
| Report.GenerateReportIdempotent | report.py:147-191 | A second run over an unchanged mirror after a complete run appends nothing. |
| Report.ResumeEntries | report.py:167-191 | The rows written before an interruption, followed by the rows a resumed run writes with their keys now known, are the rows of one uninterrupted run, provided no two pending files share a key. |
| Report.ResumeRun | report.py:162-225 | For any builder that files rows under their keys, resuming after an interruption gives the ledger one uninterrupted run gives, provided no two pending files share a key. |
| Report.ResumeAfterCrash | report.py:162-225 | After a run is interrupted, re-running gives the same ledger as one uninterrupted run, provided no two pending files share a key. |
| Report.TwoDirsOneKey | report.py:164-191 | For any builder, two directories each holding a file under the same key, neither skipped outright, give two rows with that key in one run. |
| Report.SameKeyTwiceInOneRun | report.py:164-191 | Two files with the same key in different directories both get a row in one run, because the key set is not extended while writing. |
| Report.CrosslinkingReport | report.py:230-253 | With no ledger nothing is written. Otherwise the subset holds exactly the ledger rows whose marker column is "True". |
| Report.CrosslinkingKeepsOrder | report.py:248-251 | The subset keeps ledger order: the subset of a concatenation is the concatenation of the subsets. |
| Scheduler.Insert | validate_schemas.py:71 | Inserting a position into a stably sorted list keeps it stably sorted and adds exactly that position. |
| Scheduler.SortPositions | validate_schemas.py:71 | The sort gives a permutation of the positions, ordered by key and by original position among equal keys. |
| Scheduler.StableOrderUnique | validate_schemas.py:71 | Two stably sorted arrangements of the same positions are equal, so the stable order is unique. |
| Scheduler.SortSortedIdentity | validate_schemas.py:71 | Sorting an already ascending ledger leaves its order unchanged. |
| Scheduler.SizeKeys | validate_schemas.py:71 | Sort keys exist exactly when every size column parses, and they are the parsed sizes. |
| Scheduler.PickPermutation | validate_schemas.py:71 | Arranging the rows by two permutations of the same positions gives the same multiset of rows. |
| Scheduler.SortRows | validate_schemas.py:71 | The sorted rows are a permutation of the ledger, in ascending parsed size, with ties in ledger order. They are the rows picked in any stable arrangement of positions by size, and that arrangement is unique. |
| Scheduler.SameFactsAscend | validate_schemas.py:98-153 | Rows whose sizes are kept row by row keep their ascending size order. |
| Scheduler.FindFilePath | validate_schemas.py:46-51 | A path is found exactly when some walked directory ends with the project and lists the file. The first such directory in walk order is used. |
| Scheduler.ApplyOutcome | validate_schemas.py:98-147 | Each outcome maps to a verdict. A "timed out" first message gives "timed out". Valid gives "True". Invalid gives "False" with the messages joined by "; ". A memory or pipe failure, or a memory-like exception, gives "out of memory" and halts. Any other exception gives "False" with "Schema validation error: " and its text. A timed-out row keeps the first message as its error. The memory, pipe and memory-like errors carry their own prefixes. Project, name, size and marker never change. |
| Scheduler.MemoryLikeParts | validate_schemas.py:136 | The tested text is the lower-cased message followed by the lower-cased type name. A memory term in either part makes the exception memory-like. A type name like `MemoryError` and a message "Killed" are each enough. |
| Scheduler.TimeoutVerdict | validate_schemas.py:101-104 | A timed-out validation is recorded as "timed out" with the timeout message. It does not halt the run. |
| Scheduler.Attempt | validate_schemas.py:82-99 | A row is skipped exactly when it is unparseable, already "True" or "False", or its file is not found. Otherwise it gets the mapped verdict. |
| Scheduler.UnfinishedRowsRetried | validate_schemas.py:83-94 | A parseable row without a final verdict whose file can be found is validated again, including earlier "timed out" and "out of memory" rows. |
| Scheduler.AttemptFaithful | validate_schemas.py:83-147 | The scheduler's attempt keeps each row's file facts, halts exactly when it writes "out of memory", and passes over rows holding "True" or "False". |
| Scheduler.LoopWritesAttempts | validate_schemas.py:82-153 | Over distinct positions, each write holds the attempt's row for the row as loaded. A row the attempt passes over is neither validated nor changed, and a row never validated comes out unchanged. |
| Scheduler.Loop | validate_schemas.py:82-153 | The run keeps the ledger length and writes once per validated row. The last write is the final state. With no write the rows are unchanged. Without a halt every selected row is visited. |
| Scheduler.LoopWritesOneRowEach | validate_schemas.py:149-153 | Consecutive ledger writes differ only in the row just validated. |
| Scheduler.LoopPreserves | validate_schemas.py:83-153 | Rows not in the to-do list, and rows already holding "True" or "False", come out unchanged. Every row keeps its facts. |
| Scheduler.LoopLeavesRest | validate_schemas.py:82-153 | Over distinct positions, the rows listed after the point where the run stopped are untouched. |
| Scheduler.LoopStopsAtLast | validate_schemas.py:111-145 | When the run halts, the last validated position is the last position it consumed. |
| Scheduler.LoopHalts | validate_schemas.py:111-145 | When the run halts, the last position it consumed holds "out of memory". |
| Scheduler.LoopStops | validate_schemas.py:82-153 | Over distinct positions, a run either went through every position, or it halted at a row it marked "out of memory" and left the later positions untouched. |
| Scheduler.AttemptStops | validate_schemas.py:82-153 | The same holds for the scheduler's own attempt on any mirror and validator. |
| Scheduler.SelectedFrom | validate_schemas.py:73-77 | The rows to validate are, in sorted order, exactly the selected rows. |
| Scheduler.ValidateSchemas | validate_schemas.py:54-77 | A missing ledger does nothing. An unparseable size aborts before any write. Otherwise the rows are put in the stable size order of `SortRows` and the selected ones are processed. |
| Scheduler.LedgerAfter | validate_schemas.py:115-153 | The file on disk changes only if a row was written, and then it holds the last write. |
| Scheduler.SelectedRunKeeps | validate_schemas.py:74-94 | Over the selected rows of a sorted ledger, these rows come out as they went in: unselected rows, rows already "True" or "False", and rows the attempt passed over (unparseable, or file not found). |
| Scheduler.SelectedRunAttempts | validate_schemas.py:82-153 | Each rewrite holds, at the row it validated, what the attempt made of that row as loaded. A selected row the attempt passes over causes no rewrite. |
| Scheduler.SelectedRunWrites | validate_schemas.py:74-153 | Every written row is a selected row of the sorted ledger. |
| Scheduler.SelectedRunHalts | validate_schemas.py:111-145 | A halted run's last visited selected row holds "out of memory", and the selected rows after it are untouched. A run that did not halt visited every selected row. |
| Scheduler.ValidateSchemasOutcome | validate_schemas.py:71-153 | When a run changes the file, the new ledger holds the old rows' facts, in ascending size. |
| Scheduler.NothingToDo | validate_schemas.py:86-89 | When every selected row already holds "True" or "False", the run writes nothing and does not halt. |
| Scheduler.ValidateBoth | validate_schemas.py:158-173 | The crosslinking subset is processed in full first, then the non-crosslinking rows of the main ledger. The second run is skipped only when the first one's sort raised. |
| Crawler.Min | gatherMzid.py:106-111 | Python's `min` of two values is one of them and no larger than either. |
| Crawler.DelayCapsDoubled | gatherMzid.py:84-111 | The delay after k waits is the initial delay doubled k times, capped at the maximum. |
| Crawler.DoubledIsScaled | gatherMzid.py:111 | Doubling k times multiplies by 2^k. |
| Crawler.DelayClosedForm | gatherMzid.py:84-111 | Before the k-th retry the base delay is `min(base * 2^k, max)`. |
| Crawler.SleepBounds | gatherMzid.py:105-108 | Each sleep lies between `min(0.9 d, max)` and `min(1.1 d, max)` for the current delay d, and never exceeds the maximum delay. |
| Crawler.Login | gatherMzid.py:68-115 | A loop with invariants. The i-th sleep follows the i-th failure with the backoff delay. A connection happens on the first success. The attempts never exceed a positive `max_retries`. Running out re-raises the last error after exactly `max_retries` failures with one sleep fewer. A negative limit raises "FTP login failed after all retries" without trying. A limit of 0 never re-raises a login error. Every wait taken is non-negative. A negative wait makes `time.sleep` raise `ValueError` (`SleepRaised`) right after the failure it follows, while retries remain. This never happens with non-negative delays and a jitter in [-1, 1). |
| Crawler.NegativeDelayRaises | gatherMzid.py:103-108 | With a base delay of -1, the first failure is followed by a wait of -1. `time.sleep` raises there, even with retries left and a success next in line. |
| Crawler.SelectLeaf | gatherMzid.py:41-45 | There is no file exactly when no listed name contains "mzid" in any case. Otherwise it is the first such name. |
| Crawler.LocalPath | gatherMzid.py:49 | The local path ends in "/" + the file name. |
| Crawler.FetchFile | gatherMzid.py:47-66 | An existing local path is skipped without contacting the server. A failed login or directory change leaves no file. A failed transfer leaves a partial file and raises its error. A successful transfer adds the file. |
| Crawler.PartialFileNeverRefetched | gatherMzid.py:50-65 | After a transfer failure, every later fetch of the same file is skipped. |
| Crawler.FetchFileIdempotent | gatherMzid.py:50-52 | After a successful fetch, fetching again changes nothing. |
| Crawler.FetchProject | gatherMzid.py:37-45 | A project yields at most one request: the first listed name containing "mzid". That download's error, if any, ends the crawl after the request. No such name means no request and no error. A listing error ends the crawl with that error. |
| Crawler.FetchProjects | gatherMzid.py:33-35 | Projects are visited in listing order, with at most one sound request each. |
| Crawler.FetchProjectsComplete | gatherMzid.py:30-45 | If the month finishes without error, every project was listed and each one holding an mzid file produced its request. |
| Crawler.FetchProjectsAppend | gatherMzid.py:33-35 | Visiting two lists of projects is visiting the first and then, if it finished, the second. |
| Crawler.FetchMonth | gatherMzid.py:30-35 | A month is listed and then its projects are visited. A listing error ends the crawl. |
| Crawler.FetchYear | gatherMzid.py:23-28 | A year is listed and then its months are visited. A listing error ends the crawl. |
| Crawler.FetchMonthsComplete | gatherMzid.py:23-45 | If a year finishes without error, every project of every month produced its request whenever it holds an mzid file. |
| Crawler.AllYears | gatherMzid.py:18-21 | The crawl starts from the archive root. Every request it makes is for the first mzid file of a listed project. |
| Extractor.Kind | unzipAll.py:24-40 | A name is handled as a zip exactly when it ends in ".zip" in any case. It is ignored exactly when it is not an archive. Otherwise it is handled as gzip. |
| Extractor.MemberPaths | unzipAll.py:85 | The extracted paths are the non-directory members joined to the directory, in archive order. |
| Extractor.ExtractZip | unzipAll.py:62-100 | A path list comes back exactly when the archive opened, passed its check and was unpacked. Unreadable and corrupt archives give none. |
| Extractor.ZipOutputsBesideArchive | unzipAll.py:71-85 | Every member of `root/name.zip` is extracted into `root`. |
| Extractor.GzipOutput | unzipAll.py:112-116 | The output name is a prefix of the archive path. The removed suffix is ".gzip" or ".gz" in any case, with ".gzip" tried first. |
| Extractor.GzipOutputOfStem | unzipAll.py:112-116 | Stripping the gzip suffix from stem + suffix gives back the stem. |
| Extractor.ExtractGzip | unzipAll.py:103-139 | A path comes back exactly when decompression succeeded. It is a proper prefix of the archive path. |
| Extractor.Handle | unzipAll.py:21-40 | Non-archives are ignored. A zip or gzip counts as failed exactly when its result is empty or missing. An unpacked zip yields its member paths, and a successful gzip yields its stripped name. |
| Extractor.DirectoryOnlyZipFails | unzipAll.py:28-85 | A zip holding only directory entries unpacks but is recorded as a failure. |
| Extractor.Collect | unzipAll.py:16-40 | The failures plus the successes account for every archive attempted. |
| Extractor.AttemptedAreArchives | unzipAll.py:24-40 | The archives attempted are exactly the files with an archive suffix. |
| Extractor.UnzipAll | unzipAll.py:14-59 | Every archive of the walk is either a success or on the failure list. |
| Extractor.CollectFailures | unzipAll.py:28-40 | Every failure is the path of an attempted archive whose extraction failed. |
| Extractor.CollectAll | unzipAll.py:28-38 | Every output of every archive that unpacked is on the extracted list. |
| Extractor.CollectOnly | unzipAll.py:28-38 | Every path on the extracted list is an output of an archive that unpacked. |
| Extractor.CollectOutputs | unzipAll.py:28-38 | The extracted list holds exactly the outputs of the archives that unpacked. |
| Extractor.Anomalies | unzipAll.py:51 | The anomaly list holds exactly the extracted paths not ending in ".mzid" in any case. |
| Extractor.AnomaliesEmptyIff | unzipAll.py:51-57 | There are no anomalies exactly when every extracted path ends in ".mzid". |
| Extractor.GzippedMzidNoAnomaly | unzipAll.py:51-116 | A gzipped `.mzid` file never shows up as an anomaly. |

## Left out

- File and network I/O is not modelled. This covers `open`, `os.walk`,
  `os.path.exists`, `os.path.getsize`, CSV reading and writing, FTP sessions,
  zip and gzip decoding, logging and `print`. Each appears as an input, such
  as the walk, the facts of a file, the set of existing paths, a lister
  function or an archive state, or is dropped.
- The order of `os.walk` is an input sequence. The model does not fix it.
- lxml parsing and XSD validation (`check_parseable`, `etree.XMLSchema`) are
  inputs: whether a file parses, its root attributes, and the validator's
  list of errors.
- `multiprocessing.Pool` is not modelled. A timeout is an input flag, and the
  timed-out result is modelled as the value the wrapper returns.
- `Strings.Lower` maps only ASCII letters. Python's `str.lower` also folds
  other characters. This affects file names (`is_archive`, the crawler's
  "mzid" test, the gzip suffix and the ".mzid" anomaly test), and also the
  validation verdicts described in the next line.
- Scheduler.ApplyOutcome: the memory-like test lower-cases the exception
  text and type name (validate_schemas.py:133-136), and the timeout test
  lower-cases the first message (validate_schemas.py:102), both with the
  ASCII-only `Strings.Lower`. A non-ASCII text that Python folds to a
  memory term or to "timed out" is therefore classified differently. For
  example, the Kelvin sign U+212A followed by "ill" lowers to "kill" in
  Python, so Python marks the row "out of memory" and halts. The model
  records "False" with "Schema validation error: ..." and carries on.
- Sizes.ParseFileSize: `float()` is modelled for optionally signed
  decimal numerals with at most one point. Exponents, underscores, "inf"
  and "nan" are not modelled. The model reads a numeral as an exact
  rational and scales it. Python first rounds the numeral to the nearest
  double, then multiplies in floating point. The two can differ in two
  places:
  - numerals with more than about 15 significant digits, at any size.
    "0.99999999999999999" reads as 0 here and as 1 in Python; with " KB"
    it reads as 1023 here and 1024 in Python;
  - formatted PB values from about 2^51 bytes up. "2.2 PB" (the text
    for 2476979795053773 bytes) reads back as 2476979795053772 here and
    2476979795053773 in Python.
- Sizes.FormatFileSize: the `.1f` rounding is exact rational half-to-even.
  It therefore matches Python only where the quotient is exactly
  representable or not near a tie. Every size below 2^53 bytes is in that
  range.
- Crawler.Login: the attempts are a finite script of outcomes. With
  `max_retries = 0` the source retries forever. The model stops when the
  script runs out and reports `Retrying`.
- Crawler.Login: the backoff is exact `real` arithmetic. Python computes
  `delay * 0.1 * jitter`, `delay + jitter`, `min(...)` and `delay * 2` in
  binary floating point, so a wait can differ from the model's in the last
  bits. A negative wait, which `time.sleep` rejects with `ValueError`, is
  decided on the exact value (`SleepRaised`). A wait so close to zero that
  rounding changes its sign is not modelled.
- Crawler.SleepBounds: the jitter is an input in [-1, 1). The clock it comes
  from is not modelled.
- MarkerSearch.ContainsStringExact: the exactness of the as-written search
  is stated only for markers no longer than one chunk. With chunks shorter
  than `len(marker) - 1` it can miss a match (see Findings).
- `load_existing_report` stopping early on a broken ledger is modelled only
  as the number of rows read (`rowsRead`). The exception text is not.
- `os.makedirs`, the directory the crawler creates before each download, is
  not modelled. The set of existing paths only ever holds files.
- gatherPrideData.py is not part of this model.
- `check_parseable`'s message text and the exception texts behind the
  `Memory error: ...` / `Subprocess killed: ...` messages are opaque
  inputs. Python's rendering of an exception as text is not modelled.
- Paths.ParseDirectory: a year or month numeral that does not fit a C int
  makes `date()` raise `OverflowError`, which escapes the handler and aborts
  `generate_report`. The model marks those paths (`DirectoryRaises`) but
  returns no date there, so the report model never aborts on them. The
  source would raise again on every run over such a mirror.
- Strings.ParseInt: `int()` is modelled as surrounding whitespace (Python's
  `str.isspace` set, stripped by `Strings.Strip`), an optional sign, and
  ASCII decimal digits with single underscores between them. Non-ASCII
  decimal digits, which `int()` also accepts, read as no number here.

## Findings

| source | as written | input that shows it | evidently intended | confidence | as-written member | corrected member |
|---|---|---|---|---|---|---|
| report.py:86 | The tail carried to the next read is cut from the current chunk alone, so it is shorter than `len(marker) - 1` whenever a chunk is shorter than that | `chunk_size = 1`, marker "abc", file content "abc": the answer is False | The tail is cut from `prev_tail + chunk`, so a marker spanning several short chunks is found | not executed | MarkerSearch.ShortChunksMissMarker | MarkerSearch.ContainsStringFixedExact |

The ledger itself uses a 1 MiB chunk and a ten-byte marker, so the as-written
search is exact there (`MarkerSearch.LedgerSearchExact`).

Other behaviours of the code that a reader of its documentation might not
expect. The model follows the code in each case:

- A failed transfer leaves a partial local file, and later crawls skip that
  file (`Crawler.PartialFileNeverRefetched`).
- One run of the ledger builder can write two rows with the same key
  (`Report.SameKeyTwiceInOneRun`).
- A single-URL schema location is rejected by the validator but accepted by
  the ledger builder (`Validator.SingleUrlRejected`).
- The validation pass rewrites the whole ledger in ascending size order
  (`Scheduler.ValidateSchemasOutcome`).

=== FILE: base.dfy ===
/** Small shared vocabulary: optional values and bytes. */
module Base {

  /** Python's `X | None`. */
  datatype Option<T> = None | Some(value: T) {
    /** `value or default`: the value when present, otherwise the default. */
    function GetOr(default: T): T {
      match this
      case Some(v) => v
      case None => default
    }
  }

  /** One byte of a file's content. */
  newtype byte = b: int | 0 <= b < 256
}

=== FILE: crawler.dfy ===
/** The mirror crawler's policy: logging in with bounded retries and capped
    exponential backoff, picking the one identification file of a project,
    skipping downloads already on disk, and walking the archive's
    year/month/project directories in listing order. The server, the clock
    and the local disk are inputs: a script of login attempts (each failure
    carrying the jitter drawn for it), a listing function and the set of
    local paths that exist. */
module Crawler {
  import opened Base
  import opened Strings

  // ------------------------------------------------------------ the login

  /** One connection attempt: it succeeds, or fails with an error, in which
      case `jitter` is the value `2 * (time.time() % 1) - 1` drawn for the
      wait that follows, a number in [-1, 1). */
  datatype LoginAttempt = Ok | Fail(error: string, jitter: real)

  /** How the login ends: connected on the given attempt, raised an error
      after the given number of attempts, `time.sleep` raised `ValueError`
      on a negative wait after the given attempt failed, or still retrying
      when the script of attempts ran out. */
  datatype LoginResult =
    | Connected(attempts: nat)
    | Raised(error: string, attempts: nat)
    | SleepRaised(attempts: nat)
    | Retrying(attempts: nat)

  const DefaultMaxRetries: int := 10
  const DefaultBaseDelay: real := 1.0
  const DefaultMaxDelay: real := 300.0
  const AllRetriesMsg: string := "FTP login failed after all retries"

  /** Python's two-argument `min`: the first argument unless the second is
      smaller. */
  function Min(a: real, b: real): (r: real)
    ensures r <= a && r <= b && (r == a || r == b)
  {
    if b < a then b else a
  }

  /** The base delay before the wait that follows the `k`-th failure
      (counting from 0): the initial delay, doubled after each wait and
      capped. */
  function Delay(baseDelay: real, maxDelay: real, k: nat): real {
    if k == 0 then baseDelay else Min(Delay(baseDelay, maxDelay, k - 1) * 2.0, maxDelay)
  }

  /** The wait itself: the delay moved by a tenth of itself times the
      jitter, capped. */
  function SleepTime(delay: real, maxDelay: real, jitter: real): real {
    Min(delay + delay * 0.1 * jitter, maxDelay)
  }

  function Pow2(k: nat): (r: real)
    ensures r >= 1.0
  {
    if k == 0 then 1.0 else 2.0 * Pow2(k - 1)
  }

  /** `b` doubled `k` times, uncapped. */
  function Doubled(b: real, k: nat): (r: real)
    ensures 0.0 <= b ==> 0.0 <= r
  {
    if k == 0 then b else Doubled(b, k - 1) * 2.0
  }

  /** Doubling `k` times multiplies by 2^k. */
  lemma {:induction false} DoubledIsScaled(b: real, k: nat)
    ensures Doubled(b, k) == b * Pow2(k)
  {
    if k > 0 {
      DoubledIsScaled(b, k - 1);
      var p := Pow2(k - 1);
      assert Pow2(k) == 2.0 * p;
      assert b * (2.0 * p) == (b * p) * 2.0;
    }
  }

  /** With a non-negative cap at least the initial delay, the delay after
      `k` waits is the initial delay times 2^k, capped. */
  lemma DelayClosedForm(baseDelay: real, maxDelay: real, k: nat)
    requires 0.0 <= baseDelay <= maxDelay
    ensures Delay(baseDelay, maxDelay, k) == Min(baseDelay * Pow2(k), maxDelay)
  {
    DelayCapsDoubled(baseDelay, maxDelay, k);
    DoubledIsScaled(baseDelay, k);
  }

  /** The delay after `k` waits is the initial delay doubled `k` times,
      capped. */
  lemma {:induction false} DelayCapsDoubled(baseDelay: real, maxDelay: real, k: nat)
    requires 0.0 <= baseDelay <= maxDelay
    ensures Delay(baseDelay, maxDelay, k) == Min(Doubled(baseDelay, k), maxDelay)
  {
    if k > 0 {
      DelayCapsDoubled(baseDelay, maxDelay, k - 1);
      DoubleCapped(Doubled(baseDelay, k - 1), maxDelay);
    }
  }

  /** Doubling a capped value and capping again is capping the doubled
      value. */
  lemma DoubleCapped(d: real, cap: real)
    requires 0.0 <= d && 0.0 <= cap
    ensures Min(Min(d, cap) * 2.0, cap) == Min(d * 2.0, cap)
  {
  }

  /** A wait never exceeds the cap and stays within a tenth of the delay of
      it. */
  lemma SleepBounds(delay: real, maxDelay: real, jitter: real)
    requires 0.0 <= delay && -1.0 <= jitter < 1.0
    ensures SleepTime(delay, maxDelay, jitter) <= maxDelay
    ensures Min(0.9 * delay, maxDelay) <= SleepTime(delay, maxDelay, jitter) <= Min(1.1 * delay, maxDelay)
  {
    assert -(delay * 0.1) <= delay * 0.1 * jitter <= delay * 0.1 by {
      assert delay * 0.1 * jitter == (delay * 0.1) * jitter;
      assert 0.0 <= delay * 0.1;
    }
  }

  /** The first `n` attempts of the script all failed. */
  predicate FailedFirst(script: seq<LoginAttempt>, n: nat) {
    n <= |script| && forall i :: 0 <= i < n ==> script[i].Fail?
  }

  /** `sleeps` are the waits after the first failures of the script: each
      the capped, jittered delay for its place in the sequence. */
  predicate WaitsFollow(script: seq<LoginAttempt>, baseDelay: real, maxDelay: real, sleeps: seq<real>) {
    && FailedFirst(script, |sleeps|)
    && forall i :: 0 <= i < |sleeps| ==>
         && sleeps[i] == SleepTime(Delay(baseDelay, maxDelay, i), maxDelay, script[i].jitter)
         && 0.0 <= sleeps[i] <= maxDelay
  }

  /** Delays as the callers pass them (non-negative) and jitters as the
      clock draws them (in [-1, 1)). */
  predicate SaneBackoff(script: seq<LoginAttempt>, baseDelay: real, maxDelay: real) {
    && 0.0 <= baseDelay && 0.0 <= maxDelay
    && forall i :: 0 <= i < |script| && script[i].Fail? ==> -1.0 <= script[i].jitter < 1.0
  }

  /** The login loop: attempts follow the script until one connects, until
      `maxRetries` have failed (then the last error is raised again), or
      forever when `maxRetries` is 0. The waits between attempts are
      returned in order. */
  method Login(script: seq<LoginAttempt>, maxRetries: int, baseDelay: real, maxDelay: real)
    returns (r: LoginResult, sleeps: seq<real>)
    ensures WaitsFollow(script, baseDelay, maxDelay, sleeps)
    ensures r.Connected? ==> 1 <= r.attempts <= |script| && script[r.attempts - 1].Ok? && FailedFirst(script, r.attempts - 1)
    ensures maxRetries > 0 ==> r.attempts <= maxRetries
    ensures maxRetries > 0 && r.Raised? ==>
      && r.attempts == maxRetries <= |script| && FailedFirst(script, maxRetries)
      && r.error == script[maxRetries - 1].error
    ensures maxRetries == 0 ==> !r.Raised?
    ensures r.SleepRaised? ==>
      && 1 <= r.attempts <= |script| && FailedFirst(script, r.attempts)
      && (maxRetries == 0 || r.attempts < maxRetries)
      && SleepTime(Delay(baseDelay, maxDelay, r.attempts - 1), maxDelay, script[r.attempts - 1].jitter) < 0.0
    ensures SaneBackoff(script, baseDelay, maxDelay) ==> !r.SleepRaised?
    ensures maxRetries < 0 ==> r == Raised(AllRetriesMsg, 0) && sleeps == []
    ensures r.Retrying? ==> r.attempts == |script| == |sleeps| && (maxRetries == 0 || |script| < maxRetries)
    ensures !r.Retrying? && r.attempts > 0 ==> |sleeps| == r.attempts - 1
  {
    var attempt: nat := 0;
    var delay := baseDelay;
    sleeps := [];
    while maxRetries == 0 || attempt < maxRetries
      invariant |sleeps| == attempt
      invariant maxRetries > 0 ==> attempt < maxRetries
      invariant maxRetries < 0 ==> attempt == 0
      invariant delay == Delay(baseDelay, maxDelay, attempt)
      invariant 0.0 <= baseDelay && 0.0 <= maxDelay ==> 0.0 <= delay
      invariant WaitsFollow(script, baseDelay, maxDelay, sleeps)
      decreases |script| - attempt
    {
      if attempt == |script| {
        r := Retrying(attempt);
        return;
      }
      attempt := attempt + 1;
      match script[attempt - 1]
      case Ok =>
        r := Connected(attempt);
        return;
      case Fail(error, jitter) =>
        if maxRetries != 0 && attempt >= maxRetries {
          r := Raised(error, attempt);
          return;
        }
        var wait := SleepTime(delay, maxDelay, jitter);
        if wait < 0.0 {
          if SaneBackoff(script, baseDelay, maxDelay) {
            SleepBounds(delay, maxDelay, jitter);
          }
          r := SleepRaised(attempt);
          return;
        }
        sleeps := sleeps + [wait];
        delay := Min(delay * 2.0, maxDelay);
    }
    r := Raised(AllRetriesMsg, attempt);
  }

  /** A negative initial delay makes the first wait negative, which
      `time.sleep` refuses, even with retries left. */
  method NegativeDelayRaises() returns (r: LoginResult)
    ensures r == SleepRaised(1)
  {
    var sleeps;
    r, sleeps := Login([Fail("530 Login incorrect", 0.0), Ok], DefaultMaxRetries, -1.0, DefaultMaxDelay);
    assert Delay(-1.0, DefaultMaxDelay, 0) == -1.0;
  }

  // ----------------------------------------------------- one project's file

  /** Whether a listed name is an identification file: "mzid" occurs in it,
      case aside. */
  predicate IsMzidName(name: string) {
    Occurs("mzid", Lower(name))
  }

  /** The file fetched for a project: the first listed name that is an
      identification file. */
  function SelectLeaf(names: seq<string>): (r: Option<string>)
    ensures r.None? <==> forall i :: 0 <= i < |names| ==> !IsMzidName(names[i])
    ensures r.Some? ==> exists i :: (0 <= i < |names| && names[i] == r.value
      && IsMzidName(names[i]) && forall j :: 0 <= j < i ==> !IsMzidName(names[j]))
  {
    if names == [] then None
    else if IsMzidName(names[0]) then Some(names[0])
    else
      var r := SelectLeaf(names[1..]);
      assert forall i :: 0 <= i < |names[1..]| ==> names[1..][i] == names[i + 1];
      r
  }

  // ---------------------------------------------------------- the download

  /** How the server side of one download goes: the login or the change of
      directory fails before the local file is opened, the transfer fails
      after it was opened, or the transfer completes. */
  datatype Transfer = LoginFailed(error: string) | CwdFailed(error: string) | RetrFailed(error: string) | Done

  datatype FetchOutcome = Skipped | Fetched | FetchRaised(error: string)

  const StoreDir: string := "~/mzid_store/"

  /** The local path of file `fileName` of project path `ymp`. */
  function LocalPath(ymp: string, fileName: string): (r: string)
    ensures EndsWith(r, "/" + fileName)
  {
    EndsWithAppend(StoreDir + ymp, "/" + fileName);
    assert StoreDir + ymp + "/" + fileName == (StoreDir + ymp) + ("/" + fileName);
    StoreDir + ymp + "/" + fileName
  }

  /** A download against the set `existing` of local paths: an existing
      target is skipped without touching the server; otherwise the file is
      created as soon as the transfer starts and stays even when the
      transfer then fails. Returns the local paths afterwards and the
      outcome. */
  function FetchFile(existing: set<string>, ymp: string, fileName: string, transfer: Transfer): (r: (set<string>, FetchOutcome))
    ensures LocalPath(ymp, fileName) in existing ==> r == (existing, Skipped)
    ensures r.1.Skipped? <==> LocalPath(ymp, fileName) in existing
    ensures r.1.Fetched? <==> LocalPath(ymp, fileName) !in existing && transfer.Done?
    ensures r.0 == existing || r.0 == existing + {LocalPath(ymp, fileName)}
    ensures (r.1.Fetched? || transfer.RetrFailed?) ==> LocalPath(ymp, fileName) in r.0
    ensures transfer.LoginFailed? || transfer.CwdFailed? ==> r.0 == existing
    ensures r.1.FetchRaised? ==> !transfer.Done? && r.1.error == transfer.error
  {
    var path := LocalPath(ymp, fileName);
    if path in existing then (existing, Skipped)
    else
      match transfer
      case LoginFailed(e) => (existing, FetchRaised(e))
      case CwdFailed(e) => (existing, FetchRaised(e))
      case RetrFailed(e) => (existing + {path}, FetchRaised(e))
      case Done => (existing + {path}, Fetched)
  }

  /** A download whose transfer failed part-way leaves its file behind, so
      every later attempt at the same file is skipped: the partial file is
      never fetched again. */
  lemma PartialFileNeverRefetched(existing: set<string>, ymp: string, fileName: string, e: string, later: Transfer)
    ensures var after := FetchFile(existing, ymp, fileName, RetrFailed(e)).0;
      FetchFile(after, ymp, fileName, later) == (after, Skipped)
  {
  }

  /** Downloading twice is downloading once: the second call skips. */
  lemma FetchFileIdempotent(existing: set<string>, ymp: string, fileName: string, t1: Transfer, t2: Transfer)
    requires t1.Done?
    ensures var first := FetchFile(existing, ymp, fileName, t1);
      FetchFile(first.0, ymp, fileName, t2) == (first.0, Skipped)
  {
  }

  // ---------------------------------------------------------- the traversal

  const ArchiveBase: string := "pride/data/archive"

  /** What listing a remote directory gives: its names, or the error the
      listing raised (a failed login, an unknown directory, or "550 No files
      found" for an empty one). */
  datatype Listing = Listed(names: seq<string>) | ListFailed(error: string)

  /** A download the walk asks for: file `fileName` of project path `ymp`
      ("year/month/project"). */
  datatype Request = Request(ymp: string, fileName: string)

  /** The downloads asked for, in order, and the error that ended the walk
      early, if any. */
  datatype Crawl = Crawl(requests: seq<Request>, error: Option<string>)

  function RemoteDir(path: string): string {
    ArchiveBase + "/" + path
  }

  /** The first walk, then the second unless the first raised. */
  function Then(a: Crawl, b: Crawl): (r: Crawl)
    ensures a.error.Some? ==> r == a
    ensures a.error.None? ==> r == Crawl(a.requests + b.requests, b.error)
  {
    if a.error.Some? then a else Crawl(a.requests + b.requests, b.error)
  }

  /** A request the walk may make for project path `ymp`: the project's
      listing succeeds and names `fileName` as its identification file. */
  predicate Sound(lister: string -> Listing, req: Request) {
    lister(RemoteDir(req.ymp)).Listed? && SelectLeaf(lister(RemoteDir(req.ymp)).names) == Some(req.fileName)
  }

  /** One project: list it, pick its file and download that. `fetch` says
      what each download raises, if anything. */
  function FetchProject(ymp: string, lister: string -> Listing, fetch: Request -> Option<string>): (r: Crawl)
    ensures |r.requests| <= 1
    ensures forall k :: 0 <= k < |r.requests| ==> r.requests[k].ymp == ymp && Sound(lister, r.requests[k])
    ensures r.error.None? ==> lister(RemoteDir(ymp)).Listed?
    ensures lister(RemoteDir(ymp)).Listed? && SelectLeaf(lister(RemoteDir(ymp)).names).Some? ==>
      var req := Request(ymp, SelectLeaf(lister(RemoteDir(ymp)).names).value);
      r == Crawl([req], fetch(req))
    ensures lister(RemoteDir(ymp)).Listed? && SelectLeaf(lister(RemoteDir(ymp)).names).None? ==> r == Crawl([], None)
    ensures lister(RemoteDir(ymp)).ListFailed? ==> r == Crawl([], Some(lister(RemoteDir(ymp)).error))
  {
    match lister(RemoteDir(ymp))
    case ListFailed(e) => Crawl([], Some(e))
    case Listed(names) =>
      match SelectLeaf(names)
      case None => Crawl([], None)
      case Some(f) => Crawl([Request(ymp, f)], fetch(Request(ymp, f)))
  }

  /** The projects `names` of month path `ym`, in listing order. */
  function FetchProjects(ym: string, names: seq<string>, lister: string -> Listing, fetch: Request -> Option<string>): (r: Crawl)
    ensures |r.requests| <= |names|
    ensures forall k :: 0 <= k < |r.requests| ==> (Sound(lister, r.requests[k])
      && exists i :: 0 <= i < |names| && r.requests[k].ymp == ym + "/" + names[i])
    decreases |names|
  {
    if names == [] then Crawl([], None)
    else
      var first := FetchProject(ym + "/" + names[0], lister, fetch);
      var rest := FetchProjects(ym, names[1..], lister, fetch);
      assert forall i :: 0 <= i < |names[1..]| ==> names[1..][i] == names[i + 1];
      Then(first, rest)
  }

  /** A walk that finishes without an error asks for the file of every
      listed project that has one. */
  lemma {:induction false} FetchProjectsComplete(ym: string, names: seq<string>, lister: string -> Listing, fetch: Request -> Option<string>, i: nat)
    requires FetchProjects(ym, names, lister, fetch).error.None?
    requires i < |names|
    ensures lister(RemoteDir(ym + "/" + names[i])).Listed?
    ensures var leaf := SelectLeaf(lister(RemoteDir(ym + "/" + names[i])).names);
      leaf.Some? ==> Request(ym + "/" + names[i], leaf.value) in FetchProjects(ym, names, lister, fetch).requests
    decreases |names|
  {
    if i > 0 {
      FetchProjectsComplete(ym, names[1..], lister, fetch, i - 1);
      assert names[1..][i - 1] == names[i];
    }
  }

  lemma ThenAssoc(a: Crawl, b: Crawl, c: Crawl)
    ensures Then(a, Then(b, c)) == Then(Then(a, b), c)
  {
    if a.error.None? && b.error.None? {
      assert a.requests + (b.requests + c.requests) == (a.requests + b.requests) + c.requests;
    }
  }

  /** The walk goes through the names in order: over `a + b` it is the walk
      over `a` and, unless that raised, then the walk over `b`. */
  lemma {:induction false} FetchProjectsAppend(ym: string, a: seq<string>, b: seq<string>, lister: string -> Listing, fetch: Request -> Option<string>)
    ensures FetchProjects(ym, a + b, lister, fetch)
      == Then(FetchProjects(ym, a, lister, fetch), FetchProjects(ym, b, lister, fetch))
    decreases |a|
  {
    if a == [] {
      assert a + b == b;
    } else {
      assert (a + b)[1..] == a[1..] + b && (a + b)[0] == a[0];
      FetchProjectsAppend(ym, a[1..], b, lister, fetch);
      var first := FetchProject(ym + "/" + a[0], lister, fetch);
      ThenAssoc(first, FetchProjects(ym, a[1..], lister, fetch), FetchProjects(ym, b, lister, fetch));
    }
  }

  /** One month path "year/month": list it, then walk its projects. */
  function FetchMonth(ym: string, lister: string -> Listing, fetch: Request -> Option<string>): (r: Crawl)
    ensures lister(RemoteDir(ym)).ListFailed? ==> r == Crawl([], Some(lister(RemoteDir(ym)).error))
    ensures lister(RemoteDir(ym)).Listed? ==> r == FetchProjects(ym, lister(RemoteDir(ym)).names, lister, fetch)
    ensures forall k :: 0 <= k < |r.requests| ==> Sound(lister, r.requests[k])
  {
    match lister(RemoteDir(ym))
    case ListFailed(e) => Crawl([], Some(e))
    case Listed(names) => FetchProjects(ym, names, lister, fetch)
  }

  /** The months `names` of `year`, in listing order. */
  function FetchMonths(year: string, names: seq<string>, lister: string -> Listing, fetch: Request -> Option<string>): (r: Crawl)
    ensures forall k :: 0 <= k < |r.requests| ==> Sound(lister, r.requests[k])
    decreases |names|
  {
    if names == [] then Crawl([], None)
    else Then(FetchMonth(year + "/" + names[0], lister, fetch), FetchMonths(year, names[1..], lister, fetch))
  }

  /** One year: list it, then walk its months. */
  function FetchYear(year: string, lister: string -> Listing, fetch: Request -> Option<string>): (r: Crawl)
    ensures lister(RemoteDir(year)).ListFailed? ==> r == Crawl([], Some(lister(RemoteDir(year)).error))
    ensures lister(RemoteDir(year)).Listed? ==> r == FetchMonths(year, lister(RemoteDir(year)).names, lister, fetch)
    ensures forall k :: 0 <= k < |r.requests| ==> Sound(lister, r.requests[k])
  {
    match lister(RemoteDir(year))
    case ListFailed(e) => Crawl([], Some(e))
    case Listed(names) => FetchMonths(year, names, lister, fetch)
  }

  /** Month path `ym` lists, and if it has a `j`-th project, that project
      lists and the request for its identification file (when it has one)
      is among `reqs`. */
  predicate MonthFetched(lister: string -> Listing, ym: string, j: nat, reqs: seq<Request>) {
    && lister(RemoteDir(ym)).Listed?
    && var projects := lister(RemoteDir(ym)).names;
      j < |projects| ==>
        var ymp := ym + "/" + projects[j];
        && lister(RemoteDir(ymp)).Listed?
        && (SelectLeaf(lister(RemoteDir(ymp)).names).Some? ==>
              Request(ymp, SelectLeaf(lister(RemoteDir(ymp)).names).value) in reqs)
  }

  /** A year walk that finishes without an error asks for the file of every
      project of every listed month that has one. */
  lemma {:induction false} FetchMonthsComplete(year: string, months: seq<string>, lister: string -> Listing, fetch: Request -> Option<string>, i: nat, j: nat)
    requires FetchMonths(year, months, lister, fetch).error.None?
    requires i < |months|
    ensures MonthFetched(lister, year + "/" + months[i], j, FetchMonths(year, months, lister, fetch).requests)
    decreases |months|
  {
    var first := FetchMonth(year + "/" + months[0], lister, fetch);
    var rest := FetchMonths(year, months[1..], lister, fetch);
    assert first.error.None? && rest.error.None?;
    assert FetchMonths(year, months, lister, fetch).requests == first.requests + rest.requests;
    if i > 0 {
      FetchMonthsComplete(year, months[1..], lister, fetch, i - 1, j);
      assert months[1..][i - 1] == months[i];
      MonthFetchedMore(lister, year + "/" + months[i], j, first.requests, rest.requests);
    } else {
      MonthComplete(year + "/" + months[0], lister, fetch, j);
      MonthFetchedMore(lister, year + "/" + months[0], j, rest.requests, first.requests);
    }
  }

  /** A month walk that finishes without an error asks for the file of every
      project it lists. */
  lemma MonthComplete(ym: string, lister: string -> Listing, fetch: Request -> Option<string>, j: nat)
    requires FetchMonth(ym, lister, fetch).error.None?
    ensures MonthFetched(lister, ym, j, FetchMonth(ym, lister, fetch).requests)
  {
    var projects := lister(RemoteDir(ym)).names;
    if j < |projects| {
      FetchProjectsComplete(ym, projects, lister, fetch, j);
    }
  }

  /** Requests made before or after do not take away a fetched month. */
  lemma MonthFetchedMore(lister: string -> Listing, ym: string, j: nat, pre: seq<Request>, reqs: seq<Request>)
    requires MonthFetched(lister, ym, j, reqs)
    ensures MonthFetched(lister, ym, j, pre + reqs)
    ensures MonthFetched(lister, ym, j, reqs + pre)
  {
  }

  /** Every year in the archive's listing, in order. */
  function AllYears(lister: string -> Listing, fetch: Request -> Option<string>): (r: Crawl)
    ensures lister(ArchiveBase).ListFailed? ==> r == Crawl([], Some(lister(ArchiveBase).error))
    ensures forall k :: 0 <= k < |r.requests| ==> Sound(lister, r.requests[k])
  {
    match lister(ArchiveBase)
    case ListFailed(e) => Crawl([], Some(e))
    case Listed(years) => FetchYears(years, lister, fetch)
  }

  function FetchYears(years: seq<string>, lister: string -> Listing, fetch: Request -> Option<string>): (r: Crawl)
    ensures forall k :: 0 <= k < |r.requests| ==> Sound(lister, r.requests[k])
    decreases |years|
  {
    if years == [] then Crawl([], None)
    else Then(FetchYear(years[0], lister, fetch), FetchYears(years[1..], lister, fetch))
  }
}

=== FILE: extractor.dfy ===
/** The archive extractor: every file of the mirror whose name ends in
    ".zip", ".gz" or ".gzip" (case aside) is unpacked next to itself; the
    unpacked paths and the archives that yielded nothing are collected, and
    the unpacked paths not ending in ".mzid" are reported. Reading archives
    is not modelled: what opening, testing and unpacking each archive gives
    is an input. */
module Extractor {
  import opened Base
  import opened Strings
  import opened Seqs
  import opened Paths
  import opened Report

  // ---------------------------------------------------------- dispatch

  datatype ArchiveKind = NotArchive | ZipKind | GzipKind

  /** Which extraction a file name goes to, by its case-folded suffix. */
  function Kind(name: string): (k: ArchiveKind)
    ensures k.NotArchive? <==> !IsArchive(name)
    ensures k.ZipKind? <==> EndsWith(Lower(name), ".zip")
    ensures k.GzipKind? ==> EndsWith(Lower(name), ".gz") || EndsWith(Lower(name), ".gzip")
  {
    var lower := Lower(name);
    if EndsWith(lower, ".zip") then ZipKind
    else if EndsWith(lower, ".gz") || EndsWith(lower, ".gzip") then GzipKind
    else NotArchive
  }

  // ---------------------------------------------------------- zip archives

  /** What a zip archive gives: it cannot be opened (a bad zip, a denied
      permission, any other error), its test names a corrupt member, or it
      lists `members` and unpacking them either raised or completed. */
  datatype ZipState = ZipUnreadable | ZipCorrupt | ZipContents(members: seq<string>, unpacked: bool)

  /** A member that is a file rather than a directory entry. */
  predicate IsFileMember(m: string) {
    !EndsWith(m, "/")
  }

  /** The paths of the file members unpacked into `dir`, in member order. */
  function MemberPaths(dir: string, members: seq<string>): (r: seq<string>)
    ensures |r| == |Filter(members, IsFileMember)|
    ensures forall i :: 0 <= i < |r| ==> r[i] == PathJoin(dir, Filter(members, IsFileMember)[i])
  {
    if members == [] then []
    else
      var kept := if IsFileMember(members[0]) then [members[0]] else [];
      var head := if IsFileMember(members[0]) then [PathJoin(dir, members[0])] else [];
      var rest := MemberPaths(dir, members[1..]);
      assert Filter(members, IsFileMember) == kept + Filter(members[1..], IsFileMember);
      JoinedStep(dir, kept, Filter(members[1..], IsFileMember), head, rest);
      head + rest
  }

  /** Joining is element-wise, so it distributes over a concatenation. */
  lemma JoinedStep(dir: string, kept: seq<string>, names: seq<string>, head: seq<string>, rest: seq<string>)
    requires |head| == |kept| && forall i :: 0 <= i < |kept| ==> head[i] == PathJoin(dir, kept[i])
    requires |rest| == |names| && forall i :: 0 <= i < |names| ==> rest[i] == PathJoin(dir, names[i])
    ensures |head + rest| == |kept + names|
    ensures forall i :: 0 <= i < |head + rest| ==> (head + rest)[i] == PathJoin(dir, (kept + names)[i])
  {
    forall i | 0 <= i < |head + rest|
      ensures (head + rest)[i] == PathJoin(dir, (kept + names)[i])
    {
      if i >= |head| {
        assert (head + rest)[i] == rest[i - |head|];
        assert (kept + names)[i] == names[i - |kept|];
      }
    }
  }

  /** The zip archive at `zipPath` unpacked into its own directory: `None`
      when it cannot be read, is found corrupt before anything is unpacked,
      or unpacking raises; otherwise the paths of its file members. */
  function ExtractZip(zipPath: string, z: ZipState): (r: Option<seq<string>>)
    ensures r.Some? <==> z.ZipContents? && z.unpacked
    ensures r.Some? ==> |r.value| == |Filter(z.members, IsFileMember)|
    ensures r.Some? ==> forall i :: 0 <= i < |r.value| ==>
      r.value[i] == PathJoin(Dirname(zipPath), Filter(z.members, IsFileMember)[i])
  {
    match z
    case ZipUnreadable => None
    case ZipCorrupt => None
    case ZipContents(members, unpacked) =>
      if unpacked then Some(MemberPaths(Dirname(zipPath), members)) else None
  }

  /** A zip found by the walk unpacks next to itself: each output is the
      walked directory joined with a file member's name. */
  lemma ZipOutputsBesideArchive(root: string, name: string, members: seq<string>)
    requires |root| > 0 && root[|root| - 1] != '/'
    requires |name| > 0 && '/' !in name
    ensures var r := ExtractZip(PathJoin(root, name), ZipContents(members, true));
      r.Some? && forall i :: 0 <= i < |r.value| ==> r.value[i] == PathJoin(root, Filter(members, IsFileMember)[i])
  {
    DirnameOfJoin(root, name);
  }

  // --------------------------------------------------------- gzip archives

  /** The output path of a gzip archive: the path less its last five
      characters when it ends in ".gzip" (case aside), otherwise less its
      last three. */
  function GzipOutput(path: string): (r: string)
    ensures StartsWith(path, r)
    ensures EndsWith(Lower(path), ".gzip") ==> Lower(path[|r|..]) == ".gzip"
    ensures EndsWith(Lower(path), ".gz") ==> Lower(path[|r|..]) == ".gz"
  {
    var n := |path|;
    if EndsWith(Lower(path), ".gzip") then
      LowerSlice(path, n - 5, n);
      assert !EndsWith(Lower(path), ".gz") by {
        assert Lower(path)[n - 5..][4] == 'p';
        assert Lower(path)[n - 3..][2] == 'p';
      }
      path[..n - 5]
    else if n >= 3 then
      LowerSlice(path, n - 3, n);
      path[..n - 3]
    else []
  }

  /** Stripping the suffix is undone by putting it back: a stem followed by
      ".gz" or ".gzip" in any case comes back as the stem. */
  lemma GzipOutputOfStem(stem: string, ext: string)
    requires Lower(ext) == ".gz" || Lower(ext) == ".gzip"
    ensures GzipOutput(stem + ext) == stem
  {
    var p := stem + ext;
    LowerAppend(stem, ext);
    EndsWithAppend(Lower(stem), Lower(ext));
    if Lower(ext) == ".gz" {
      assert Lower(p)[|p| - 1] == 'z';
      assert !EndsWith(Lower(p), ".gzip");
    }
    assert p[..|stem|] == stem;
  }

  /** The gzip archive at `path` unpacked: its output path, or `None` when
      reading or writing raised. */
  function ExtractGzip(path: string, ok: bool): (r: Option<string>)
    ensures r.Some? <==> ok
    ensures r.Some? ==> StartsWith(path, r.value) && (|path| > 0 ==> |r.value| < |path|)
  {
    if ok then Some(GzipOutput(path)) else None
  }

  // ------------------------------------------------------------- the walk

  /** A file the walk meets: its directory and its name. */
  datatype FileEntry = FileEntry(root: string, name: string)

  function EntryPath(e: FileEntry): string {
    PathJoin(e.root, e.name)
  }

  /** What became of one walked file: not an archive, unpacked into the
      given (non-empty) paths, or recorded as failed. */
  datatype Handled = Ignored | Unpacked(paths: seq<string>) | FailedArchive

  /** One walked file: an archive whose extraction yields nothing (no
      result, no file members, or an empty output path) is a failure. */
  function Handle(e: FileEntry, zips: string -> ZipState, gzips: string -> bool): (r: Handled)
    ensures r.Ignored? <==> !IsArchive(e.name)
    ensures r.Unpacked? ==> |r.paths| > 0
    ensures Kind(e.name).ZipKind? && r.Unpacked? ==> Some(r.paths) == ExtractZip(EntryPath(e), zips(EntryPath(e)))
    ensures Kind(e.name).ZipKind? ==> (r.FailedArchive? <==>
      ExtractZip(EntryPath(e), zips(EntryPath(e))).None? || ExtractZip(EntryPath(e), zips(EntryPath(e))).value == [])
    ensures Kind(e.name).GzipKind? && r.Unpacked? ==> r.paths == [GzipOutput(EntryPath(e))]
    ensures Kind(e.name).GzipKind? ==> (r.FailedArchive? <==> !gzips(EntryPath(e)) || GzipOutput(EntryPath(e)) == [])
  {
    var path := EntryPath(e);
    match Kind(e.name)
    case NotArchive => Ignored
    case ZipKind =>
      var result := ExtractZip(path, zips(path));
      if result.Some? && |result.value| > 0 then Unpacked(result.value) else FailedArchive
    case GzipKind =>
      var result := ExtractGzip(path, gzips(path));
      if result.Some? && |result.value| > 0 then Unpacked([result.value]) else FailedArchive
  }

  /** A zip holding only directory entries counts as failed although it
      unpacked without error. */
  lemma DirectoryOnlyZipFails(e: FileEntry, zips: string -> ZipState, gzips: string -> bool)
    requires Kind(e.name).ZipKind?
    requires zips(EntryPath(e)).ZipContents? && zips(EntryPath(e)).unpacked
    requires forall i :: 0 <= i < |zips(EntryPath(e)).members| ==> !IsFileMember(zips(EntryPath(e)).members[i])
    ensures Handle(e, zips, gzips) == FailedArchive
  {
    FilterNone(zips(EntryPath(e)).members, IsFileMember);
  }

  /** The handling of every walked file under the given archive
      contents. */
  function Handler(zips: string -> ZipState, gzips: string -> bool): FileEntry -> Handled {
    e => Handle(e, zips, gzips)
  }

  function Archives(es: seq<FileEntry>): (n: nat)
    ensures n <= |es|
  {
    if es == [] then 0 else (if IsArchive(es[0].name) then 1 else 0) + Archives(es[1..])
  }

  /** How many of the files `h` attempts, and how many it unpacks. */
  function Attempted(es: seq<FileEntry>, h: FileEntry -> Handled): nat {
    if es == [] then 0 else (if h(es[0]).Ignored? then 0 else 1) + Attempted(es[1..], h)
  }

  function Successes(es: seq<FileEntry>, h: FileEntry -> Handled): nat {
    if es == [] then 0 else (if h(es[0]).Unpacked? then 1 else 0) + Successes(es[1..], h)
  }

  /** The unpacked paths and the failed archives of the walked files `es`,
      both in walk order, `h` saying what became of each file. */
  function Collect(es: seq<FileEntry>, h: FileEntry -> Handled): (r: (seq<string>, seq<string>))
    ensures |r.1| + Successes(es, h) == Attempted(es, h)
    decreases |es|
  {
    if es == [] then ([], [])
    else
      var rest := Collect(es[1..], h);
      match h(es[0])
      case Ignored => rest
      case Unpacked(paths) => (paths + rest.0, rest.1)
      case FailedArchive => (rest.0, [EntryPath(es[0])] + rest.1)
  }

  /** The files attempted are exactly the archives. */
  lemma {:induction false} AttemptedAreArchives(es: seq<FileEntry>, zips: string -> ZipState, gzips: string -> bool)
    ensures Attempted(es, Handler(zips, gzips)) == Archives(es)
    decreases |es|
  {
    if es != [] {
      AttemptedAreArchives(es[1..], zips, gzips);
      assert Handler(zips, gzips)(es[0]) == Handle(es[0], zips, gzips);
    }
  }

  /** The extraction of the whole mirror: every archive is counted exactly
      once, as a success or as a failure. */
  function UnzipAll(es: seq<FileEntry>, zips: string -> ZipState, gzips: string -> bool): (r: (seq<string>, seq<string>))
    ensures |r.1| + Successes(es, Handler(zips, gzips)) == Archives(es)
  {
    AttemptedAreArchives(es, zips, gzips);
    Collect(es, Handler(zips, gzips))
  }

  /** The failure list names exactly the files whose handling failed. */
  lemma {:induction false} CollectFailures(es: seq<FileEntry>, h: FileEntry -> Handled)
    ensures var failed := Collect(es, h).1;
      && (forall j :: 0 <= j < |es| && h(es[j]).FailedArchive? ==> EntryPath(es[j]) in failed)
      && (forall i :: 0 <= i < |failed| ==>
            exists j :: 0 <= j < |es| && h(es[j]).FailedArchive? && failed[i] == EntryPath(es[j]))
    decreases |es|
  {
    FailuresListed(es, h);
    FailuresOnly(es, h);
  }

  lemma {:induction false} FailuresListed(es: seq<FileEntry>, h: FileEntry -> Handled)
    ensures forall j :: 0 <= j < |es| && h(es[j]).FailedArchive? ==> EntryPath(es[j]) in Collect(es, h).1
    decreases |es|
  {
    if es != [] {
      FailuresListed(es[1..], h);
      assert forall j :: 1 <= j < |es| ==> es[j] == es[1..][j - 1];
    }
  }

  lemma {:induction false} FailuresOnly(es: seq<FileEntry>, h: FileEntry -> Handled)
    ensures forall i :: 0 <= i < |Collect(es, h).1| ==>
      exists j :: 0 <= j < |es| && h(es[j]).FailedArchive? && Collect(es, h).1[i] == EntryPath(es[j])
    decreases |es|
  {
    if es != [] {
      FailuresOnly(es[1..], h);
      var failed := Collect(es, h).1;
      var rest := Collect(es[1..], h).1;
      var first := if h(es[0]).FailedArchive? then [EntryPath(es[0])] else [];
      assert failed == first + rest;
      forall i | 0 <= i < |failed|
        ensures exists j :: 0 <= j < |es| && h(es[j]).FailedArchive? && failed[i] == EntryPath(es[j])
      {
        if i < |first| {
          assert failed[i] == EntryPath(es[0]);
        } else {
          assert failed[i] == rest[i - |first|];
          var j :| 0 <= j < |es[1..]| && h(es[1..][j]).FailedArchive? && rest[i - |first|] == EntryPath(es[1..][j]);
          assert es[1..][j] == es[j + 1];
        }
      }
    } else {
      assert Collect(es, h).1 == [];
    }
  }

  /** `x` is one of the outputs of a file of `es` that unpacked. */
  ghost predicate FromUnpacked(es: seq<FileEntry>, h: FileEntry -> Handled, x: string) {
    exists j :: 0 <= j < |es| && h(es[j]).Unpacked? && x in h(es[j]).paths
  }

  /** Every output of every file that unpacked is in the extracted list, and
      nothing else is. */
  lemma CollectOutputs(es: seq<FileEntry>, h: FileEntry -> Handled)
    ensures var extracted := Collect(es, h).0;
      && (forall j, k :: 0 <= j < |es| && h(es[j]).Unpacked? && 0 <= k < |h(es[j]).paths| ==> h(es[j]).paths[k] in extracted)
      && OnlyFrom(es, h, extracted)
  {
    CollectAll(es, h);
    CollectOnly(es, h);
  }

  lemma {:induction false} CollectAll(es: seq<FileEntry>, h: FileEntry -> Handled)
    ensures var extracted := Collect(es, h).0;
      forall j, k :: 0 <= j < |es| && h(es[j]).Unpacked? && 0 <= k < |h(es[j]).paths| ==> h(es[j]).paths[k] in extracted
    decreases |es|
  {
    if es != [] {
      CollectAll(es[1..], h);
      var extracted := Collect(es, h).0;
      var rest := Collect(es[1..], h).0;
      assert forall x :: x in rest ==> x in extracted;
      forall j, k | 0 <= j < |es| && h(es[j]).Unpacked? && 0 <= k < |h(es[j]).paths|
        ensures h(es[j]).paths[k] in extracted
      {
        if j > 0 {
          assert es[j] == es[1..][j - 1];
        }
      }
    }
  }

  /** Every element of `xs` is an output of a file of `es` that unpacked. */
  ghost predicate OnlyFrom(es: seq<FileEntry>, h: FileEntry -> Handled, xs: seq<string>) {
    forall i :: 0 <= i < |xs| ==> FromUnpacked(es, h, xs[i])
  }

  lemma {:induction false} CollectOnly(es: seq<FileEntry>, h: FileEntry -> Handled)
    ensures OnlyFrom(es, h, Collect(es, h).0)
    decreases |es|
  {
    if es != [] {
      CollectOnly(es[1..], h);
      var rest := Collect(es[1..], h).0;
      var front := if h(es[0]).Unpacked? then h(es[0]).paths else [];
      assert Collect(es, h).0 == front + rest;
      OnlyFromCons(es, h, front, rest);
    }
  }

  /** The outputs of the first file followed by outputs of the later files
      are all outputs of the whole listing. */
  lemma OnlyFromCons(es: seq<FileEntry>, h: FileEntry -> Handled, front: seq<string>, rest: seq<string>)
    requires es != [] && OnlyFrom(es[1..], h, rest)
    requires front == if h(es[0]).Unpacked? then h(es[0]).paths else []
    ensures OnlyFrom(es, h, front + rest)
  {
    var xs := front + rest;
    forall i | 0 <= i < |xs|
      ensures FromUnpacked(es, h, xs[i])
    {
      if i < |front| {
        assert xs[i] in h(es[0]).paths;
      } else {
        assert xs[i] == rest[i - |front|];
        FromTail(es, h, rest[i - |front|]);
      }
    }
  }

  /** An output of a file of `es[1..]` is an output of a file of `es`. */
  lemma FromTail(es: seq<FileEntry>, h: FileEntry -> Handled, x: string)
    requires es != [] && FromUnpacked(es[1..], h, x)
    ensures FromUnpacked(es, h, x)
  {
    var j :| 0 <= j < |es[1..]| && h(es[1..][j]).Unpacked? && x in h(es[1..][j]).paths;
    assert es[1..][j] == es[j + 1];
  }

  // ------------------------------------------------------------ anomalies

  predicate NotMzid(path: string) {
    !EndsWith(Lower(path), ".mzid")
  }

  /** The unpacked paths that do not end in ".mzid" (case aside), in
      order. */
  function Anomalies(extracted: seq<string>): (r: seq<string>)
    ensures forall i :: 0 <= i < |r| ==> r[i] in extracted && NotMzid(r[i])
    ensures forall i :: 0 <= i < |extracted| && NotMzid(extracted[i]) ==> extracted[i] in r
  {
    Filter(extracted, NotMzid)
  }

  /** The report says all unpacked files end in ".mzid" exactly when they
      do. */
  lemma AnomaliesEmptyIff(extracted: seq<string>)
    ensures Anomalies(extracted) == [] <==> forall i :: 0 <= i < |extracted| ==> !NotMzid(extracted[i])
  {
    if Anomalies(extracted) != [] {
      assert Anomalies(extracted)[0] in extracted;
    }
  }

  /** A gzipped identification file unpacks to a name ending in ".mzid",
      which is no anomaly. */
  lemma GzippedMzidNoAnomaly(stem: string, ext: string)
    requires Lower(ext) == ".gz" || Lower(ext) == ".gzip"
    requires EndsWith(Lower(stem), ".mzid")
    ensures Anomalies([GzipOutput(stem + ext)]) == []
  {
    GzipOutputOfStem(stem, ext);
  }
}

=== FILE: marker_search.dfy ===
/** The report builder's chunked marker search: the file is read in chunks
    of `chunkSize` bytes, and each chunk is searched together with the tail
    of the previous one (marker length - 1 bytes) so that a marker straddling
    a chunk boundary is still seen, while memory stays bounded by about two
    chunks. */
module MarkerSearch {
  import opened Base
  import opened Strings

  /** What `f.read(chunkSize)` returns at offset `pos` of a regular file: up
      to `chunkSize` bytes, everything left for a negative size, nothing for
      size 0 or at the end. */
  function ReadChunk(data: seq<byte>, pos: nat, chunkSize: int): (chunk: seq<byte>)
    requires pos <= |data|
    ensures pos + |chunk| <= |data| && chunk == data[pos..pos + |chunk|]
    ensures chunkSize < 0 ==> pos + |chunk| == |data|
    ensures chunkSize >= 0 ==> |chunk| == if pos + chunkSize <= |data| then chunkSize else |data| - pos
  {
    var end := if chunkSize < 0 || pos + chunkSize > |data| then |data| else pos + chunkSize;
    data[pos..end]
  }

  /** Python's `s[-k:]`: for k > 0 the last k bytes (all of s if shorter),
      for k = 0 all of s, for k < 0 all but the first -k bytes. */
  function SliceFromEnd(s: seq<byte>, k: int): (r: seq<byte>)
    ensures EndsWith(s, r)
    ensures k >= 0 ==> |r| == if k == 0 || k >= |s| then |s| else k
  {
    var start := if k <= 0 then (if -k >= |s| then |s| else -k)
                 else (if |s| - k < 0 then 0 else |s| - k);
    s[start..]
  }

  /** The tail the source keeps for the next round: the chunk's last
      `overlap` bytes when the chunk is longer than that, else the whole
      chunk. */
  function NextTail(chunk: seq<byte>, overlap: int): (r: seq<byte>)
    ensures EndsWith(chunk, r)
  {
    if |chunk| > overlap then SliceFromEnd(chunk, overlap) else chunk
  }

  /** The search loop from offset `pos` with `prevTail` kept from the last
      chunk. */
  function Scan(data: seq<byte>, marker: seq<byte>, chunkSize: int, pos: nat, prevTail: seq<byte>): bool
    requires pos <= |data|
    decreases |data| - pos
  {
    var chunk := ReadChunk(data, pos, chunkSize);
    if |chunk| == 0 then false
    else if Occurs(marker, prevTail + chunk) then true
    else Scan(data, marker, chunkSize, pos + |chunk|, NextTail(chunk, |marker| - 1))
  }

  /** The chunked search as the source writes it, over the file's bytes. */
  function ContainsString(data: seq<byte>, marker: seq<byte>, chunkSize: int): bool
  {
    Scan(data, marker, chunkSize, 0, [])
  }

  /** An unreadable file (the `open`/`read` raised) counts as not containing
      the marker. */
  function ContainsStringInFile(content: Option<seq<byte>>, marker: seq<byte>, chunkSize: int): (r: bool)
    ensures content.None? ==> !r
    ensures r ==> content.Some? && Occurs(marker, content.value)
    ensures content.Some? && 1 <= |marker| <= chunkSize ==> (r <==> Occurs(marker, content.value))
  {
    match content
    case None => false
    case Some(data) =>
      var found := ContainsString(data, marker, chunkSize);
      if found then ScanSound(data, marker, chunkSize, 0, []); found
      else if 1 <= |marker| <= chunkSize then ContainsStringExact(data, marker, chunkSize); found
      else found
  }

  /** The ledger's marker "MS:1002511", UTF-8 encoded. */
  const Marker: seq<byte> := [77, 83, 58, 49, 48, 48, 50, 53, 49, 49]

  /** The source's default chunk size, 1 MiB. */
  const DefaultChunk: int := 1024 * 1024

  // --------------------------------------------------------------- lemmas

  /** A match inside a contiguous slice of the data is a match in the data. */
  lemma OccursFromSlice(marker: seq<byte>, data: seq<byte>, lo: int, hi: int)
    requires 0 <= lo <= hi <= |data|
    requires Occurs(marker, data[lo..hi])
    ensures Occurs(marker, data)
  {
    var w := data[lo..hi];
    var j :| 0 <= j <= |w| - |marker| && OccursAt(marker, w, j);
    var a, b := data[lo + j..lo + j + |marker|], w[j..j + |marker|];
    assert |a| == |b|;
    forall k | 0 <= k < |a| ensures a[k] == b[k] {
      assert a[k] == data[lo + j + k];
    }
    assert a == b;
    assert OccursAt(marker, data, lo + j);
  }

  /** A match of the data lying inside a slice is a match of the slice. */
  lemma OccursInSlice(marker: seq<byte>, data: seq<byte>, lo: int, hi: int, i: int)
    requires 0 <= lo <= i && i + |marker| <= hi <= |data|
    requires OccursAt(marker, data, i)
    ensures Occurs(marker, data[lo..hi])
  {
    var w := data[lo..hi];
    var a, b := w[i - lo..i - lo + |marker|], data[i..i + |marker|];
    assert |a| == |b|;
    forall k | 0 <= k < |a| ensures a[k] == b[k] {
      assert b[k] == data[i + k];
    }
    assert a == b;
    assert OccursAt(marker, w, i - lo);
  }

  /** The search never reports a marker that is not there, whatever the
      chunk size. */
  lemma {:induction false} ScanSound(data: seq<byte>, marker: seq<byte>, chunkSize: int, pos: nat, prevTail: seq<byte>)
    requires pos <= |data|
    requires |prevTail| <= pos && prevTail == data[pos - |prevTail|..pos]
    requires Scan(data, marker, chunkSize, pos, prevTail)
    ensures Occurs(marker, data)
    decreases |data| - pos
  {
    var chunk := ReadChunk(data, pos, chunkSize);
    var lo := pos - |prevTail|;
    var hi := pos + |chunk|;
    assert prevTail + chunk == data[lo..hi];
    if Occurs(marker, prevTail + chunk) {
      OccursFromSlice(marker, data, lo, hi);
    } else {
      var tail := NextTail(chunk, |marker| - 1);
      assert tail == data[hi - |tail|..hi];
      ScanSound(data, marker, chunkSize, hi, tail);
    }
  }

  /** One round of the loop, under the source's condition that a chunk is
      at least as long as the marker: what the search returns from `pos` on
      is whether the marker occurs anywhere, given that none ends at or
      before `pos` and the kept tail reaches back `|marker| - 1` bytes (or to
      the start of the file). */
  lemma {:induction false} ScanExact(data: seq<byte>, marker: seq<byte>, chunkSize: int, pos: nat, prevTail: seq<byte>)
    requires 1 <= |marker| <= chunkSize
    requires pos <= |data|
    requires |prevTail| <= pos && prevTail == data[pos - |prevTail|..pos]
    requires pos < |data| ==> |prevTail| >= |marker| - 1 || |prevTail| == pos
    requires forall i :: 0 <= i && i + |marker| <= pos ==> !OccursAt(marker, data, i)
    ensures Scan(data, marker, chunkSize, pos, prevTail) <==> Occurs(marker, data)
    decreases |data| - pos
  {
    var chunk := ReadChunk(data, pos, chunkSize);
    var lo := pos - |prevTail|;
    var hi := pos + |chunk|;
    assert prevTail + chunk == data[lo..hi];
    if |chunk| == 0 {
      assert pos == |data|;
    } else if Occurs(marker, prevTail + chunk) {
      OccursFromSlice(marker, data, lo, hi);
    } else {
      var tail := NextTail(chunk, |marker| - 1);
      ScanAdvance(data, marker, chunkSize, pos, prevTail);
      ScanExact(data, marker, chunkSize, hi, tail);
    }
  }

  /** A round that reads a non-empty chunk without a match leaves the loop
      in a state where the kept tail is again the bytes just before the new
      offset and no marker ends at or before it. */
  lemma ScanAdvance(data: seq<byte>, marker: seq<byte>, chunkSize: int, pos: nat, prevTail: seq<byte>)
    requires 1 <= |marker| <= chunkSize
    requires pos <= |data|
    requires |prevTail| <= pos && prevTail == data[pos - |prevTail|..pos]
    requires pos < |data| ==> |prevTail| >= |marker| - 1 || |prevTail| == pos
    requires forall i :: 0 <= i && i + |marker| <= pos ==> !OccursAt(marker, data, i)
    requires |ReadChunk(data, pos, chunkSize)| > 0
    requires !Occurs(marker, prevTail + ReadChunk(data, pos, chunkSize))
    ensures var chunk := ReadChunk(data, pos, chunkSize);
      var hi := pos + |chunk|;
      var tail := NextTail(chunk, |marker| - 1);
      && |tail| <= hi && tail == data[hi - |tail|..hi]
      && (hi < |data| ==> |tail| >= |marker| - 1 || |tail| == hi)
      && (forall i :: 0 <= i && i + |marker| <= hi ==> !OccursAt(marker, data, i))
  {
    var chunk := ReadChunk(data, pos, chunkSize);
    var hi := pos + |chunk|;
    assert prevTail + chunk == data[pos - |prevTail|..hi];
    NoMatchThrough(data, marker, pos, prevTail, hi);
    var tail := NextTail(chunk, |marker| - 1);
    assert tail == data[hi - |tail|..hi];
  }

  /** A window reaching `|marker| - 1` bytes back (or to the start) without
      a match extends "no marker ends at or before `pos`" to its end. */
  lemma NoMatchThrough(data: seq<byte>, marker: seq<byte>, pos: nat, prevTail: seq<byte>, hi: nat)
    requires pos <= hi <= |data|
    requires |prevTail| <= pos && prevTail == data[pos - |prevTail|..pos]
    requires |prevTail| >= |marker| - 1 || |prevTail| == pos
    requires forall i :: 0 <= i && i + |marker| <= pos ==> !OccursAt(marker, data, i)
    requires !Occurs(marker, data[pos - |prevTail|..hi])
    ensures forall i :: 0 <= i && i + |marker| <= hi ==> !OccursAt(marker, data, i)
  {
    var lo := pos - |prevTail|;
    forall i | 0 <= i && i + |marker| <= hi
      ensures !OccursAt(marker, data, i)
    {
      if i + |marker| > pos && OccursAt(marker, data, i) {
        OccursInSlice(marker, data, lo, hi, i);
      }
    }
  }

  /** The chunked search finds exactly the files in which the marker occurs,
      including occurrences straddling a chunk boundary, provided the marker
      is non-empty and no longer than a chunk. */
  lemma ContainsStringExact(data: seq<byte>, marker: seq<byte>, chunkSize: int)
    requires 1 <= |marker| <= chunkSize
    ensures ContainsString(data, marker, chunkSize) <==> Occurs(marker, data)
  {
    ScanExact(data, marker, chunkSize, 0, []);
  }

  /** The report builder's call (marker "MS:1002511", 1 MiB chunks) is an
      exact substring test; an empty file has no marker. */
  lemma LedgerSearchExact(data: seq<byte>)
    ensures ContainsString(data, Marker, DefaultChunk) <==> Occurs(Marker, data)
    ensures data == [] ==> !ContainsString(data, Marker, DefaultChunk)
  {
    ContainsStringExact(data, Marker, DefaultChunk);
  }

  // ------------------------------------------------- finding: short chunks

  /** With chunks shorter than the marker the kept tail is only the last
      chunk, so a marker spread over three chunks is missed: "abc" searched
      one byte at a time in a file holding exactly "abc". */
  lemma ShortChunksMissMarker()
    ensures Occurs(Abc, Abc)
    ensures !ContainsString(Abc, Abc, 1)
  {
    var m := Abc;
    assert OccursAt(m, m, 0);
    var a: seq<byte> := [97];
    var b: seq<byte> := [98];
    var c: seq<byte> := [99];
    assert ReadChunk(m, 0, 1) == a;
    assert NextTail(a, 2) == a;
    assert ReadChunk(m, 1, 1) == b;
    assert a + b == [97, 98];
    assert NextTail(b, 2) == b;
    assert ReadChunk(m, 2, 1) == c;
    assert b + c == [98, 99];
    assert NextTail(c, 2) == c;
    assert ReadChunk(m, 3, 1) == [];
  }

  /** The bytes of "abc". */
  const Abc: seq<byte> := [97, 98, 99]

  /** Corrected tail: the last `overlap` bytes of the searched window
      (previous tail plus chunk) rather than of the chunk alone. */
  function WindowTail(window: seq<byte>, overlap: nat): (r: seq<byte>)
    ensures EndsWith(window, r)
    ensures |r| == if |window| > overlap then overlap else |window|
  {
    if |window| > overlap then window[|window| - overlap..] else window
  }

  function ScanFixed(data: seq<byte>, marker: seq<byte>, chunkSize: int, pos: nat, prevTail: seq<byte>): bool
    requires |marker| >= 1
    requires pos <= |data|
    decreases |data| - pos
  {
    var chunk := ReadChunk(data, pos, chunkSize);
    if |chunk| == 0 then false
    else if Occurs(marker, prevTail + chunk) then true
    else ScanFixed(data, marker, chunkSize, pos + |chunk|, WindowTail(prevTail + chunk, |marker| - 1))
  }

  /** The chunked search with the corrected tail. */
  function ContainsStringFixed(data: seq<byte>, marker: seq<byte>, chunkSize: int): bool
    requires |marker| >= 1
  {
    ScanFixed(data, marker, chunkSize, 0, [])
  }

  lemma {:induction false} ScanFixedExact(data: seq<byte>, marker: seq<byte>, chunkSize: int, pos: nat, prevTail: seq<byte>)
    requires |marker| >= 1 && chunkSize != 0
    requires pos <= |data|
    requires |prevTail| <= pos && prevTail == data[pos - |prevTail|..pos]
    requires |prevTail| >= |marker| - 1 || |prevTail| == pos
    requires forall i :: 0 <= i && i + |marker| <= pos ==> !OccursAt(marker, data, i)
    ensures ScanFixed(data, marker, chunkSize, pos, prevTail) <==> Occurs(marker, data)
    decreases |data| - pos
  {
    var chunk := ReadChunk(data, pos, chunkSize);
    var lo := pos - |prevTail|;
    var hi := pos + |chunk|;
    var window := prevTail + chunk;
    assert window == data[lo..hi];
    if |chunk| == 0 {
      assert pos == |data|;
    } else if Occurs(marker, window) {
      OccursFromSlice(marker, data, lo, hi);
    } else {
      NoMatchThrough(data, marker, pos, prevTail, hi);
      var tail := WindowTail(window, |marker| - 1);
      assert tail == data[hi - |tail|..hi];
      ScanFixedExact(data, marker, chunkSize, hi, tail);
    }
  }

  /** With the corrected tail the search is an exact substring test for
      every non-zero chunk size, however short. */
  lemma ContainsStringFixedExact(data: seq<byte>, marker: seq<byte>, chunkSize: int)
    requires |marker| >= 1 && chunkSize != 0
    ensures ContainsStringFixed(data, marker, chunkSize) <==> Occurs(marker, data)
  {
    ScanFixedExact(data, marker, chunkSize, 0, []);
  }
}

=== FILE: paths.dfy ===
/** Local paths: the mirror lays files out as `<root>/<YY or YYYY>/<MM>/<project>/<file>`,
    the report builder reads project and month back from a directory path,
    and the extractor and scheduler build paths with `os.path.join` /
    `os.path.dirname` (POSIX flavour). */
module Paths {
  import opened Base
  import opened Strings

  // ---------------------------------------------------------------- dates

  datatype Date = Date(year: int, month: int, day: int)

  /** `datetime.date(year, month, 1)` succeeds exactly for these. */
  predicate ValidDate(year: int, month: int) {
    1 <= year <= 9999 && 1 <= month <= 12
  }

  /** Years below 100 are read as 20YY. */
  function CenturyAdjust(year: int): int {
    if year < 100 then year + 2000 else year
  }

  /** Left-pads with zeros to `width` characters, as `%0Nd` does. */
  function ZeroPad(s: string, width: nat): (r: string)
    ensures |r| == if |s| >= width then |s| else width
    ensures EndsWith(r, s)
    decreases width - |s|
  {
    if |s| >= width then s
    else
      var r := ZeroPad("0" + s, width);
      assert EndsWith("0" + s, s) by { EndsWithAppend("0", s); }
      assert r[|r| - |s|..] == r[|r| - |"0" + s|..][1..];
      r
  }

  /** `date.isoformat()`: `YYYY-MM-DD`. */
  function IsoFormat(d: Date): string
    requires ValidDate(d.year, d.month) && 1 <= d.day <= 31
  {
    ZeroPad(NatToString(d.year), 4) + "-" + ZeroPad(NatToString(d.month), 2) + "-"
      + ZeroPad(NatToString(d.day), 2)
  }

  lemma {:induction false} DigitsLeadingZero(s: string)
    requires AllDigits(s)
    ensures AllDigits("0" + s) && DigitsValue("0" + s) == DigitsValue(s)
    decreases |s|
  {
    if s != [] {
      var t := "0" + s;
      assert t[..|t| - 1] == "0" + s[..|s| - 1];
      DigitsLeadingZero(s[..|s| - 1]);
    }
  }

  lemma {:induction false} ZeroPadDigits(s: string, width: nat)
    requires AllDigits(s)
    ensures AllDigits(ZeroPad(s, width)) && DigitsValue(ZeroPad(s, width)) == DigitsValue(s)
    decreases width - |s|
  {
    if |s| < width {
      DigitsLeadingZero(s);
      ZeroPadDigits("0" + s, width);
    }
  }

  lemma ParseIntPadded(n: nat, width: nat)
    ensures ParseInt(ZeroPad(NatToString(n), width)) == Some(n)
  {
    var s := ZeroPad(NatToString(n), width);
    ZeroPadDigits(NatToString(n), width);
    DigitsOfNat(n);
    ParseIntDigits(s);
  }

  lemma NatToStringShort(n: nat, width: nat, bound: nat)
    requires width >= 1 && n < bound && bound == Pow10Width(width)
    ensures |NatToString(n)| <= width
    decreases width
  {
    if n >= 10 && width >= 2 {
      var lower := Pow10Width(width - 1);
      assert bound == 10 * lower;
      assert 10 * (n / 10) <= n;
      NatToStringShort(n / 10, width - 1, lower);
    }
  }

  function Pow10Width(w: nat): nat {
    if w == 0 then 1 else 10 * Pow10Width(w - 1)
  }

  /** The ISO date is ten characters, dash-separated at the usual places,
      and its fields read back as the year, month and day. */
  lemma IsoFormatReadsBack(d: Date)
    requires ValidDate(d.year, d.month) && 1 <= d.day <= 31
    ensures var s := IsoFormat(d);
      && |s| == 10 && s[4] == '-' && s[7] == '-'
      && ParseInt(s[..4]) == Some(d.year)
      && ParseInt(s[5..7]) == Some(d.month)
      && ParseInt(s[8..]) == Some(d.day)
  {
    IsoFields(d);
    var s := IsoFormat(d);
    assert ParseInt(s[..4]) == Some(d.year) by {
      ParseIntPadded(d.year, 4);
    }
    assert ParseInt(s[5..7]) == Some(d.month) by {
      ParseIntPadded(d.month, 2);
    }
    assert ParseInt(s[8..]) == Some(d.day) by {
      ParseIntPadded(d.day, 2);
    }
  }

  /** The ISO date's layout: padded year, dash, padded month, dash, padded
      day. */
  lemma IsoFields(d: Date)
    requires ValidDate(d.year, d.month) && 1 <= d.day <= 31
    ensures var s := IsoFormat(d);
      && |s| == 10 && s[4] == '-' && s[7] == '-'
      && s[..4] == ZeroPad(NatToString(d.year), 4)
      && s[5..7] == ZeroPad(NatToString(d.month), 2)
      && s[8..] == ZeroPad(NatToString(d.day), 2)
  {
    NatToStringShort(d.year, 4, 10000);
    NatToStringShort(d.month, 2, 100);
    NatToStringShort(d.day, 2, 100);
    var y := ZeroPad(NatToString(d.year), 4);
    var m := ZeroPad(NatToString(d.month), 2);
    var dd := ZeroPad(NatToString(d.day), 2);
    assert |y| == 4 && |m| == 2 && |dd| == 2;
    assert IsoFormat(d) == y + "-" + m + "-" + dd;
    DashedFields(y, m, dd);
  }

  /** Where the fields of `y-m-d` sit, for a four-character `y` and
      two-character `m` and `d`. */
  lemma DashedFields(y: string, m: string, d: string)
    requires |y| == 4 && |m| == 2 && |d| == 2
    ensures var s := y + "-" + m + "-" + d;
      && |s| == 10 && s[4] == '-' && s[7] == '-'
      && s[..4] == y && s[5..7] == m && s[8..] == d
  {
    var s := y + "-" + m + "-" + d;
    assert s[..4] == y;
    assert s[5..7] == m;
    assert s[8..] == d;
  }

  // ---------------------------------------------------- directory parsing

  /** The '/'-segments of a directory path, trailing slashes dropped. */
  function Segments(dirpath: string): seq<string> {
    Split(RStripChar(dirpath, '/'), '/')
  }

  /** `date()` takes its fields as C ints: a value outside this range makes
      it raise `OverflowError` rather than `ValueError`. */
  predicate FitsCInt(v: int) {
    -0x8000_0000 <= v <= 0x7FFF_FFFF
  }

  /** `date()` raises `OverflowError` on these numerals: both read with
      `int()`, but the (century-adjusted) year or the month does not fit a
      C int. */
  predicate MonthOverflows(yearText: string, monthText: string) {
    && ParseInt(yearText).Some? && ParseInt(monthText).Some?
    && !(FitsCInt(CenturyAdjust(ParseInt(yearText).value)) && FitsCInt(ParseInt(monthText).value))
  }

  /** The first of the month the two numerals name: both read with
      `int()`, two-digit years are taken to be in the 2000s, and `date()`
      must accept the result. Where `date()` raises, there is no date. */
  function MonthDate(yearText: string, monthText: string): (r: Option<Date>)
    ensures r.Some? <==> && ParseInt(yearText).Some? && ParseInt(monthText).Some?
                         && ValidDate(CenturyAdjust(ParseInt(yearText).value), ParseInt(monthText).value)
    ensures r.Some? ==> r.value == Date(CenturyAdjust(ParseInt(yearText).value), ParseInt(monthText).value, 1)
    ensures MonthOverflows(yearText, monthText) ==> r.None?
  {
    var month := ParseInt(monthText);
    var year := ParseInt(yearText);
    if month.Some? && year.Some? && ValidDate(CenturyAdjust(year.value), month.value) then
      Some(Date(CenturyAdjust(year.value), month.value, 1))
    else
      None
  }

  /** The paths on which `parse_directory` raises: the `OverflowError` of
      `date()` escapes its `except (ValueError, IndexError)`. */
  predicate DirectoryRaises(dirpath: string) {
    var parts := Segments(dirpath);
    |parts| >= 3 && MonthOverflows(parts[|parts| - 3], parts[|parts| - 2])
  }

  /** Project and month of a mirror directory `.../YY/MM/project`: fewer
      than three '/'-segments give back the path itself with no date; the
      project is otherwise the last segment, dated by the two segments
      before it. Where the source raises, the model gives no date. */
  function ParseDirectory(dirpath: string): (r: (string, Option<Date>))
    ensures |Segments(dirpath)| < 3 ==> r == (dirpath, None)
    ensures |Segments(dirpath)| >= 3 ==>
      r.0 == LastPiece(RStripChar(dirpath, '/'), '/') && '/' !in r.0
    ensures var parts := Segments(dirpath);
      |parts| >= 3 ==> r.1 == MonthDate(parts[|parts| - 3], parts[|parts| - 2])
    ensures r.1.Some? ==>
      r.1.value.day == 1 && ValidDate(r.1.value.year, r.1.value.month)
    ensures DirectoryRaises(dirpath) ==> r.1.None?
  {
    var parts := Segments(dirpath);
    if |parts| >= 3 then
      (parts[|parts| - 1], MonthDate(parts[|parts| - 3], parts[|parts| - 2]))
    else
      (dirpath, None)
  }

  lemma NoSlashInDigits(s: string)
    requires AllDigits(s)
    ensures '/' !in s
  {
    forall i | 0 <= i < |s|
      ensures s[i] != '/'
    {
      assert IsDigit(s[i]);
    }
  }

  /** A directory `<prefix>/<year>/<month>/<project>` with slash-free year
      and month segments, whatever they hold (signed, space-padded,
      underscored or not numerals at all), parses to the project and the
      month those two segments name, and raises exactly when they
      overflow `date()`. */
  lemma ParseDirectoryOfSegments(prefix: string, year: string, month: string, project: string)
    requires '/' !in year && '/' !in month
    requires |project| > 0 && '/' !in project
    ensures var p := prefix + "/" + year + "/" + month + "/" + project;
            && ParseDirectory(p) == (project, MonthDate(year, month))
            && (DirectoryRaises(p) <==> MonthOverflows(year, month))
  {
    var p := prefix + "/" + year + "/" + month + "/" + project;
    assert p[|p| - 1] == project[|project| - 1];
    assert RStripChar(p, '/') == p;
    var a := prefix + "/" + year;
    var b := a + "/" + month;
    assert p == b + ['/'] + project;
    assert b == a + ['/'] + month;
    assert a == prefix + ['/'] + year;
    SplitAtSep(b, '/', project);
    SplitAtSep(a, '/', month);
    SplitAtSep(prefix, '/', year);
    SplitNoSep(project, '/');
    SplitNoSep(month, '/');
    SplitNoSep(year, '/');
    var parts := Segments(p);
    assert parts == Split(prefix, '/') + [year] + [month] + [project];
    assert parts[|parts| - 1] == project;
    assert parts[|parts| - 2] == month;
    assert parts[|parts| - 3] == year;
  }

  /** A directory the crawler creates, `<prefix>/<year>/<month>/<project>`,
      parses back to its project and, when the year and month names are
      numerals forming a valid date, to the first of that month; it raises
      only for numerals too large for a C int. */
  lemma ParseMirrorDirectory(prefix: string, year: string, month: string, project: string)
    requires |year| > 0 && AllDigits(year) && |month| > 0 && AllDigits(month)
    requires |project| > 0 && '/' !in project
    ensures var y := CenturyAdjust(DigitsValue(year));
            var m := DigitsValue(month);
            && ParseDirectory(prefix + "/" + year + "/" + month + "/" + project)
                 == (project, if ValidDate(y, m) then Some(Date(y, m, 1)) else None)
            && (DirectoryRaises(prefix + "/" + year + "/" + month + "/" + project) <==> !(FitsCInt(y) && FitsCInt(m)))
  {
    NoSlashInDigits(year);
    NoSlashInDigits(month);
    ParseDirectoryOfSegments(prefix, year, month, project);
    ParseIntDigits(year);
    ParseIntDigits(month);
  }

  /** A signed or space-padded numeral dates a directory too: "-5" is the
      year 1995 and " 7" is July. */
  lemma MonthDateSigned()
    ensures MonthDate("-5", " 7") == Some(Date(1995, 7, 1))
  {
    ParseIntNegative("5");
    assert "-" + "5" == "-5";
    ParseIntBlank("7");
    assert " " + "7" == " 7";
    ParseIntDigits("7");
  }

  /** An underscored numeral dates a directory: "2_0" is 2020. */
  lemma MonthDateGrouped()
    ensures MonthDate("2_0", "1") == Some(Date(2020, 1, 1))
  {
    ParseIntGrouped();
    ParseIntDigits("1");
  }

  /** A year of 2^31 makes `date()` overflow: the source raises there. */
  lemma MonthDateOverflow()
    ensures MonthOverflows(NatToString(0x8000_0000), "1")
    ensures MonthDate(NatToString(0x8000_0000), "1").None?
  {
    ParseIntOfNat(0x8000_0000);
    ParseIntDigits("1");
  }

  // ------------------------------------------------ os.path.join / dirname

  /** `os.path.join(a, b)`. */
  function PathJoin(a: string, b: string): (r: string)
    ensures EndsWith(r, b)
  {
    EndsWithAppend(a, b);
    EndsWithAppend(a + "/", b);
    if StartsWith(b, "/") then b
    else if a == [] || EndsWith(a, "/") then a + b
    else a + "/" + b
  }

  /** An absolute second part replaces the first; otherwise the first part
      is kept whole, and a non-empty one is separated from the second part
      by exactly one '/' of its own or an added one. */
  lemma PathJoinShape(a: string, b: string)
    ensures StartsWith(b, "/") ==> PathJoin(a, b) == b
    ensures !StartsWith(b, "/") ==> StartsWith(PathJoin(a, b), a)
    ensures !StartsWith(b, "/") ==> |a| + |b| <= |PathJoin(a, b)| <= |a| + |b| + 1
    ensures !StartsWith(b, "/") && a != [] ==> PathJoin(a, b)[|PathJoin(a, b)| - |b| - 1] == '/'
  {
    var r := PathJoin(a, b);
    if !StartsWith(b, "/") {
      if a == [] || EndsWith(a, "/") {
        assert r == a + b && r[..|a|] == a;
        if a != [] {
          assert r[|r| - |b| - 1] == a[|a| - 1];
        }
      } else {
        assert r == a + "/" + b && r[..|a|] == a;
      }
    }
  }

  /** `p.rfind('/') + 1`. */
  function AfterLastSlash(p: string): (i: nat)
    ensures i <= |p|
    ensures i > 0 ==> p[i - 1] == '/'
    ensures forall j :: i <= j < |p| ==> p[j] != '/'
  {
    if p == [] then 0
    else if p[|p| - 1] == '/' then |p|
    else AfterLastSlash(p[..|p| - 1])
  }

  predicate AllSlashes(s: string) {
    forall i :: 0 <= i < |s| ==> s[i] == '/'
  }

  /** `os.path.dirname(p)`: everything up to the last '/', trailing slashes
      removed unless nothing else is left. */
  function Dirname(p: string): (r: string)
    ensures StartsWith(p, r)
    ensures '/' !in p <==> r == []
    ensures r == [] || AllSlashes(r) || r[|r| - 1] != '/'
    ensures forall i :: |r| <= i < |p| && p[i] == '/' ==> forall j :: |r| <= j < i ==> p[j] == '/'
  {
    var head := p[..AfterLastSlash(p)];
    if head != [] && !AllSlashes(head) then RStripChar(head, '/') else head
  }

  /** `dirname(join(root, name))` is `root` for a walked directory and a
      file name listed in it. */
  lemma DirnameOfJoin(root: string, name: string)
    requires |root| > 0 && root[|root| - 1] != '/'
    requires |name| > 0 && '/' !in name
    ensures Dirname(PathJoin(root, name)) == root
  {
    var p := PathJoin(root, name);
    assert !StartsWith(name, "/") by { assert name[0] != '/'; }
    assert !EndsWith(root, "/");
    assert p == root + "/" + name;
    assert p[..|root| + 1] + name == p;
    assert AfterLastSlash(p) == |root| + 1 by {
      assert p[|root|] == '/';
      forall j | |root| + 1 <= j < |p|
        ensures p[j] != '/'
      {
        assert p[j] == name[j - |root| - 1];
      }
    }
    var head := p[..|root| + 1];
    assert head == root + "/";
    assert !AllSlashes(head) by { assert head[|root| - 1] != '/'; }
    assert head[..|head| - 1] == root;
    assert RStripChar(head, '/') == RStripChar(root, '/');
    assert RStripChar(root, '/') == root;
  }
}

=== FILE: report.dfy ===
/** The ledger builder: every mirrored file not yet in the ledger gets one
    appended row of facts (project, month, size, whether it carries the
    crosslinking marker, whether it parses, its declared schema version),
    keyed by (project, file name); the crosslinking subset is then copied
    out. The walk of the mirror and the per-file facts are inputs. */
module Report {
  import opened Base
  import opened Strings
  import opened Seqs
  import opened Sizes
  import opened Paths
  import opened MarkerSearch
  import opened SchemaLocation

  /** Compressed containers, which the ledger leaves to the extractor. */
  predicate IsArchive(filename: string) {
    var lower := Lower(filename);
    EndsWith(lower, ".zip") || EndsWith(lower, ".gz") || EndsWith(lower, ".gzip")
  }

  const ArchiveSuffixes: seq<string> := [".zip", ".gz", ".gzip"]

  /** A name is an archive exactly when some tail of it lower-cases to one
      of the three suffixes. */
  lemma ArchiveTail(filename: string)
    ensures IsArchive(filename) <==> exists i :: 0 <= i <= |filename| && Lower(filename[i..]) in ArchiveSuffixes
  {
    if IsArchive(filename) {
      ArchiveHasTail(filename);
    }
    if i :| 0 <= i <= |filename| && Lower(filename[i..]) in ArchiveSuffixes {
      TailMakesArchive(filename, i);
    }
  }

  lemma ArchiveHasTail(filename: string)
    requires IsArchive(filename)
    ensures exists i :: 0 <= i <= |filename| && Lower(filename[i..]) in ArchiveSuffixes
  {
    if EndsWith(Lower(filename), ".zip") {
      SuffixTail(filename, 0);
    } else if EndsWith(Lower(filename), ".gz") {
      SuffixTail(filename, 1);
    } else {
      SuffixTail(filename, 2);
    }
  }

  lemma SuffixTail(filename: string, k: nat)
    requires k < |ArchiveSuffixes| && EndsWith(Lower(filename), ArchiveSuffixes[k])
    ensures exists i :: 0 <= i <= |filename| && Lower(filename[i..]) in ArchiveSuffixes
  {
    var suffix := ArchiveSuffixes[k];
    LowerTail(filename, suffix);
    var i := |filename| - |suffix|;
    assert Lower(filename[i..]) == ArchiveSuffixes[k];
  }

  lemma TailMakesArchive(filename: string, i: nat)
    requires i <= |filename| && Lower(filename[i..]) in ArchiveSuffixes
    ensures IsArchive(filename)
  {
    TailLower(filename, i);
    var t := Lower(filename[i..]);
    assert t == ".zip" || t == ".gz" || t == ".gzip";
  }

  lemma LowerTail(filename: string, suffix: string)
    requires EndsWith(Lower(filename), suffix)
    ensures Lower(filename[|filename| - |suffix|..]) == suffix
  {
    var n := |filename|;
    LowerSlice(filename, n - |suffix|, n);
    assert filename[n - |suffix|..n] == filename[n - |suffix|..];
  }

  lemma TailLower(filename: string, i: nat)
    requires i <= |filename|
    ensures EndsWith(Lower(filename), Lower(filename[i..]))
  {
    var n := |filename|;
    LowerSlice(filename, i, n);
    assert filename[i..n] == filename[i..];
  }

  /** A name ending in `.mzid` is never taken for an archive. */
  lemma MzidNotArchive(stem: string, ext: string)
    requires Lower(ext) == ".mzid"
    ensures !IsArchive(stem + ext)
  {
    var lower := Lower(stem + ext);
    LowerAppend(stem, ext);
    assert lower[|lower| - 1] == 'd';
    assert lower[|lower| - 2..] == "id";
  }

  /** Any stem followed by one of the three suffixes, in any letter case, is
      an archive. */
  lemma ArchiveSuffix(stem: string, ext: string)
    requires Lower(ext) in [".zip", ".gz", ".gzip"]
    ensures IsArchive(stem + ext)
  {
    LowerAppend(stem, ext);
    EndsWithAppend(Lower(stem), Lower(ext));
  }

  /** One ledger row; every column is text as the CSV file holds it. */
  datatype Row = Row(
    project: string,
    date: string,
    fileName: string,
    fileSize: string,
    containsMarker: string,
    parseable: string,
    schemaVersion: string,
    schemaValid: string,
    errorMessage: string)

  /** The ledger key. */
  function Key(r: Row): (string, string) {
    (r.project, r.fileName)
  }

  /** The keys present among some rows. */
  function Keys(rows: seq<Row>): set<(string, string)> {
    set r | r in rows :: Key(r)
  }

  lemma KeysAppend(a: seq<Row>, b: seq<Row>)
    ensures Keys(a + b) == Keys(a) + Keys(b)
  {
    forall k | k in Keys(a + b) ensures k in Keys(a) + Keys(b) {
      var r :| r in a + b && Key(r) == k;
    }
    forall k | k in Keys(a) + Keys(b) ensures k in Keys(a + b) {
      if k in Keys(a) {
        var r :| r in a && Key(r) == k;
        assert r in a + b;
      } else {
        var r :| r in b && Key(r) == k;
        assert r in a + b;
      }
    }
  }

  /** Python's `str(flag)` as the CSV writer stores a boolean. */
  function Flag(b: bool): (s: string)
    ensures s == "True" <==> b
  {
    if b then "True" else "False"
  }

  /** What the builder learns about one mirrored file: its size, its bytes
      (`None` when reading fails), the parse error if the streaming parse
      failed, and the root element's attributes (`None` when the version
      probe found no root element or failed). */
  datatype FileFacts = FileFacts(
    name: string,
    size: nat,
    content: Option<seq<byte>>,
    parseError: Option<string>,
    root: Option<RootAttrs>)

  /** A file met during the walk, with the directory it was listed in. */
  datatype Entry = Entry(dirpath: string, file: FileFacts)

  /** A directory of the walk and the files listed in it. */
  datatype Dir = Dir(path: string, files: seq<FileFacts>)

  /** The walk as one sequence of files, directory by directory and each
      directory's files in listing order. */
  function Entries(walk: seq<Dir>): (es: seq<Entry>)
    ensures forall i :: 0 <= i < |es| ==> exists d :: d in walk && es[i].dirpath == d.path && es[i].file in d.files
  {
    if walk == [] then []
    else
      var d := walk[0];
      var here := seq(|d.files|, j requires 0 <= j < |d.files| => Entry(d.path, d.files[j]));
      here + Entries(walk[1..])
  }

  /** The key a file is filed under: the project read from its directory
      and its own name. */
  function EntryKey(e: Entry): (string, string) {
    (ParseDirectory(e.dirpath).0, e.file.name)
  }

  /** What the walk needs of the row builder: which files it passes over
      whatever the ledger holds, the key a file is filed under, and the row
      it writes for a file. The walk lemmas below hold for any builder; the
      ledger's own is `Ledger`. */
  datatype Builder = Builder(
    fixedSkip: Entry -> bool,
    key: Entry -> (string, string),
    build: Entry -> Row)

  /** The ledger's builder: it passes over the ledger file itself and
      archives, files by `EntryKey` and writes `BuildRow`. */
  const Ledger: Builder := Builder(
    (e: Entry) => e.file.name == "report.csv" || IsArchive(e.file.name),
    EntryKey,
    BuildRow)

  /** The row a builder writes for a file is filed under the file's key. */
  ghost predicate Keyed(b: Builder) {
    forall e :: Key(b.build(e)) == b.key(e)
  }

  /** Files the builder passes over: those it always skips, and files
      whose key is already present. */
  predicate Skipped(b: Builder, e: Entry, existing: set<(string, string)>) {
    b.fixedSkip(e) || b.key(e) in existing
  }

  /** The date column: the ISO date, or empty when there is none. */
  function DateText(date: Option<Date>): (s: string)
    requires date.Some? ==> ValidDate(date.value.year, date.value.month) && 1 <= date.value.day <= 31
    ensures date.None? <==> s == ""
    ensures date.Some? ==> (|s| == 10 && ParseInt(s[..4]) == Some(date.value.year)
      && ParseInt(s[5..7]) == Some(date.value.month) && ParseInt(s[8..]) == Some(date.value.day))
  {
    match date
    case None => ""
    case Some(d) => IsoFormatReadsBack(d); IsoFormat(d)
  }

  /** The row written for a file. */
  function BuildRow(e: Entry): (r: Row)
    ensures Key(r) == EntryKey(e)
    ensures r.schemaValid == ""
    ensures r.parseable == "True" <==> e.file.parseError.None?
    ensures r.parseable != "True" ==> r.schemaVersion == ""
    ensures r.parseable == "True" ==> r.errorMessage == ""
    ensures r.date == "" || |r.date| == 10
    ensures r.fileSize == FormatFileSize(e.file.size)
    ensures r.date == "" <==> ParseDirectory(e.dirpath).1.None?
    ensures r.containsMarker == "True" <==> e.file.content.Some? && Occurs(Marker, e.file.content.value)
    ensures r.parseable == "True" ==> r.schemaVersion == ReportVersion(e.file.root).GetOr("")
    ensures r.parseable != "True" ==> r.errorMessage == e.file.parseError.value
  {
    var (project, date) := ParseDirectory(e.dirpath);
    var parseable := e.file.parseError.None?;
    var dateText := DateText(date);
    Row(
      project,
      dateText,
      e.file.name,
      FormatFileSize(e.file.size),
      Flag(ContainsStringInFile(e.file.content, Marker, DefaultChunk)),
      Flag(parseable),
      if parseable then ReportVersion(e.file.root).GetOr("") else "",
      "",
      if parseable then "" else e.file.parseError.value)
  }

  /** The marker column says exactly whether the file could be read and
      holds "MS:1002511" somewhere. */
  lemma MarkerColumn(e: Entry)
    ensures BuildRow(e).containsMarker == "True" <==>
      e.file.content.Some? && Occurs(Marker, e.file.content.value)
  {
    if e.file.content.Some? {
      LedgerSearchExact(e.file.content.value);
    }
  }

  /** The size column reads back to the file's size, exactly below 1 KiB
      and otherwise to within half a tenth of the displayed unit. */
  lemma SizeColumn(e: Entry)
    ensures var p := ParseFileSize(BuildRow(e).fileSize);
      var n := e.file.size;
      && p.Some?
      && (n < 1024 ==> p.value == n)
      && (var unit := Pow1024(UnitIndex(n)); 20 * p.value <= 20 * n + unit && 20 * n < 20 * p.value + unit + 20)
  {
    FormatParseRoundTrip(e.file.size);
  }

  /** The rows builder `b` appends for a sequence of files given the keys
      already present; the key set is the one loaded at the start and does
      not grow during the walk. */
  function NewRowsBy(b: Builder, es: seq<Entry>, existing: set<(string, string)>): (rows: seq<Row>)
    ensures |rows| <= |es|
    ensures forall i :: 0 <= i < |rows| ==> BuiltFrom(b, es, existing, rows[i])
  {
    if es == [] then []
    else
      var rest := NewRowsBy(b, es[1..], existing);
      RowsFromTail(b, es, existing, rest);
      (if Skipped(b, es[0], existing) then [] else [b.build(es[0])]) + rest
  }

  /** `r` is the row `b` writes for some file of `es` it does not pass
      over. */
  ghost predicate BuiltFrom(b: Builder, es: seq<Entry>, existing: set<(string, string)>, r: Row) {
    exists j :: 0 <= j < |es| && !Skipped(b, es[j], existing) && r == b.build(es[j])
  }

  /** A row written for a file of `es[1..]` is written for a file of `es`. */
  lemma RowsFromTail(b: Builder, es: seq<Entry>, existing: set<(string, string)>, rest: seq<Row>)
    requires es != []
    requires forall i :: 0 <= i < |rest| ==> BuiltFrom(b, es[1..], existing, rest[i])
    ensures forall i :: 0 <= i < |rest| ==> BuiltFrom(b, es, existing, rest[i])
  {
    forall i | 0 <= i < |rest|
      ensures BuiltFrom(b, es, existing, rest[i])
    {
      assert BuiltFrom(b, es[1..], existing, rest[i]);
      var j :| 0 <= j < |es[1..]| && !Skipped(b, es[1..][j], existing) && rest[i] == b.build(es[1..][j]);
      assert es[1..][j] == es[j + 1];
    }
  }

  /** The rows appended for a sequence of files by the ledger's builder. */
  function NewRows(es: seq<Entry>, existing: set<(string, string)>): (rows: seq<Row>)
    ensures |rows| <= |es|
    ensures forall i :: 0 <= i < |rows| ==>
      Key(rows[i]) !in existing && rows[i].fileName != "report.csv" && !IsArchive(rows[i].fileName)
    ensures forall i :: 0 <= i < |rows| ==>
      rows[i].schemaValid == ""
      && (rows[i].parseable != "True" ==> rows[i].schemaVersion == "")
      && (rows[i].parseable == "True" ==> rows[i].errorMessage == "")
  {
    var rows := NewRowsBy(Ledger, es, existing);
    LedgerRows(es, existing, rows);
    rows
  }

  /** Every row the ledger's builder appends is a fresh row for a file not
      passed over. */
  lemma LedgerRows(es: seq<Entry>, existing: set<(string, string)>, rows: seq<Row>)
    requires forall i :: 0 <= i < |rows| ==> BuiltFrom(Ledger, es, existing, rows[i])
    ensures forall i :: 0 <= i < |rows| ==>
      Key(rows[i]) !in existing && rows[i].fileName != "report.csv" && !IsArchive(rows[i].fileName)
    ensures forall i :: 0 <= i < |rows| ==>
      rows[i].schemaValid == ""
      && (rows[i].parseable != "True" ==> rows[i].schemaVersion == "")
      && (rows[i].parseable == "True" ==> rows[i].errorMessage == "")
  {
    forall i | 0 <= i < |rows|
      ensures Key(rows[i]) !in existing && rows[i].fileName != "report.csv" && !IsArchive(rows[i].fileName)
      ensures rows[i].schemaValid == ""
      ensures rows[i].parseable != "True" ==> rows[i].schemaVersion == ""
      ensures rows[i].parseable == "True" ==> rows[i].errorMessage == ""
    {
      var j :| 0 <= j < |es| && !Skipped(Ledger, es[j], existing) && rows[i] == Ledger.build(es[j]);
      var e := es[j];
      assert rows[i] == BuildRow(e);
      assert !(e.file.name == "report.csv" || IsArchive(e.file.name)) && EntryKey(e) !in existing;
    }
  }

  /** The ledger's builder files each row under its file's key. */
  lemma LedgerKeyed()
    ensures Keyed(Ledger)
  {
    forall e
      ensures Key(Ledger.build(e)) == Ledger.key(e)
    {
      assert Ledger.build(e) == BuildRow(e);
    }
  }

  lemma {:induction false} NewRowsAppend(b: Builder, a: seq<Entry>, c: seq<Entry>, existing: set<(string, string)>)
    ensures NewRowsBy(b, a + c, existing) == NewRowsBy(b, a, existing) + NewRowsBy(b, c, existing)
    decreases |a|
  {
    if a == [] {
      assert a + c == c;
    } else {
      assert (a + c)[1..] == a[1..] + c;
      NewRowsAppend(b, a[1..], c, existing);
    }
  }

  /** Some file of `es` not passed over is filed under key `k`. */
  ghost predicate KeyFrom(b: Builder, es: seq<Entry>, existing: set<(string, string)>, k: (string, string)) {
    exists j :: 0 <= j < |es| && !Skipped(b, es[j], existing) && b.key(es[j]) == k
  }

  /** The keys of the appended rows are exactly the keys of the files not
      passed over. */
  lemma {:induction false} KeysOfNewRows(b: Builder, es: seq<Entry>, existing: set<(string, string)>, k: (string, string))
    requires Keyed(b)
    ensures k in Keys(NewRowsBy(b, es, existing)) <==> KeyFrom(b, es, existing, k)
    decreases |es|
  {
    if es != [] {
      KeysOfNewRows(b, es[1..], existing, k);
      var head := if Skipped(b, es[0], existing) then [] else [b.build(es[0])];
      KeysAppend(head, NewRowsBy(b, es[1..], existing));
      assert k in Keys(head) <==> !Skipped(b, es[0], existing) && b.key(es[0]) == k;
      KeyFromCons(b, es, existing, k);
    }
  }

  /** A key comes from a listing when it comes from its first file or from
      the rest. */
  lemma KeyFromCons(b: Builder, es: seq<Entry>, existing: set<(string, string)>, k: (string, string))
    requires es != []
    ensures KeyFrom(b, es, existing, k) <==>
      (!Skipped(b, es[0], existing) && b.key(es[0]) == k) || KeyFrom(b, es[1..], existing, k)
  {
    if KeyFrom(b, es, existing, k) {
      var j :| 0 <= j < |es| && !Skipped(b, es[j], existing) && b.key(es[j]) == k;
      if j > 0 {
        assert es[1..][j - 1] == es[j];
      }
    }
    if KeyFrom(b, es[1..], existing, k) {
      var j :| 0 <= j < |es[1..]| && !Skipped(b, es[1..][j], existing) && b.key(es[1..][j]) == k;
      assert es[j + 1] == es[1..][j];
    }
  }

  /** Once the keys of every file not passed over are known, nothing more
      is appended. */
  lemma {:induction false} NothingLeft(b: Builder, es: seq<Entry>, existing: set<(string, string)>, known: set<(string, string)>)
    requires Keyed(b)
    requires existing <= known
    requires Keys(NewRowsBy(b, es, existing)) <= known
    ensures NewRowsBy(b, es, known) == []
    decreases |es|
  {
    if es != [] {
      var head := if Skipped(b, es[0], existing) then [] else [b.build(es[0])];
      KeysAppend(head, NewRowsBy(b, es[1..], existing));
      if !Skipped(b, es[0], existing) {
        assert Key(b.build(es[0])) in Keys(head);
      }
      NothingLeft(b, es[1..], existing, known);
    }
  }

  /** Keys no file of `es` needs do not change what is appended. */
  lemma {:induction false} ExtraKeysIgnored(b: Builder, es: seq<Entry>, existing: set<(string, string)>, extra: set<(string, string)>)
    requires forall j :: 0 <= j < |es| && !Skipped(b, es[j], existing) ==> b.key(es[j]) !in extra
    ensures NewRowsBy(b, es, existing + extra) == NewRowsBy(b, es, existing)
    decreases |es|
  {
    if es != [] {
      assert forall j :: 0 <= j < |es[1..]| ==> es[1..][j] == es[j + 1];
      ExtraKeysIgnored(b, es[1..], existing, extra);
    }
  }

  /** The keys loaded at the start of a run: those of the rows read before
      loading stopped (all of them unless the ledger could not be read to
      the end). */
  function LoadedKeys(ledger: seq<Row>, rowsRead: nat): (r: set<(string, string)>)
    requires rowsRead <= |ledger|
    ensures forall k :: k in r <==> exists i :: 0 <= i < rowsRead && Key(ledger[i]) == k
    ensures rowsRead == |ledger| ==> r == Keys(ledger)
  {
    assert forall i :: 0 <= i < rowsRead ==> ledger[..rowsRead][i] == ledger[i];
    assert rowsRead == |ledger| ==> ledger[..rowsRead] == ledger;
    Keys(ledger[..rowsRead])
  }

  /** A run of the builder over a walk: the new rows are appended after the
      ledger's existing rows, which are left as they are. */
  function GenerateReport(ledger: seq<Row>, rowsRead: nat, walk: seq<Dir>): (r: seq<Row>)
    requires rowsRead <= |ledger|
    ensures |r| >= |ledger| && r[..|ledger|] == ledger
    ensures forall i :: |ledger| <= i < |r| ==>
      r[i].schemaValid == ""
      && (r[i].parseable != "True" ==> r[i].schemaVersion == "")
      && (r[i].parseable == "True" ==> r[i].errorMessage == "")
  {
    ledger + NewRows(Entries(walk), LoadedKeys(ledger, rowsRead))
  }

  /** A run that loaded the whole ledger, with builder `b`. */
  function RunBy(b: Builder, ledger: seq<Row>, walk: seq<Dir>): seq<Row> {
    ledger + NewRowsBy(b, Entries(walk), Keys(ledger))
  }

  /** A run of the ledger's builder that loaded the whole ledger. */
  lemma FullRun(ledger: seq<Row>, walk: seq<Dir>)
    ensures GenerateReport(ledger, |ledger|, walk) == RunBy(Ledger, ledger, walk)
  {
    assert ledger[..|ledger|] == ledger;
  }

  /** A second complete run over an unchanged mirror appends nothing. */
  lemma RunIdempotent(b: Builder, ledger: seq<Row>, walk: seq<Dir>)
    requires Keyed(b)
    ensures RunBy(b, RunBy(b, ledger, walk), walk) == RunBy(b, ledger, walk)
  {
    var es := Entries(walk);
    var added := NewRowsBy(b, es, Keys(ledger));
    KeysAppend(ledger, added);
    NothingLeft(b, es, Keys(ledger), Keys(ledger + added));
  }

  /** Re-running the builder over an unchanged mirror after a complete run
      appends nothing. */
  lemma GenerateReportIdempotent(ledger: seq<Row>, walk: seq<Dir>)
    ensures var once := GenerateReport(ledger, |ledger|, walk);
      GenerateReport(once, |once|, walk) == once
  {
    FullRun(ledger, walk);
    FullRun(RunBy(Ledger, ledger, walk), walk);
    LedgerKeyed();
    RunIdempotent(Ledger, ledger, walk);
  }

  /** No two files left to process share a key. */
  predicate DistinctPendingKeys(b: Builder, es: seq<Entry>, existing: set<(string, string)>) {
    forall i, j :: 0 <= i < j < |es| && !Skipped(b, es[i], existing) && !Skipped(b, es[j], existing) ==>
      b.key(es[i]) != b.key(es[j])
  }

  /** Under distinct pending keys, a file after the first `done` is not
      filed under any key the first `done` files produced. */
  lemma PendingKeyUnwritten(b: Builder, es: seq<Entry>, existing: set<(string, string)>, done: nat, j: nat)
    requires Keyed(b)
    requires done <= j < |es|
    requires DistinctPendingKeys(b, es, existing)
    requires !Skipped(b, es[j], existing)
    ensures b.key(es[j]) !in Keys(NewRowsBy(b, es[..done], existing))
  {
    var head := es[..done];
    KeysOfNewRows(b, head, existing, b.key(es[j]));
    forall i | 0 <= i < |head| && !Skipped(b, head[i], existing)
      ensures b.key(head[i]) != b.key(es[j])
    {
      assert head[i] == es[i];
    }
  }

  /** The files after the first `done` need none of the keys the first
      `done` produced. */
  lemma TailKeysUnwritten(b: Builder, es: seq<Entry>, existing: set<(string, string)>, done: nat)
    requires Keyed(b)
    requires done <= |es|
    requires DistinctPendingKeys(b, es, existing)
    ensures var tail := es[done..];
      forall j :: 0 <= j < |tail| && !Skipped(b, tail[j], existing) ==>
        b.key(tail[j]) !in Keys(NewRowsBy(b, es[..done], existing))
  {
    var tail := es[done..];
    forall j | 0 <= j < |tail| && !Skipped(b, tail[j], existing)
      ensures b.key(tail[j]) !in Keys(NewRowsBy(b, es[..done], existing))
    {
      assert tail[j] == es[done + j];
      PendingKeyUnwritten(b, es, existing, done, done + j);
    }
  }

  /** Over the files themselves: the rows written before the interruption
      followed by those the resumed run writes are the rows of an
      uninterrupted run. */
  lemma ResumeEntries(b: Builder, existing: set<(string, string)>, es: seq<Entry>, done: nat)
    requires Keyed(b)
    requires done <= |es|
    requires DistinctPendingKeys(b, es, existing)
    ensures var written := NewRowsBy(b, es[..done], existing);
      written + NewRowsBy(b, es, existing + Keys(written)) == NewRowsBy(b, es, existing)
  {
    SplitAt(b, es, existing, done);
    ResumedRows(b, existing, es, done);
  }

  /** The rows for `es` are those for its first `done` files followed by
      those for the rest. */
  lemma SplitAt(b: Builder, es: seq<Entry>, existing: set<(string, string)>, done: nat)
    requires done <= |es|
    ensures NewRowsBy(b, es, existing) == NewRowsBy(b, es[..done], existing) + NewRowsBy(b, es[done..], existing)
  {
    assert es == es[..done] + es[done..];
    NewRowsAppend(b, es[..done], es[done..], existing);
  }

  /** The resumed run writes the rows of the files after the first `done`,
      as the uninterrupted run would. */
  lemma ResumedRows(b: Builder, existing: set<(string, string)>, es: seq<Entry>, done: nat)
    requires Keyed(b)
    requires done <= |es|
    requires DistinctPendingKeys(b, es, existing)
    ensures var written := NewRowsBy(b, es[..done], existing);
      NewRowsBy(b, es, existing + Keys(written)) == NewRowsBy(b, es[done..], existing)
  {
    var head, tail := es[..done], es[done..];
    var written := NewRowsBy(b, head, existing);
    var known := existing + Keys(written);
    SplitAt(b, es, known, done);
    NothingLeft(b, head, existing, known);
    TailKeysUnwritten(b, es, existing, done);
    ExtraKeysIgnored(b, tail, existing, Keys(written));
  }

  /** A complete run after one interrupted after the first `done` files
      gives the ledger a single complete run gives, as long as no two
      pending files share a key. */
  lemma ResumeRun(b: Builder, ledger: seq<Row>, walk: seq<Dir>, done: nat)
    requires Keyed(b)
    requires done <= |Entries(walk)|
    requires DistinctPendingKeys(b, Entries(walk), Keys(ledger))
    ensures RunBy(b, ledger + NewRowsBy(b, Entries(walk)[..done], Keys(ledger)), walk) == RunBy(b, ledger, walk)
  {
    var es := Entries(walk);
    var written := NewRowsBy(b, es[..done], Keys(ledger));
    KeysAppend(ledger, written);
    ResumeEntries(b, Keys(ledger), es, done);
    assert (ledger + written) + NewRowsBy(b, es, Keys(ledger) + Keys(written))
      == ledger + (written + NewRowsBy(b, es, Keys(ledger) + Keys(written)));
  }

  /** A run interrupted after the first `done` files, resumed over the same
      mirror, leaves the ledger exactly as an uninterrupted run would, as
      long as no two pending files share a key. */
  lemma ResumeAfterCrash(ledger: seq<Row>, walk: seq<Dir>, done: nat)
    requires done <= |Entries(walk)|
    requires DistinctPendingKeys(Ledger, Entries(walk), Keys(ledger))
    ensures var partial := ledger + NewRows(Entries(walk)[..done], Keys(ledger));
      GenerateReport(partial, |partial|, walk) == GenerateReport(ledger, |ledger|, walk)
  {
    var partial := ledger + NewRows(Entries(walk)[..done], Keys(ledger));
    FullRun(partial, walk);
    FullRun(ledger, walk);
    LedgerKeyed();
    ResumeRun(Ledger, ledger, walk, done);
  }

  /** Two directories read as the same project, each holding a file of
      the same name, both get a row in one run, under the same key: the key
      set is not extended as rows are written. */
  lemma SameKeyTwiceInOneRun(p0: string, p1: string, f: FileFacts)
    requires ParseDirectory(p0).0 == ParseDirectory(p1).0
    requires f.name != "report.csv" && !IsArchive(f.name)
    ensures var r := GenerateReport([], 0, [Dir(p0, [f]), Dir(p1, [f])]);
      |r| == 2 && Key(r[0]) == Key(r[1])
  {
    var walk := [Dir(p0, [f]), Dir(p1, [f])];
    var none: seq<Row> := [];
    FullRun(none, walk);
    LedgerKeyed();
    assert !Ledger.fixedSkip(Entry(p0, f)) && !Ledger.fixedSkip(Entry(p1, f));
    assert Ledger.key(Entry(p0, f)) == Ledger.key(Entry(p1, f));
    TwoDirsOneKey(Ledger, p0, p1, f);
  }

  /** Two directories holding a file under the same key, neither passed
      over, give two rows with that key in one run. */
  lemma TwoDirsOneKey(b: Builder, p0: string, p1: string, f: FileFacts)
    requires Keyed(b)
    requires !b.fixedSkip(Entry(p0, f)) && !b.fixedSkip(Entry(p1, f))
    requires b.key(Entry(p0, f)) == b.key(Entry(p1, f))
    ensures var r := RunBy(b, [], [Dir(p0, [f]), Dir(p1, [f])]);
      |r| == 2 && Key(r[0]) == Key(r[1])
  {
    var d0, d1 := Dir(p0, [f]), Dir(p1, [f]);
    var walk := [d0, d1];
    assert walk[1..] == [d1];
    assert [d1][1..] == [];
    var e0, e1 := Entry(p0, f), Entry(p1, f);
    assert Entries([d1]) == [e1] + Entries([]);
    assert Entries(walk) == [e0] + Entries([d1]);
    var es := [e0, e1];
    assert Entries(walk) == es;
    assert es[1..] == [e1];
    assert NewRowsBy(b, [e1], {}) == [b.build(e1)] + NewRowsBy(b, [], {});
    assert NewRowsBy(b, es, {}) == [b.build(e0)] + NewRowsBy(b, [e1], {});
    var none: seq<Row> := [];
    assert Keys(none) == {};
  }

  // ----------------------------------------------------- crosslinking subset

  predicate IsCrosslinking(r: Row) {
    r.containsMarker == "True"
  }

  /** The crosslinking subset written from the ledger, or `None` when there
      is no ledger, in which case any earlier subset file is left as it
      was. */
  function CrosslinkingReport(ledger: Option<seq<Row>>): (r: Option<seq<Row>>)
    ensures r.Some? <==> ledger.Some?
    ensures r.Some? ==> forall i :: 0 <= i < |r.value| ==> r.value[i] in ledger.value && IsCrosslinking(r.value[i])
    ensures r.Some? ==> forall i :: 0 <= i < |ledger.value| && IsCrosslinking(ledger.value[i]) ==> ledger.value[i] in r.value
  {
    match ledger
    case None => None
    case Some(rows) => Some(Filter(rows, IsCrosslinking))
  }

  /** The subset keeps ledger order: the subset of a ledger extended by more
      rows is the old subset extended by the subset of the new rows. */
  lemma CrosslinkingKeepsOrder(a: seq<Row>, b: seq<Row>)
    ensures CrosslinkingReport(Some(a + b)).value == CrosslinkingReport(Some(a)).value + CrosslinkingReport(Some(b)).value
  {
    FilterAppend(a, b, IsCrosslinking);
  }
}

=== FILE: scheduler.dfy ===
/** The validation scheduler: the ledger's rows are ordered by the size
    they record, smallest first and otherwise in ledger order, optionally
    narrowed to the rows not flagged as crosslinking, and each row still
    lacking a final verdict is validated in turn; the whole ledger is
    rewritten after every validated row, and a memory-like failure ends the
    run after that rewrite. The validator is an input: what it yields for
    each file path. */
module Scheduler {
  import opened Base
  import opened Strings
  import opened Sizes
  import opened Paths
  import opened Report
  import opened Validator

  // ---------------------------------------------------------- stable sort

  /** The order a stable sort by `keys` puts positions in: by key, and by
      position among equal keys. */
  predicate LexBefore(keys: seq<int>, a: nat, b: nat)
    requires a < |keys| && b < |keys|
  {
    keys[a] < keys[b] || (keys[a] == keys[b] && a < b)
  }

  predicate InRange(n: nat, p: seq<nat>) {
    forall i :: 0 <= i < |p| ==> p[i] < n
  }

  predicate SortedPositions(keys: seq<int>, p: seq<nat>) {
    && InRange(|keys|, p)
    && forall i, j :: 0 <= i < j < |p| ==> LexBefore(keys, p[i], p[j])
  }

  /** The positions `0 .. n - 1`. */
  function Range(n: nat): (r: seq<nat>)
    ensures |r| == n && forall i :: 0 <= i < n ==> r[i] == i
  {
    if n == 0 then [] else Range(n - 1) + [n - 1]
  }

  /** Two distinct positions are always ordered one way or the other,
      never both. */
  lemma LexTotal(keys: seq<int>, a: nat, b: nat)
    requires a < |keys| && b < |keys| && a != b
    ensures LexBefore(keys, a, b) != LexBefore(keys, b, a)
  {
  }

  lemma ConsSorted(keys: seq<int>, h: nat, rest: seq<nat>)
    requires h < |keys| && SortedPositions(keys, rest)
    requires forall i :: 0 <= i < |rest| ==> LexBefore(keys, h, rest[i])
    ensures SortedPositions(keys, [h] + rest)
  {
    var r := [h] + rest;
    forall i, j | 0 <= i < j < |r| ensures LexBefore(keys, r[i], r[j]) {
      if i > 0 {
        assert r[i] == rest[i - 1] && r[j] == rest[j - 1];
      }
    }
  }

  /** `x` placed among the sorted positions `p` where the stable order puts
      it. */
  function Insert(keys: seq<int>, x: nat, p: seq<nat>): (r: seq<nat>)
    requires x < |keys| && SortedPositions(keys, p) && x !in p
    ensures SortedPositions(keys, r)
    ensures multiset(r) == multiset(p) + multiset{x}
    ensures |r| == |p| + 1
  {
    if p == [] then [x]
    else if LexBefore(keys, x, p[0]) then
      ConsSmallest(keys, x, p);
      [x] + p
    else
      TailFacts(keys, p, x);
      var rest := Insert(keys, x, p[1..]);
      ConsAfterHead(keys, x, p, rest);
      [p[0]] + rest
  }

  /** A position before the head of a sorted sequence goes in front. */
  lemma ConsSmallest(keys: seq<int>, x: nat, p: seq<nat>)
    requires x < |keys| && SortedPositions(keys, p) && p != [] && LexBefore(keys, x, p[0])
    ensures SortedPositions(keys, [x] + p)
  {
    forall i | 0 <= i < |p| ensures LexBefore(keys, x, p[i]) {
      if i > 0 {
        assert LexBefore(keys, p[0], p[i]);
      }
    }
    ConsSorted(keys, x, p);
  }

  /** The tail of a sorted sequence is sorted and misses what the whole
      misses. */
  lemma TailFacts(keys: seq<int>, p: seq<nat>, x: nat)
    requires SortedPositions(keys, p) && p != [] && x !in p
    ensures SortedPositions(keys, p[1..]) && x !in p[1..]
  {
    SortedTail(keys, p);
    assert forall i :: 0 <= i < |p| - 1 ==> p[1..][i] == p[i + 1];
  }

  /** A position after the head of a sorted sequence goes into its tail. */
  lemma ConsAfterHead(keys: seq<int>, x: nat, p: seq<nat>, rest: seq<nat>)
    requires x < |keys| && SortedPositions(keys, p) && p != [] && x !in p
    requires !LexBefore(keys, x, p[0])
    requires SortedPositions(keys, rest) && multiset(rest) == multiset(p[1..]) + multiset{x}
    ensures SortedPositions(keys, [p[0]] + rest)
    ensures multiset([p[0]] + rest) == multiset(p) + multiset{x}
  {
    assert x != p[0];
    LexTotal(keys, x, p[0]);
    forall i | 0 <= i < |rest| ensures LexBefore(keys, p[0], rest[i]) {
      assert rest[i] in multiset(p[1..]) + multiset{x};
      if rest[i] != x {
        HeadBeforeTail(keys, p, rest[i]);
      }
    }
    ConsSorted(keys, p[0], rest);
    MultisetTail(p);
  }

  /** In a sorted sequence the first position comes before every later
      one. */
  lemma HeadBeforeTail(keys: seq<int>, p: seq<nat>, y: nat)
    requires SortedPositions(keys, p) && p != [] && y in p[1..]
    ensures LexBefore(keys, p[0], y)
  {
    var j :| 0 <= j < |p| - 1 && p[1..][j] == y;
    assert y == p[j + 1];
  }

  /** The first `n` positions in stable order of their keys. */
  function SortPositions(keys: seq<int>, n: nat): (p: seq<nat>)
    requires n <= |keys|
    ensures SortedPositions(keys, p)
    ensures multiset(p) == multiset(Range(n))
    ensures |p| == n
  {
    if n == 0 then []
    else
      var p := SortPositions(keys, n - 1);
      assert Range(n) == Range(n - 1) + [n - 1];
      assert n - 1 !in multiset(Range(n - 1));
      Insert(keys, n - 1, p)
  }

  /** In a sorted sequence the first position comes before every other. */
  lemma FirstIsLeast(keys: seq<int>, p: seq<nat>, y: nat)
    requires SortedPositions(keys, p) && p != []
    ensures y in p && y != p[0] ==> LexBefore(keys, p[0], y)
  {
  }

  /** Dropping the first position keeps a sequence sorted. */
  lemma SortedTail(keys: seq<int>, p: seq<nat>)
    requires SortedPositions(keys, p) && p != []
    ensures SortedPositions(keys, p[1..])
  {
    var t := p[1..];
    forall i, j | 0 <= i < j < |t| ensures LexBefore(keys, t[i], t[j]) {
      assert t[i] == p[i + 1] && t[j] == p[j + 1];
    }
  }

  /** Two sorted orderings of the same positions start alike. */
  lemma SameHead(keys: seq<int>, p: seq<nat>, q: seq<nat>)
    requires SortedPositions(keys, p) && SortedPositions(keys, q)
    requires multiset(p) == multiset(q) && p != []
    ensures q != [] && p[0] == q[0]
  {
    assert p[0] in multiset(q);
    assert q != [];
    assert q[0] in multiset(p);
    FirstIsLeast(keys, q, p[0]);
    FirstIsLeast(keys, p, q[0]);
  }

  lemma MultisetTail(p: seq<nat>)
    requires p != []
    ensures multiset(p[1..]) == multiset(p) - multiset{p[0]}
  {
    assert p == [p[0]] + p[1..];
    assert multiset(p) == multiset{p[0]} + multiset(p[1..]);
  }

  /** Two orderings of the same positions that both follow the stable
      order are the same ordering: there is only one stable sort. */
  lemma {:induction false} StableOrderUnique(keys: seq<int>, p: seq<nat>, q: seq<nat>)
    requires SortedPositions(keys, p) && SortedPositions(keys, q)
    requires multiset(p) == multiset(q)
    ensures p == q
    decreases |p|
  {
    assert |q| == |p| by { assert |multiset(q)| == |multiset(p)|; }
    if p != [] {
      SameHead(keys, p, q);
      MultisetTail(p);
      MultisetTail(q);
      SortedTail(keys, p);
      SortedTail(keys, q);
      StableOrderUnique(keys, p[1..], q[1..]);
      assert p == [p[0]] + p[1..] && q == [q[0]] + q[1..];
    }
  }

  /** Rows whose keys already ascend keep their order: the identity
      arrangement is sorted and holds the same positions, so it is the one
      stable order. */
  lemma SortSortedIdentity(keys: seq<int>, n: nat)
    requires n <= |keys|
    requires forall i, j :: 0 <= i < j < n ==> keys[i] <= keys[j]
    ensures SortPositions(keys, n) == Range(n)
  {
    RangeSorted(keys, n);
    StableOrderUnique(keys, SortPositions(keys, n), Range(n));
  }

  /** Positions whose keys already ascend are in stable order as they
      stand. */
  lemma RangeSorted(keys: seq<int>, n: nat)
    requires n <= |keys|
    requires forall i, j :: 0 <= i < j < n ==> keys[i] <= keys[j]
    ensures SortedPositions(keys, Range(n))
  {
  }

  /** The size each row records, or `None` when some row's size does not
      parse, in which case the sort raises before anything is written. */
  function SizeKeys(rows: seq<Row>): (r: Option<seq<int>>)
    ensures r.Some? <==> forall i :: 0 <= i < |rows| ==> ParseFileSize(rows[i].fileSize).Some?
    ensures r.Some? ==> (|r.value| == |rows|
      && forall i :: 0 <= i < |rows| ==> r.value[i] == ParseFileSize(rows[i].fileSize).value)
  {
    if rows == [] then Some([])
    else
      match (ParseFileSize(rows[0].fileSize), SizeKeys(rows[1..]))
      case (Some(k), Some(ks)) => Some([k] + ks)
      case _ =>
        assert forall i :: 0 <= i < |rows[1..]| ==> rows[1..][i] == rows[i + 1];
        None
  }

  /** The rows at the given positions, in that order. */
  function Pick(rows: seq<Row>, p: seq<nat>): (r: seq<Row>)
    requires InRange(|rows|, p)
    ensures |r| == |p| && forall i :: 0 <= i < |p| ==> r[i] == rows[p[i]]
  {
    seq(|p|, i requires 0 <= i < |p| => rows[p[i]])
  }

  lemma PickAppend(rows: seq<Row>, p: seq<nat>, q: seq<nat>)
    requires InRange(|rows|, p) && InRange(|rows|, q)
    ensures Pick(rows, p + q) == Pick(rows, p) + Pick(rows, q)
  {
  }

  /** Picking around the `k`-th position and then that position gives the
      same rows. */
  lemma PickRemove(rows: seq<Row>, q: seq<nat>, k: nat)
    requires InRange(|rows|, q) && k < |q|
    ensures InRange(|rows|, q[..k] + q[k + 1..])
    ensures multiset(Pick(rows, q)) == multiset{rows[q[k]]} + multiset(Pick(rows, q[..k] + q[k + 1..]))
  {
    var q' := q[..k] + q[k + 1..];
    assert forall i :: 0 <= i < |q'| ==> q'[i] == if i < k then q[i] else q[i + 1];
    var s := Pick(rows, q);
    assert Pick(rows, q') == s[..k] + s[k + 1..];
    MultisetRemove(s, k);
  }

  /** Removing the `k`-th element removes one occurrence of it. */
  lemma MultisetRemove<T>(q: seq<T>, k: nat)
    requires k < |q|
    ensures multiset(q[..k] + q[k + 1..]) == multiset(q) - multiset{q[k]}
    ensures multiset(q) == multiset{q[k]} + multiset(q[..k] + q[k + 1..])
  {
    assert q == q[..k] + [q[k]] + q[k + 1..];
  }

  /** Picking the same positions in another order picks the same rows in
      another order. */
  lemma {:induction false} PickPermutation(rows: seq<Row>, p: seq<nat>, q: seq<nat>)
    requires InRange(|rows|, p) && InRange(|rows|, q)
    requires multiset(p) == multiset(q)
    ensures multiset(Pick(rows, p)) == multiset(Pick(rows, q))
    decreases |p|
  {
    if p == [] {
      assert |q| == 0 by { assert |multiset(q)| == 0; }
    } else {
      assert p[0] in multiset(q);
      var k :| 0 <= k < |q| && q[k] == p[0];
      SameRemoved(p, q, k);
      PickRemove(rows, q, k);
      PickHead(rows, p);
      PickPermutation(rows, p[1..], q[..k] + q[k + 1..]);
    }
  }

  /** Taking the first position from one ordering and the same position
      from another leaves the same positions. */
  lemma SameRemoved(p: seq<nat>, q: seq<nat>, k: nat)
    requires p != [] && k < |q| && q[k] == p[0] && multiset(p) == multiset(q)
    ensures multiset(p[1..]) == multiset(q[..k] + q[k + 1..])
  {
    MultisetTail(p);
    MultisetRemove(q, k);
  }

  /** Picking the first position and then the rest gives the same rows. */
  lemma PickHead(rows: seq<Row>, p: seq<nat>)
    requires InRange(|rows|, p) && p != []
    ensures InRange(|rows|, p[1..])
    ensures multiset(Pick(rows, p)) == multiset{rows[p[0]]} + multiset(Pick(rows, p[1..]))
  {
    assert Pick(rows, p) == [rows[p[0]]] + Pick(rows, p[1..]);
  }

  /** Every size column reads as a number, and the numbers never go down
      along the rows. */
  predicate SizesAscend(rows: seq<Row>) {
    && (forall i :: 0 <= i < |rows| ==> ParseFileSize(rows[i].fileSize).Some?)
    && (forall i, j :: 0 <= i < j < |rows| ==>
          ParseFileSize(rows[i].fileSize).value <= ParseFileSize(rows[j].fileSize).value)
  }

  /** Rows that keep their facts keep their size order. */
  lemma SameFactsAscend(a: seq<Row>, b: seq<Row>)
    requires |a| == |b| && forall q :: 0 <= q < |a| ==> SameFacts(a[q], b[q])
    requires SizesAscend(a)
    ensures SizesAscend(b)
  {
    assert forall q :: 0 <= q < |a| ==> a[q].fileSize == b[q].fileSize;
  }

  /** The rows in stable order of their sizes: a rearrangement of the rows
      with sizes ascending. */
  function SortRows(rows: seq<Row>, keys: seq<int>): (r: seq<Row>)
    requires |keys| == |rows|
    requires forall i :: 0 <= i < |rows| ==> ParseFileSize(rows[i].fileSize).Some?
    requires forall i :: 0 <= i < |rows| ==> keys[i] == ParseFileSize(rows[i].fileSize).value
    ensures |r| == |rows|
    ensures multiset(r) == multiset(rows)
    ensures SizesAscend(r)
    ensures forall p: seq<nat> :: SortedPositions(keys, p) && multiset(p) == multiset(Range(|rows|)) ==> r == Pick(rows, p)
  {
    var p := SortPositions(keys, |rows|);
    OnlyStableOrder(keys, p);
    PickPermutation(rows, p, Range(|rows|));
    PickRange(rows);
    PickAscends(rows, keys, p);
    Pick(rows, p)
  }

  /** Every arrangement of all the positions in stable order is `p`. */
  lemma OnlyStableOrder(keys: seq<int>, p: seq<nat>)
    requires SortedPositions(keys, p)
    ensures forall q: seq<nat> :: SortedPositions(keys, q) && multiset(q) == multiset(p) ==> q == p
  {
    forall q: seq<nat> | SortedPositions(keys, q) && multiset(q) == multiset(p)
      ensures q == p
    {
      StableOrderUnique(keys, q, p);
    }
  }

  /** Picking every position in order gives the rows back. */
  lemma PickRange(rows: seq<Row>)
    ensures InRange(|rows|, Range(|rows|))
    ensures Pick(rows, Range(|rows|)) == rows
  {
  }

  /** Picking rows at positions sorted by their sizes gives ascending
      sizes. */
  lemma PickAscends(rows: seq<Row>, keys: seq<int>, p: seq<nat>)
    requires |keys| == |rows| && SortedPositions(keys, p)
    requires forall i :: 0 <= i < |rows| ==> ParseFileSize(rows[i].fileSize).Some?
    requires forall i :: 0 <= i < |rows| ==> keys[i] == ParseFileSize(rows[i].fileSize).value
    ensures SizesAscend(Pick(rows, p))
  {
    var s := Pick(rows, p);
    forall i, j | 0 <= i < j < |s|
      ensures ParseFileSize(s[i].fileSize).value <= ParseFileSize(s[j].fileSize).value
    {
      assert LexBefore(keys, p[i], p[j]);
    }
  }

  // -------------------------------------------------------- the file lookup

  /** A directory of the walk and the names of the files in it. */
  datatype WalkDir = WalkDir(path: string, files: seq<string>)

  predicate Holds(d: WalkDir, project: string, filename: string) {
    filename in d.files && EndsWith(d.path, project)
  }

  /** The path of the file: in the first directory of the walk whose path
      ends with the project and which lists the file name. */
  function FindFilePath(walk: seq<WalkDir>, project: string, filename: string): (r: Option<string>)
    ensures r.Some? <==> exists i :: 0 <= i < |walk| && Holds(walk[i], project, filename)
    ensures r.Some? ==> exists i :: (0 <= i < |walk| && Holds(walk[i], project, filename)
      && (forall j :: 0 <= j < i ==> !Holds(walk[j], project, filename))
      && r.value == PathJoin(walk[i].path, filename))
  {
    if walk == [] then None
    else if Holds(walk[0], project, filename) then Some(PathJoin(walk[0].path, filename))
    else
      var r := FindFilePath(walk[1..], project, filename);
      FindShift(walk, project, filename, r);
      r
  }

  /** The first directory holding the file in the rest of the walk is the
      first in the whole walk when the head directory does not hold it. */
  lemma FindShift(walk: seq<WalkDir>, project: string, filename: string, r: Option<string>)
    requires walk != [] && !Holds(walk[0], project, filename)
    requires var t := walk[1..];
      && (r.Some? <==> exists i :: 0 <= i < |t| && Holds(t[i], project, filename))
      && (r.Some? ==> exists i :: (0 <= i < |t| && Holds(t[i], project, filename)
            && (forall j :: 0 <= j < i ==> !Holds(t[j], project, filename))
            && r.value == PathJoin(t[i].path, filename)))
    ensures r.Some? <==> exists i :: 0 <= i < |walk| && Holds(walk[i], project, filename)
    ensures r.Some? ==> exists i :: (0 <= i < |walk| && Holds(walk[i], project, filename)
      && (forall j :: 0 <= j < i ==> !Holds(walk[j], project, filename))
      && r.value == PathJoin(walk[i].path, filename))
  {
    var t := walk[1..];
    if exists i :: 0 <= i < |walk| && Holds(walk[i], project, filename) {
      var i :| 0 <= i < |walk| && Holds(walk[i], project, filename);
      assert i > 0 && t[i - 1] == walk[i];
    }
    if r.Some? {
      var i :| (0 <= i < |t| && Holds(t[i], project, filename)
            && (forall j :: 0 <= j < i ==> !Holds(t[j], project, filename))
            && r.value == PathJoin(t[i].path, filename));
      assert t[i] == walk[i + 1];
      forall j | 0 <= j < i + 1
        ensures !Holds(walk[j], project, filename)
      {
        if j > 0 {
          assert walk[j] == t[j - 1];
        }
      }
      assert Holds(walk[i + 1], project, filename) && r.value == PathJoin(walk[i + 1].path, filename);
    }
  }

  // -------------------------------------------------------- verdict mapping

  const MemoryTerms: seq<string> := ["kill", "memory", "oom", "signal 9", "cannot allocate", "worker"]

  /** An exception text that points at the worker process dying or running
      out of memory. */
  predicate MemoryLike(s: string) {
    exists i :: 0 <= i < |MemoryTerms| && Occurs(MemoryTerms[i], s)
  }

  /** The text the source tests is the exception's message followed by its
      type name: a memory term in either part makes it memory-like, so
      a type named like `MemoryError` or a message "Killed" each
      suffice. */
  lemma MemoryLikeParts(msg: string, typeName: string)
    ensures MemoryLike(Lower(msg)) ==> MemoryLike(Lower(msg) + Lower(typeName))
    ensures MemoryLike(Lower(typeName)) ==> MemoryLike(Lower(msg) + Lower(typeName))
    ensures MemoryLike(Lower(msg) + Lower("MemoryError"))
    ensures MemoryLike(Lower("Killed") + Lower(typeName))
  {
    if MemoryLike(Lower(msg)) {
      MemoryLikeWider([], Lower(msg), Lower(typeName));
    }
    if MemoryLike(Lower(typeName)) {
      MemoryLikeWider(Lower(msg), Lower(typeName), []);
    }
    MemoryErrorText();
    MemoryLikeAt(Lower("MemoryError"), 1, Lower(msg), []);
    KilledText();
    MemoryLikeAt(Lower("Killed"), 0, [], Lower(typeName));
  }

  lemma MemoryErrorText()
    ensures StartsWith(Lower("MemoryError"), MemoryTerms[1])
  {
    var s := Lower("MemoryError");
    assert s[..6] == "memory" by {
      assert s[0] == 'm' && s[1] == 'e' && s[2] == 'm' && s[3] == 'o' && s[4] == 'r' && s[5] == 'y';
    }
  }

  lemma KilledText()
    ensures StartsWith(Lower("Killed"), MemoryTerms[0])
  {
    var s := Lower("Killed");
    assert s[..4] == "kill" by {
      assert s[0] == 'k' && s[1] == 'i' && s[2] == 'l' && s[3] == 'l';
    }
  }

  /** Text around a memory-like text leaves it memory-like. */
  lemma MemoryLikeWider(a: string, s: string, b: string)
    requires MemoryLike(s)
    ensures MemoryLike(a + s + b)
    ensures a == [] ==> MemoryLike(s + b)
    ensures b == [] ==> MemoryLike(a + s)
  {
    var i :| 0 <= i < |MemoryTerms| && Occurs(MemoryTerms[i], s);
    OccursInLarger(MemoryTerms[i], a, s, b);
    if a == [] { assert a + s + b == s + b; }
    if b == [] { assert a + s + b == a + s; }
  }

  /** A text that starts with the i-th memory term is memory-like, whatever
      surrounds it. */
  lemma MemoryLikeAt(s: string, i: nat, a: string, b: string)
    requires i < |MemoryTerms| && StartsWith(s, MemoryTerms[i])
    ensures a == [] ==> MemoryLike(s + b)
    ensures b == [] ==> MemoryLike(a + s)
  {
    assert OccursAt(MemoryTerms[i], s, 0);
    MemoryLikeWider(a, s, b);
  }

  /** Verdicts that end validation of a row for good. */
  predicate Final(verdict: string) {
    verdict == "True" || verdict == "False"
  }

  /** The row's facts other than the three validation columns. */
  predicate SameFacts(a: Row, b: Row) {
    && a.project == b.project && a.date == b.date && a.fileName == b.fileName
    && a.fileSize == b.fileSize && a.containsMarker == b.containsMarker && a.parseable == b.parseable
  }

  /** The row after a validation outcome, and whether the run must stop. */
  function ApplyOutcome(row: Row, o: Outcome): (r: (Row, bool))
    ensures SameFacts(row, r.0)
    ensures r.0.schemaValid in ["True", "False", "timed out", "out of memory"]
    ensures r.1 <==> r.0.schemaValid == "out of memory"
    ensures r.1 <==> (o.MemoryExc? || o.PipeExc? || (o.OtherExc? && MemoryLike(Lower(o.msg) + Lower(o.typeName))))
    ensures o.Returned? ==> r.0.schemaVersion == o.version.GetOr("")
    ensures !o.Returned? ==> r.0.schemaVersion == row.schemaVersion
    ensures o.Returned? ==>
      (r.0.schemaValid == "timed out" <==> |o.messages| > 0 && Occurs("timed out", Lower(o.messages[0])))
    ensures o.Returned? && r.0.schemaValid != "timed out" ==>
      (r.0.schemaValid == "True" <==> o.valid)
    ensures o.Returned? && r.0.schemaValid == "True" ==> r.0.errorMessage == ""
    ensures o.Returned? && r.0.schemaValid == "False" ==> r.0.errorMessage == Join(o.messages, "; ")
    ensures o.Returned? && r.0.schemaValid == "timed out" ==> r.0.errorMessage == o.messages[0]
    ensures o.OtherExc? && !MemoryLike(Lower(o.msg) + Lower(o.typeName)) ==>
      r.0.schemaValid == "False" && r.0.errorMessage == "Schema validation error: " + o.msg
    ensures o.MemoryExc? ==> r.0.errorMessage == "Memory error: " + o.msg
    ensures o.PipeExc? ==> r.0.errorMessage == "Subprocess killed: " + o.msg
    ensures o.OtherExc? && MemoryLike(Lower(o.msg) + Lower(o.typeName)) ==>
      r.0.errorMessage == "Memory/process error: " + o.msg
  {
    match o
    case Returned(valid, version, messages) =>
      var row' := row.(schemaVersion := version.GetOr(""));
      if |messages| > 0 && Occurs("timed out", Lower(messages[0])) then
        (row'.(schemaValid := "timed out", errorMessage := messages[0]), false)
      else if valid then
        (row'.(schemaValid := "True", errorMessage := ""), false)
      else
        (row'.(schemaValid := "False", errorMessage := if |messages| > 0 then Join(messages, "; ") else ""), false)
    case MemoryExc(msg) =>
      (row.(schemaValid := "out of memory", errorMessage := "Memory error: " + msg), true)
    case PipeExc(msg) =>
      (row.(schemaValid := "out of memory", errorMessage := "Subprocess killed: " + msg), true)
    case OtherExc(msg, typeName) =>
      if MemoryLike(Lower(msg) + Lower(typeName)) then
        (row.(schemaValid := "out of memory", errorMessage := "Memory/process error: " + msg), true)
      else
        (row.(schemaValid := "False", errorMessage := "Schema validation error: " + msg), false)
  }

  /** A validation that ran out of time is recorded as "timed out", with
      no version, and the run carries on. */
  lemma TimeoutVerdict(row: Row, worker: Outcome, timeout: int)
    ensures var r := ApplyOutcome(row, ValidateWithTimeout(worker, true, timeout));
      r.0.schemaValid == "timed out" && r.0.errorMessage == TimeoutMsg(timeout)
      && r.0.schemaVersion == "" && !r.1
  {
  }

  /** What happens to one row: `None` when it is passed over (unparseable,
      already judged, or its file cannot be found), otherwise the updated
      row and whether the run must stop. */
  function Attempt(row: Row, walk: seq<WalkDir>, validate: string -> Outcome): (r: Option<(Row, bool)>)
    ensures r.None? <==> (row.parseable != "True" || Final(row.schemaValid)
      || FindFilePath(walk, row.project, row.fileName).None?
      || FindFilePath(walk, row.project, row.fileName).value == [])
    ensures r.Some? ==> r.value == ApplyOutcome(row, validate(FindFilePath(walk, row.project, row.fileName).value))
  {
    if row.parseable != "True" then None
    else if Final(row.schemaValid) then None
    else
      match FindFilePath(walk, row.project, row.fileName)
      case None => None
      case Some(path) => if path == [] then None else Some(ApplyOutcome(row, validate(path)))
  }

  /** Rows marked "timed out" or "out of memory", or not validated yet, are
      validated again on the next run when their file is found. */
  lemma UnfinishedRowsRetried(row: Row, walk: seq<WalkDir>, validate: string -> Outcome)
    requires row.parseable == "True" && !Final(row.schemaValid)
    requires exists i :: 0 <= i < |walk| && Holds(walk[i], row.project, row.fileName)
    requires row.fileName != []
    ensures Attempt(row, walk, validate).Some?
  {
    var path := FindFilePath(walk, row.project, row.fileName).value;
    EndsWithAppend([], row.fileName);
  }

  // --------------------------------------------------------------- the loop

  /** One row's turn as the loop sees it: `None` when the row is passed
      over, otherwise the updated row and whether the run must stop. */
  type Attempter = Row -> Option<(Row, bool)>

  /** The scheduler's own attempt, on a fixed mirror and validator. */
  function AttemptOn(walk: seq<WalkDir>, validate: string -> Outcome): Attempter {
    row => Attempt(row, walk, validate)
  }

  /** What the loop relies on of an attempt: it keeps the row's file facts,
      it stops the run exactly on an "out of memory" verdict, and it passes
      over rows already judged "True" or "False". */
  ghost predicate Faithful(att: Attempter) {
    && (forall row :: att(row).Some? ==> SameFacts(row, att(row).value.0))
    && (forall row :: att(row).Some? ==> (att(row).value.1 <==> att(row).value.0.schemaValid == "out of memory"))
    && (forall row: Row :: Final(row.schemaValid) ==> att(row).None?)
  }

  /** The scheduler's attempt has the properties the loop relies on. */
  lemma AttemptFaithful(walk: seq<WalkDir>, validate: string -> Outcome)
    ensures Faithful(AttemptOn(walk, validate))
  {
    var att := AttemptOn(walk, validate);
    forall row | att(row).Some?
      ensures SameFacts(row, att(row).value.0)
      ensures att(row).value.1 <==> att(row).value.0.schemaValid == "out of memory"
    {
      assert att(row) == Attempt(row, walk, validate);
    }
    forall row: Row | Final(row.schemaValid)
      ensures att(row).None?
    {
      assert att(row) == Attempt(row, walk, validate);
    }
  }

  /** The state after the loop: the rows as they stand, every rewrite of the
      ledger in order, the positions validated (one per rewrite), how many
      positions of the work list were consumed, and whether the run was
      stopped. */
  datatype Run = Run(rows: seq<Row>, writes: seq<seq<Row>>, validated: seq<nat>, consumed: nat, halted: bool)

  predicate Distinct(todo: seq<nat>) {
    forall i, j :: 0 <= i < j < |todo| ==> todo[i] != todo[j]
  }

  /** Rows `a` and `b` agree except possibly at position `pos`, where they
      agree except possibly in the validation columns. */
  predicate OnlyChanged(a: seq<Row>, b: seq<Row>, pos: nat) {
    && |a| == |b| && pos < |a|
    && (forall q :: 0 <= q < |a| && q != pos ==> a[q] == b[q])
    && SameFacts(a[pos], b[pos])
  }

  /** The loop over the positions of `rows` listed in `todo`, validating
      and rewriting the ledger one row at a time. */
  function Loop(rows: seq<Row>, todo: seq<nat>, att: Attempter): (r: Run)
    requires forall i :: 0 <= i < |todo| ==> todo[i] < |rows|
    ensures |r.rows| == |rows|
    ensures |r.writes| == |r.validated|
    ensures r.consumed <= |todo|
    ensures !r.halted ==> r.consumed == |todo|
    ensures r.writes != [] ==> r.writes[|r.writes| - 1] == r.rows
    ensures r.writes == [] ==> r.rows == rows
    decreases |todo|
  {
    if todo == [] then Run(rows, [], [], 0, false)
    else
      var pos := todo[0];
      match att(rows[pos])
      case None =>
        var rest := Loop(rows, todo[1..], att);
        Run(rest.rows, rest.writes, rest.validated, rest.consumed + 1, rest.halted)
      case Some((row, halt)) =>
        var rows' := rows[pos := row];
        if halt then Run(rows', [rows'], [pos], 1, true)
        else
          var rest := Loop(rows', todo[1..], att);
          Run(rest.rows, [rows'] + rest.writes, [pos] + rest.validated, rest.consumed + 1, rest.halted)
  }

  /** Every rewrite of run `r` differs from the one before (the first from
      `rows`) only in the validation columns of the row just validated, a
      position of `todo`. */
  predicate WritesOneRowEach(rows: seq<Row>, todo: seq<nat>, r: Run)
    requires |r.writes| == |r.validated|
  {
    && (r.writes != [] ==> OnlyChanged(rows, r.writes[0], r.validated[0]))
    && (forall i :: 0 < i < |r.writes| ==> OnlyChanged(r.writes[i - 1], r.writes[i], r.validated[i]))
    && (forall i :: 0 <= i < |r.validated| ==> r.validated[i] in todo)
  }

  /** Every rewrite differs from the one before (the first from the loaded
      rows) only in the validation columns of the row just validated. */
  lemma {:induction false} LoopWritesOneRowEach(rows: seq<Row>, todo: seq<nat>, att: Attempter)
    requires forall i :: 0 <= i < |todo| ==> todo[i] < |rows|
    requires Faithful(att)
    ensures WritesOneRowEach(rows, todo, Loop(rows, todo, att))
    decreases |todo|
  {
    if todo != [] {
      var pos := todo[0];
      match att(rows[pos])
      case None =>
        LoopWritesOneRowEach(rows, todo[1..], att);
      case Some((row, halt)) =>
        var rows' := rows[pos := row];
        assert OnlyChanged(rows, rows', pos);
        if !halt {
          LoopWritesOneRowEach(rows', todo[1..], att);
          WritesCons(rows, rows', todo, Loop(rows', todo[1..], att), Loop(rows, todo, att));
        }
    }
  }

  /** A write of `rows'` at the head of the work list followed by a run
      that writes one row each writes one row each. */
  lemma WritesCons(rows: seq<Row>, rows': seq<Row>, todo: seq<nat>, rest: Run, r: Run)
    requires todo != [] && OnlyChanged(rows, rows', todo[0])
    requires |rest.writes| == |rest.validated| && WritesOneRowEach(rows', todo[1..], rest)
    requires r.writes == [rows'] + rest.writes && r.validated == [todo[0]] + rest.validated
    ensures WritesOneRowEach(rows, todo, r)
  {
    forall i | 0 < i < |r.writes|
      ensures OnlyChanged(r.writes[i - 1], r.writes[i], r.validated[i])
    {
      assert r.writes[i] == rest.writes[i - 1] && r.validated[i] == rest.validated[i - 1];
      if i > 1 {
        assert r.writes[i - 1] == rest.writes[i - 2];
      }
    }
    forall i | 0 <= i < |r.validated|
      ensures r.validated[i] in todo
    {
      if i > 0 {
        assert r.validated[i] == rest.validated[i - 1] && rest.validated[i - 1] in todo[1..];
      }
    }
  }

  /** Run `r` over `rows` wrote what the attempt returned: the `i`-th
      rewrite holds, at the position it validated, the attempt's row for
      the row as loaded; a position the attempt passed over was neither
      validated nor changed; and a position never validated comes out as it
      went in. */
  predicate WritesAttempts(rows: seq<Row>, todo: seq<nat>, att: Attempter, r: Run)
    requires |r.writes| == |r.validated| && |r.rows| == |rows|
  {
    && (forall i :: 0 <= i < |r.validated| ==>
          && r.validated[i] in todo && r.validated[i] < |rows| && r.validated[i] < |r.writes[i]|
          && att(rows[r.validated[i]]).Some?
          && r.writes[i][r.validated[i]] == att(rows[r.validated[i]]).value.0)
    && (forall j :: 0 <= j < r.consumed && j < |todo| && todo[j] < |rows| && att(rows[todo[j]]).None? ==>
          todo[j] !in r.validated && r.rows[todo[j]] == rows[todo[j]])
    && (forall q :: 0 <= q < |rows| && q !in r.validated ==> r.rows[q] == rows[q])
  }

  /** Over distinct positions the loop writes exactly what the attempt
      returns for each row as loaded, and a row the attempt passes over
      causes no write and is left as it was. */
  lemma {:induction false} LoopWritesAttempts(rows: seq<Row>, todo: seq<nat>, att: Attempter)
    requires forall i :: 0 <= i < |todo| ==> todo[i] < |rows|
    requires Distinct(todo)
    ensures WritesAttempts(rows, todo, att, Loop(rows, todo, att))
    decreases |todo|
  {
    if todo != [] {
      var pos := todo[0];
      DistinctTail(todo);
      var a := att(rows[pos]);
      if a.None? {
        LoopWritesAttempts(rows, todo[1..], att);
        AttemptsSkip(rows, todo, att, Loop(rows, todo[1..], att), Loop(rows, todo, att));
      } else if !a.value.1 {
        var rows' := rows[pos := a.value.0];
        LoopWritesAttempts(rows', todo[1..], att);
        AttemptsWrite(rows, rows', todo, att, Loop(rows', todo[1..], att), Loop(rows, todo, att));
      } else {
        AttemptsHalt(rows, todo, att, Loop(rows, todo, att));
      }
    }
  }

  /** The tail of distinct positions is distinct and misses the head. */
  lemma DistinctTail(todo: seq<nat>)
    requires todo != [] && Distinct(todo)
    ensures Distinct(todo[1..])
    ensures forall k :: 0 <= k < |todo[1..]| ==> todo[1..][k] != todo[0]
  {
  }

  /** A write of the attempt's row at the head position that stops the
      run. */
  lemma AttemptsHalt(rows: seq<Row>, todo: seq<nat>, att: Attempter, r: Run)
    requires todo != [] && todo[0] < |rows| && att(rows[todo[0]]).Some?
    requires var rows' := rows[todo[0] := att(rows[todo[0]]).value.0];
      r == Run(rows', [rows'], [todo[0]], 1, true)
    ensures WritesAttempts(rows, todo, att, r)
  {
  }

  /** A passed-over head position followed by a run that wrote what the
      attempt returned. */
  lemma AttemptsSkip(rows: seq<Row>, todo: seq<nat>, att: Attempter, rest: Run, r: Run)
    requires todo != [] && todo[0] < |rows| && att(rows[todo[0]]).None?
    requires forall k :: 0 <= k < |todo[1..]| ==> todo[1..][k] != todo[0]
    requires |rest.writes| == |rest.validated| && |rest.rows| == |rows|
    requires WritesAttempts(rows, todo[1..], att, rest)
    requires r == Run(rest.rows, rest.writes, rest.validated, rest.consumed + 1, rest.halted)
    ensures WritesAttempts(rows, todo, att, r)
  {
    assert todo[0] !in rest.validated;
    forall j | 0 < j < r.consumed && j < |todo| && todo[j] < |rows| && att(rows[todo[j]]).None?
      ensures todo[j] !in r.validated && r.rows[todo[j]] == rows[todo[j]]
    {
      assert todo[1..][j - 1] == todo[j];
    }
  }

  /** A write of the attempt's row at the head position followed by a run
      over the rewritten rows that wrote what the attempt returned. */
  lemma AttemptsWrite(rows: seq<Row>, rows': seq<Row>, todo: seq<nat>, att: Attempter, rest: Run, r: Run)
    requires todo != [] && todo[0] < |rows| && att(rows[todo[0]]).Some?
    requires rows' == rows[todo[0] := att(rows[todo[0]]).value.0]
    requires forall k :: 0 <= k < |todo[1..]| ==> todo[1..][k] != todo[0]
    requires |rest.writes| == |rest.validated| && |rest.rows| == |rows|
    requires WritesAttempts(rows', todo[1..], att, rest)
    requires r == Run(rest.rows, [rows'] + rest.writes, [todo[0]] + rest.validated, rest.consumed + 1, rest.halted)
    ensures WritesAttempts(rows, todo, att, r)
  {
    var pos := todo[0];
    forall i | 0 < i < |r.validated|
      ensures r.validated[i] in todo && r.validated[i] < |rows| && r.validated[i] < |r.writes[i]|
      ensures att(rows[r.validated[i]]).Some? && r.writes[i][r.validated[i]] == att(rows[r.validated[i]]).value.0
    {
      var v := rest.validated[i - 1];
      assert r.validated[i] == v && r.writes[i] == rest.writes[i - 1];
      assert v in todo[1..];
      assert v != pos;
      assert rows'[v] == rows[v];
    }
    forall j | 0 < j < r.consumed && j < |todo| && todo[j] < |rows| && att(rows[todo[j]]).None?
      ensures todo[j] !in r.validated && r.rows[todo[j]] == rows[todo[j]]
    {
      assert todo[1..][j - 1] == todo[j];
      assert rows'[todo[j]] == rows[todo[j]];
    }
    forall q | 0 <= q < |rows| && q !in r.validated
      ensures r.rows[q] == rows[q]
    {
      assert q != pos && q !in rest.validated;
    }
  }

  /** The run `r` over the positions `todo` kept every row's file facts and
      left rows with a final verdict and rows not on the work list exactly
      as they were in `rows`. */
  predicate Preserves(rows: seq<Row>, todo: seq<nat>, r: Run)
    requires |r.rows| == |rows|
  {
    && (forall q :: 0 <= q < |rows| ==> SameFacts(rows[q], r.rows[q]))
    && (forall q :: 0 <= q < |rows| && Final(rows[q].schemaValid) ==> r.rows[q] == rows[q])
    && (forall q :: 0 <= q < |rows| && q !in todo ==> r.rows[q] == rows[q])
  }

  /** The loop keeps every row's file facts, leaves rows with a final
      verdict and rows not on the work list exactly as they were. */
  lemma {:induction false} LoopPreserves(rows: seq<Row>, todo: seq<nat>, att: Attempter)
    requires forall i :: 0 <= i < |todo| ==> todo[i] < |rows|
    requires Faithful(att)
    ensures Preserves(rows, todo, Loop(rows, todo, att))
    decreases |todo|
  {
    if todo != [] {
      var pos := todo[0];
      match att(rows[pos])
      case None =>
        LoopPreserves(rows, todo[1..], att);
        PreservesCons(rows, rows, todo, Loop(rows, todo[1..], att), Loop(rows, todo, att));
      case Some((row, halt)) =>
        var rows' := rows[pos := row];
        if halt {
          assert rows'[pos] == row;
        } else {
          LoopPreserves(rows', todo[1..], att);
          PreservesCons(rows, rows', todo, Loop(rows', todo[1..], att), Loop(rows, todo, att));
        }
    }
  }

  /** A step that changes at most the head position of the work list, and
      only in a row without a final verdict and only in its validation
      columns, followed by a run that preserves, preserves. */
  lemma PreservesCons(rows: seq<Row>, rows': seq<Row>, todo: seq<nat>, rest: Run, r: Run)
    requires todo != [] && todo[0] < |rows| && |rows'| == |rows| && |rest.rows| == |rows|
    requires forall q :: 0 <= q < |rows| && q != todo[0] ==> rows'[q] == rows[q]
    requires SameFacts(rows[todo[0]], rows'[todo[0]])
    requires Final(rows[todo[0]].schemaValid) ==> rows'[todo[0]] == rows[todo[0]]
    requires Preserves(rows', todo[1..], rest) && r.rows == rest.rows
    ensures Preserves(rows, todo, r)
  {
    forall q | 0 <= q < |rows| && q !in todo
      ensures r.rows[q] == rows[q]
    {
      assert q !in todo[1..];
    }
  }

  /** The rows listed after the point where the run stopped were not
      touched. */
  lemma {:induction false} LoopLeavesRest(rows: seq<Row>, todo: seq<nat>, att: Attempter)
    requires forall i :: 0 <= i < |todo| ==> todo[i] < |rows|
    requires Distinct(todo)
    ensures var r := Loop(rows, todo, att);
      forall j :: r.consumed <= j < |todo| ==> r.rows[todo[j]] == rows[todo[j]]
    decreases |todo|
  {
    if todo != [] {
      var pos := todo[0];
      var tail := todo[1..];
      assert forall j :: 0 <= j < |tail| ==> tail[j] == todo[j + 1] && tail[j] != pos;
      assert Distinct(tail);
      match att(rows[pos])
      case None =>
        LoopLeavesRest(rows, tail, att);
      case Some((row, halt)) =>
        if !halt {
          LoopLeavesRest(rows[pos := row], tail, att);
        }
    }
  }

  /** A halted run `r` over `todo` stopped right after validating the last
      position it consumed. */
  predicate HaltedAtLast(todo: seq<nat>, r: Run)
    requires r.consumed <= |todo|
  {
    r.halted ==> 1 <= r.consumed && r.validated != [] && r.validated[|r.validated| - 1] == todo[r.consumed - 1]
  }

  /** A halted run stopped right after validating the last position it
      consumed. */
  lemma {:induction false} LoopStopsAtLast(rows: seq<Row>, todo: seq<nat>, att: Attempter)
    requires forall i :: 0 <= i < |todo| ==> todo[i] < |rows|
    ensures HaltedAtLast(todo, Loop(rows, todo, att))
    decreases |todo|
  {
    if todo != [] {
      var pos := todo[0];
      var tail := todo[1..];
      match att(rows[pos])
      case None =>
        LoopStopsAtLast(rows, tail, att);
        ConsumedOneMore(todo, Loop(rows, tail, att), Loop(rows, todo, att));
      case Some((row, halt)) =>
        if !halt {
          var rows' := rows[pos := row];
          LoopStopsAtLast(rows', tail, att);
          ConsumedOneMore(todo, Loop(rows', tail, att), Loop(rows, todo, att));
        }
    }
  }

  /** Consuming one more position at the head of the work list, validated
      or not, keeps a halted run's last validation at its last consumed
      position. */
  lemma ConsumedOneMore(todo: seq<nat>, rest: Run, r: Run)
    requires todo != [] && rest.consumed <= |todo| - 1 && HaltedAtLast(todo[1..], rest)
    requires r.consumed == rest.consumed + 1 && r.halted == rest.halted
    requires r.validated == rest.validated || r.validated == [todo[0]] + rest.validated
    ensures HaltedAtLast(todo, r)
  {
    if r.halted {
      assert r.validated[|r.validated| - 1] == rest.validated[|rest.validated| - 1];
      assert todo[1..][rest.consumed - 1] == todo[r.consumed - 1];
    }
  }

  /** A halted run `r` over `todo` stopped at the row it marked "out of
      memory". */
  predicate HaltedOnMemory(todo: seq<nat>, r: Run)
    requires r.consumed <= |todo| && forall i :: 0 <= i < |todo| ==> todo[i] < |r.rows|
  {
    r.halted ==> 1 <= r.consumed && r.rows[todo[r.consumed - 1]].schemaValid == "out of memory"
  }

  /** A halted run stopped at the row it marked "out of memory". */
  lemma {:induction false} LoopHalts(rows: seq<Row>, todo: seq<nat>, att: Attempter)
    requires forall i :: 0 <= i < |todo| ==> todo[i] < |rows|
    requires Faithful(att)
    ensures HaltedOnMemory(todo, Loop(rows, todo, att))
    decreases |todo|
  {
    if todo != [] {
      var pos := todo[0];
      var tail := todo[1..];
      match att(rows[pos])
      case None =>
        LoopHalts(rows, tail, att);
        HaltedOneMore(todo, Loop(rows, tail, att), Loop(rows, todo, att));
      case Some((row, halt)) =>
        var rows' := rows[pos := row];
        if !halt {
          LoopHalts(rows', tail, att);
          HaltedOneMore(todo, Loop(rows', tail, att), Loop(rows, todo, att));
        } else {
          assert rows'[pos] == row;
        }
    }
  }

  /** Consuming one more position at the head of the work list keeps a
      halted run's "out of memory" row at its last consumed position. */
  lemma HaltedOneMore(todo: seq<nat>, rest: Run, r: Run)
    requires todo != [] && rest.consumed <= |todo| - 1
    requires forall i :: 0 <= i < |todo| ==> todo[i] < |rest.rows|
    requires HaltedOnMemory(todo[1..], rest)
    requires r.consumed == rest.consumed + 1 && r.halted == rest.halted && r.rows == rest.rows
    ensures HaltedOnMemory(todo, r)
  {
    if r.halted {
      assert todo[1..][rest.consumed - 1] == todo[r.consumed - 1];
    }
  }

  /** How a run `r` over the positions `todo` of `rows` ended: it stopped at
      the row it marked "out of memory", or it went through every position,
      and the positions after the last one consumed are untouched. */
  predicate StopsAsListed(rows: seq<Row>, todo: seq<nat>, r: Run)
    requires forall i :: 0 <= i < |todo| ==> todo[i] < |rows|
    requires |r.rows| == |rows| && r.consumed <= |todo|
  {
    && (forall j :: r.consumed <= j < |todo| ==> r.rows[todo[j]] == rows[todo[j]])
    && (r.halted ==> 1 <= r.consumed && r.rows[todo[r.consumed - 1]].schemaValid == "out of memory")
    && (!r.halted ==> r.consumed == |todo|)
  }

  /** Where a run over distinct positions ends: it stopped at the row it
      marked "out of memory" and left the later positions untouched, or it
      went through every position. */
  lemma LoopStops(rows: seq<Row>, todo: seq<nat>, att: Attempter)
    requires forall i :: 0 <= i < |todo| ==> todo[i] < |rows|
    requires Distinct(todo) && Faithful(att)
    ensures StopsAsListed(rows, todo, Loop(rows, todo, att))
  {
    LoopLeavesRest(rows, todo, att);
    LoopHalts(rows, todo, att);
  }

  // ------------------------------------------------------------ one ledger

  /** Which rows of a ledger the run validates: all of them (the
      crosslinking subset) or those not flagged as crosslinking (the main
      ledger). */
  datatype Selection = AllRows | NonCrosslinking

  predicate Selected(sel: Selection, row: Row) {
    sel.AllRows? || !IsCrosslinking(row)
  }

  /** The positions from `i` on of the rows the selection keeps, in
      increasing order. */
  function SelectedFrom(rows: seq<Row>, sel: Selection, i: nat): (r: seq<nat>)
    requires i <= |rows|
    ensures forall k :: 0 <= k < |r| ==> i <= r[k] < |rows|
    ensures forall k, l :: 0 <= k < l < |r| ==> r[k] < r[l]
    ensures forall q :: i <= q < |rows| ==> (q in r <==> Selected(sel, rows[q]))
    decreases |rows| - i
  {
    if i == |rows| then []
    else if Selected(sel, rows[i]) then [i] + SelectedFrom(rows, sel, i + 1)
    else SelectedFrom(rows, sel, i + 1)
  }

  /** What one call of the scheduler on a ledger file comes to: there is no
      such file, the sort by size raised before anything was written, or
      the loop ran over the sorted rows. */
  datatype LedgerRun =
    | NoLedger
    | SortFailed
    | Ran(sorted: seq<Row>, run: Run)

  /** The scheduler on the ledger `ledger` (`None` when the file does not
      exist). */
  function ValidateSchemas(ledger: Option<seq<Row>>, sel: Selection, walk: seq<WalkDir>, validate: string -> Outcome): (r: LedgerRun)
    ensures r.NoLedger? <==> ledger.None?
    ensures r.SortFailed? <==> ledger.Some? && exists i :: 0 <= i < |ledger.value| && ParseFileSize(ledger.value[i].fileSize).None?
    ensures r.Ran? ==> |r.sorted| == |ledger.value| && multiset(r.sorted) == multiset(ledger.value)
    ensures r.Ran? ==> SizesAscend(r.sorted)
    ensures r.Ran? ==> SizeKeys(ledger.value).Some? && r.sorted == SortRows(ledger.value, SizeKeys(ledger.value).value)
    ensures r.Ran? ==> var todo := SelectedFrom(r.sorted, sel, 0);
      forall k :: 0 <= k < |todo| ==> todo[k] < |r.sorted|
    ensures r.Ran? ==> r.run == Loop(r.sorted, SelectedFrom(r.sorted, sel, 0), AttemptOn(walk, validate))
  {
    match ledger
    case None => NoLedger
    case Some(rows) =>
      match SizeKeys(rows)
      case None => SortFailed
      case Some(keys) =>
        var sorted := SortRows(rows, keys);
        Ran(sorted, Loop(sorted, SelectedFrom(sorted, sel, 0), AttemptOn(walk, validate)))
  }

  /** The ledger file after the call: unchanged unless the loop wrote it, in
      which case it holds the last rewrite. */
  function LedgerAfter(ledger: Option<seq<Row>>, r: LedgerRun): (d: Option<seq<Row>>)
    ensures !r.Ran? || r.run.writes == [] ==> d == ledger
    ensures r.Ran? && r.run.writes != [] ==> d == Some(r.run.writes[|r.run.writes| - 1])
  {
    if r.Ran? && r.run.writes != [] then Some(r.run.writes[|r.run.writes| - 1]) else ledger
  }

  /** What the loop over the selected rows of `sorted` leaves behind: the
      rows keep their facts, and rows outside the selection, with a verdict
      already, or passed over by the attempt come out as they went in. */
  lemma SelectedRunKeeps(sorted: seq<Row>, sel: Selection, walk: seq<WalkDir>, validate: string -> Outcome)
    ensures var todo := SelectedFrom(sorted, sel, 0);
      var r := Loop(sorted, todo, AttemptOn(walk, validate));
      && (forall q :: 0 <= q < |sorted| ==> SameFacts(sorted[q], r.rows[q]))
      && (forall q :: 0 <= q < |sorted| && !Selected(sel, sorted[q]) ==> r.rows[q] == sorted[q])
      && (forall q :: 0 <= q < |sorted| && Final(sorted[q].schemaValid) ==> r.rows[q] == sorted[q])
      && (forall j :: 0 <= j < r.consumed && j < |todo| && Attempt(sorted[todo[j]], walk, validate).None? ==>
            r.rows[todo[j]] == sorted[todo[j]])
  {
    var todo := SelectedFrom(sorted, sel, 0);
    AttemptFaithful(walk, validate);
    LoopPreserves(sorted, todo, AttemptOn(walk, validate));
    SelectedDistinct(sorted, sel);
    LoopWritesAttempts(sorted, todo, AttemptOn(walk, validate));
  }

  /** Each rewrite of the ledger holds, at the row it validated, what the
      attempt made of that row as loaded; a selected row the attempt passes
      over (unparseable, judged, or not found) causes no rewrite. */
  lemma SelectedRunAttempts(sorted: seq<Row>, sel: Selection, walk: seq<WalkDir>, validate: string -> Outcome)
    ensures var todo := SelectedFrom(sorted, sel, 0);
      var r := Loop(sorted, todo, AttemptOn(walk, validate));
      && (forall i :: 0 <= i < |r.validated| ==>
            && r.validated[i] < |sorted| && r.validated[i] < |r.writes[i]|
            && Attempt(sorted[r.validated[i]], walk, validate).Some?
            && r.writes[i][r.validated[i]] == Attempt(sorted[r.validated[i]], walk, validate).value.0)
      && (forall j :: 0 <= j < r.consumed && j < |todo| && Attempt(sorted[todo[j]], walk, validate).None? ==>
            todo[j] !in r.validated)
  {
    var todo := SelectedFrom(sorted, sel, 0);
    SelectedDistinct(sorted, sel);
    LoopWritesAttempts(sorted, todo, AttemptOn(walk, validate));
  }

  /** Each rewrite of the ledger changes one selected row over the one
      before. */
  lemma SelectedRunWrites(sorted: seq<Row>, sel: Selection, walk: seq<WalkDir>, validate: string -> Outcome)
    ensures var todo := SelectedFrom(sorted, sel, 0);
      var r := Loop(sorted, todo, AttemptOn(walk, validate));
      && WritesOneRowEach(sorted, todo, r)
      && (forall i :: 0 <= i < |r.validated| ==> r.validated[i] < |sorted| && Selected(sel, sorted[r.validated[i]]))
  {
    AttemptFaithful(walk, validate);
    LoopWritesOneRowEach(sorted, SelectedFrom(sorted, sel, 0), AttemptOn(walk, validate));
  }

  /** A stopped run stopped at the row it marked "out of memory", leaving
      the selected rows after it untouched; a run not stopped went through
      every selected row. */
  lemma SelectedRunHalts(sorted: seq<Row>, sel: Selection, walk: seq<WalkDir>, validate: string -> Outcome)
    ensures var todo := SelectedFrom(sorted, sel, 0);
      var r := Loop(sorted, todo, AttemptOn(walk, validate));
      && (forall j :: r.consumed <= j < |todo| ==> r.rows[todo[j]] == sorted[todo[j]])
      && (r.halted ==> 1 <= r.consumed && r.rows[todo[r.consumed - 1]].schemaValid == "out of memory")
      && (!r.halted ==> r.consumed == |todo|)
  {
    SelectedDistinct(sorted, sel);
    AttemptStops(sorted, SelectedFrom(sorted, sel, 0), walk, validate);
  }

  /** The selected positions are distinct positions of the rows. */
  lemma SelectedDistinct(rows: seq<Row>, sel: Selection)
    ensures var todo := SelectedFrom(rows, sel, 0);
      Distinct(todo) && forall i :: 0 <= i < |todo| ==> todo[i] < |rows|
  {
  }

  /** `LoopStops` for the scheduler's own attempt. */
  lemma AttemptStops(rows: seq<Row>, todo: seq<nat>, walk: seq<WalkDir>, validate: string -> Outcome)
    requires forall i :: 0 <= i < |todo| ==> todo[i] < |rows|
    requires Distinct(todo)
    ensures StopsAsListed(rows, todo, Loop(rows, todo, AttemptOn(walk, validate)))
  {
    AttemptFaithful(walk, validate);
    LoopStops(rows, todo, AttemptOn(walk, validate));
  }

  /** A rewritten ledger holds the ledger's rows, validation columns aside,
      in ascending order of recorded size. */
  lemma ValidateSchemasOutcome(ledger: Option<seq<Row>>, sel: Selection, walk: seq<WalkDir>, validate: string -> Outcome)
    ensures var r := ValidateSchemas(ledger, sel, walk, validate);
      var d := LedgerAfter(ledger, r);
      d != ledger ==>
        && r.Ran? && d.Some? && |d.value| == |ledger.value|
        && (forall q :: 0 <= q < |d.value| ==> SameFacts(r.sorted[q], d.value[q]))
        && SizesAscend(d.value)
  {
    var r := ValidateSchemas(ledger, sel, walk, validate);
    if r.Ran? {
      SelectedRunKeeps(r.sorted, sel, walk, validate);
      var run := r.run;
      if run.writes != [] {
        SameFactsAscend(r.sorted, run.rows);
      }
    }
  }

  /** A ledger in which every selected row already has a verdict is left
      exactly as it was. */
  lemma {:induction false} NothingToDo(rows: seq<Row>, todo: seq<nat>, att: Attempter)
    requires forall i :: 0 <= i < |todo| ==> todo[i] < |rows|
    requires forall i :: 0 <= i < |todo| ==> Final(rows[todo[i]].schemaValid)
    requires Faithful(att)
    ensures Loop(rows, todo, att) == Run(rows, [], [], |todo|, false)
    decreases |todo|
  {
    if todo != [] {
      NothingToDo(rows, todo[1..], att);
    }
  }

  /** The two calls of the script: the crosslinking subset with every row
      selected, then the main ledger without its crosslinking rows. A sort
      that raises on the first ledger ends the script before the second. */
  function ValidateBoth(crosslinking: Option<seq<Row>>, report: Option<seq<Row>>, walk: seq<WalkDir>, validate: string -> Outcome): (r: (LedgerRun, Option<LedgerRun>))
    ensures r.0 == ValidateSchemas(crosslinking, AllRows, walk, validate)
    ensures r.1.None? <==> r.0.SortFailed?
    ensures r.1.Some? ==> r.1.value == ValidateSchemas(report, NonCrosslinking, walk, validate)
  {
    var first := ValidateSchemas(crosslinking, AllRows, walk, validate);
    if first.SortFailed? then (first, None)
    else (first, Some(ValidateSchemas(report, NonCrosslinking, walk, validate)))
  }
}

=== FILE: schema_location.dfy ===
/** Where an mzIdentML document names its schema: the root element's
    `xsi:schemaLocation` (namespace/URL pairs) or, failing that,
    `xsi:noNamespaceSchemaLocation`; the schema file name
    `mzIdentML<version>.xsd` carries the version. Shared by the report
    builder and the validator, which read the location differently. */
module SchemaLocation {
  import opened Base
  import opened Strings

  /** The root element's attributes the pipeline looks at; `None` is an
      absent attribute. */
  datatype RootAttrs = RootAttrs(schemaLocation: Option<string>, noNamespaceLocation: Option<string>, version: Option<string>)

  /** Python truthiness of an optional string: present and non-empty. */
  predicate Truthy(s: Option<string>) {
    s.Some? && |s.value| > 0
  }

  /** `schemaLocation`, or `noNamespaceSchemaLocation` when the former is
      absent or empty; `None` when neither gives a non-empty value. */
  function ChooseLocation(root: RootAttrs): (r: Option<string>)
    ensures r.Some? ==> |r.value| > 0
    ensures r.None? <==> !Truthy(root.schemaLocation) && !Truthy(root.noNamespaceLocation)
    ensures Truthy(root.schemaLocation) ==> r == root.schemaLocation
    ensures !Truthy(root.schemaLocation) && Truthy(root.noNamespaceLocation) ==> r == root.noNamespaceLocation
  {
    if Truthy(root.schemaLocation) then root.schemaLocation
    else if Truthy(root.noNamespaceLocation) then root.noNamespaceLocation
    else None
  }

  const Prefix: string := "mzIdentML"
  const Suffix: string := ".xsd"

  /** The prefix and suffix cannot overlap: a name carrying both is at
      least 13 characters long. */
  lemma AffixesDisjoint(fname: string)
    requires StartsWith(fname, Prefix) && EndsWith(fname, Suffix)
    ensures |fname| >= |Prefix| + |Suffix|
  {
    assert fname[|fname| - 4] == '.' by { assert fname[|fname| - 4..][0] == Suffix[0]; }
    forall i | 0 <= i < 9 ensures fname[i] != '.' {
      assert fname[i] == fname[..9][i] == Prefix[i];
    }
  }

  /** The version carried by a schema file name: the text between the
      `mzIdentML` prefix and the `.xsd` suffix, if the name has both. */
  function FileNameVersion(fname: string): (r: Option<string>)
    ensures r.Some? <==> StartsWith(fname, Prefix) && EndsWith(fname, Suffix)
    ensures r.Some? ==> fname == Prefix + r.value + Suffix
  {
    if StartsWith(fname, Prefix) && EndsWith(fname, Suffix) then
      AffixesDisjoint(fname);
      var v := fname[9..|fname| - 4];
      assert fname == fname[..9] + v + fname[|fname| - 4..];
      Some(v)
    else None
  }

  /** A name yields version `v` exactly when it is `mzIdentML` + v + `.xsd`. */
  lemma FileNameVersionIff(fname: string, v: string)
    ensures FileNameVersion(fname) == Some(v) <==> fname == Prefix + v + Suffix
  {
    if fname == Prefix + v + Suffix {
      assert fname[..9] == Prefix;
      assert fname[|fname| - 4..] == Suffix;
      var r := FileNameVersion(fname);
      assert Prefix + r.value + Suffix == Prefix + v + Suffix;
      assert r.value == fname[9..|fname| - 4];
      assert fname[9..|fname| - 4] == v;
    }
  }

  /** The schema file a location URL points at: its last '/'-segment. */
  function UrlFileName(url: string): (r: string)
    ensures '/' !in r && EndsWith(url, r)
  {
    LastPiece(url, '/')
  }

  /** The report builder's reading of the location alone: with at least two
      whitespace-separated tokens, the version in the last token's file
      name. */
  function LocationVersion(location: string): (r: Option<string>)
    ensures r.Some? ==> |SplitWs(location)| >= 2
    ensures r.Some? ==> var ts := SplitWs(location);
      Prefix + r.value + Suffix == UrlFileName(ts[|ts| - 1])
  {
    var parts := SplitWs(location);
    if |parts| >= 2 then FileNameVersion(UrlFileName(parts[|parts| - 1])) else None
  }

  /** The report builder's version of a file, from the root element's
      attributes (`None` when the file yielded no root element or could
      not be read): the version named by the schema location when it
      names one, otherwise the root's non-empty `version` attribute,
      otherwise nothing. */
  function ReportVersion(root: Option<RootAttrs>): (r: Option<string>)
    ensures root.None? ==> r.None?
    ensures r.Some? ==> root.Some?
    ensures root.Some? && ChooseLocation(root.value).Some? ==>
              LocationVersion(ChooseLocation(root.value).value).Some? ==>
              r == LocationVersion(ChooseLocation(root.value).value)
    ensures r.Some? && r != root.value.version ==>
              ChooseLocation(root.value).Some?
              && r == LocationVersion(ChooseLocation(root.value).value)
    ensures r.None? && root.Some? ==> !Truthy(root.value.version)
  {
    match root
    case None => None
    case Some(attrs) =>
      var fromLocation :=
        match ChooseLocation(attrs)
        case Some(loc) => LocationVersion(loc)
        case None => None;
      if fromLocation.Some? then fromLocation
      else if Truthy(attrs.version) then attrs.version
      else None
  }

  lemma NoSpaceConcat(a: string, b: string)
    requires NoSpace(a) && NoSpace(b)
    ensures NoSpace(a + b)
  {
    forall i | 0 <= i < |a + b| ensures !IsSpace((a + b)[i]) {
      if i >= |a| { assert (a + b)[i] == b[i - |a|]; }
    }
  }

  /** Two tokens: the version is the one in the second token's file name. */
  lemma LocationVersionOfPair(ns: string, url: string)
    requires |ns| > 0 && NoSpace(ns) && |url| > 0 && NoSpace(url)
    ensures LocationVersion(ns + " " + url) == FileNameVersion(UrlFileName(url))
  {
    assert ns + " " + url == ns + [' '] + url;
    SplitWsAtSpace(ns, ' ', url);
    SplitWsToken(ns);
    SplitWsToken(url);
  }

  /** The usual declaration, a namespace followed by a schema URL ending in
      `mzIdentML<v>.xsd`, yields `v` whatever the other attributes say. */
  lemma ReportVersionOfStandardRoot(ns: string, dir: string, v: string, noNs: Option<string>, ver: Option<string>)
    requires |ns| > 0 && NoSpace(ns)
    requires NoSpace(dir) && NoSpace(v) && '/' !in v
    ensures ReportVersion(Some(RootAttrs(Some(ns + " " + dir + "/" + Prefix + v + Suffix), noNs, ver))) == Some(v)
  {
    var fname := Prefix + v + Suffix;
    var url := dir + "/" + fname;
    StandardFileName(v);
    StandardUrl(dir, fname);
    assert ns + " " + dir + "/" + Prefix + v + Suffix == ns + " " + url;
    LocationVersionOfPair(ns, url);
  }

  /** `mzIdentML<v>.xsd` has no space or '/' when `v` has none, and carries
      version `v`. */
  lemma StandardFileName(v: string)
    requires NoSpace(v) && '/' !in v
    ensures var fname := Prefix + v + Suffix;
      NoSpace(fname) && '/' !in fname && FileNameVersion(fname) == Some(v)
  {
    var fname := Prefix + v + Suffix;
    assert NoSpace(Prefix) && NoSpace(Suffix);
    NoSpaceConcat(Prefix, v);
    NoSpaceConcat(Prefix + v, Suffix);
    forall i | 0 <= i < |fname| ensures fname[i] != '/' {
      if 9 <= i < 9 + |v| { assert fname[i] == v[i - 9]; }
    }
    FileNameVersionIff(fname, v);
  }

  /** The file name of `dir/fname` is `fname` when `fname` has no '/'. */
  lemma StandardUrl(dir: string, fname: string)
    requires NoSpace(dir) && NoSpace(fname) && '/' !in fname
    ensures var url := dir + "/" + fname;
      |url| > 0 && NoSpace(url) && UrlFileName(url) == fname
  {
    NoSpaceConcat(dir, "/");
    NoSpaceConcat(dir + "/", fname);
    assert dir + "/" + fname == dir + ['/'] + fname;
    LastPieceAfterSep(dir, '/', fname);
  }

  /** A location holding a single URL names no version for the report
      builder, which then falls back to the `version` attribute. */
  lemma ReportVersionOfSingleUrl(url: string, noNs: Option<string>, ver: Option<string>)
    requires |url| > 0 && NoSpace(url)
    ensures ReportVersion(Some(RootAttrs(Some(url), noNs, ver))) == if Truthy(ver) then ver else None
  {
    SplitWsToken(url);
  }
}

=== FILE: seqs.dfy ===
/** List comprehensions with a condition, `[x for x in xs if p(x)]`, and
    the facts the ledger filters rely on. */
module Seqs {

  /** The elements of `xs` satisfying `p`, in their original order. */
  function Filter<T>(xs: seq<T>, p: T -> bool): (r: seq<T>)
    ensures |r| <= |xs|
    ensures forall i :: 0 <= i < |r| ==> r[i] in xs && p(r[i])
    ensures forall i :: 0 <= i < |xs| && p(xs[i]) ==> xs[i] in r
  {
    if xs == [] then []
    else (if p(xs[0]) then [xs[0]] else []) + Filter(xs[1..], p)
  }

  /** Filtering a concatenation filters each part: the kept elements stay
      in their original order. */
  lemma {:induction false} FilterAppend<T>(xs: seq<T>, ys: seq<T>, p: T -> bool)
    ensures Filter(xs + ys, p) == Filter(xs, p) + Filter(ys, p)
    decreases |xs|
  {
    if xs == [] {
      assert xs + ys == ys;
    } else {
      assert (xs + ys)[1..] == xs[1..] + ys;
      FilterAppend(xs[1..], ys, p);
    }
  }

  /** A filter that keeps every element changes nothing. */
  lemma {:induction false} FilterAll<T>(xs: seq<T>, p: T -> bool)
    requires forall i :: 0 <= i < |xs| ==> p(xs[i])
    ensures Filter(xs, p) == xs
    decreases |xs|
  {
    if xs != [] {
      FilterAll(xs[1..], p);
    }
  }

  /** A filter that keeps no element gives nothing. */
  lemma {:induction false} FilterNone<T>(xs: seq<T>, p: T -> bool)
    requires forall i :: 0 <= i < |xs| ==> !p(xs[i])
    ensures Filter(xs, p) == []
    decreases |xs|
  {
    if xs != [] {
      FilterNone(xs[1..], p);
    }
  }
}

=== FILE: sizes.dfy ===
/** Human-readable file sizes: the ledger's `file_size` column is written by
    the report builder's formatter and read back by the scheduler's parser
    to order rows by size.

    Dividing by 1024 is exact in binary floating point, so the formatter's
    `size / 1024**k` is the rational n / 1024^k and its `.1f` rendering is
    that value rounded half-to-even to tenths; both are modelled here with
    integers. */
module Sizes {
  import opened Base
  import opened Strings

  function Pow1024(k: nat): (r: nat)
    ensures r >= 1
  {
    if k == 0 then 1 else 1024 * Pow1024(k - 1)
  }

  function Pow10(k: nat): (r: nat)
    ensures r >= 1
  {
    if k == 0 then 1 else 10 * Pow10(k - 1)
  }

  /** Unit names by power of 1024. */
  const Units: seq<string> := ["B", "KB", "MB", "GB", "TB", "PB"]

  // ------------------------------------------------------------ formatter

  /** The formatter tries B, KB, MB, GB, TB in turn and stops at the first
      one the value is below 1024 of; past TB it prints PB. */
  function UnitIndex(n: nat): (k: nat)
    ensures k <= 5
    ensures k < 5 ==> n < Pow1024(k + 1)
    ensures forall j :: 1 <= j <= k ==> n >= Pow1024(j)
  {
    UnitFrom(n, 0)
  }

  function UnitFrom(n: nat, k: nat): (r: nat)
    requires k <= 5
    requires forall j :: 1 <= j <= k ==> n >= Pow1024(j)
    ensures k <= r <= 5
    ensures r < 5 ==> n < Pow1024(r + 1)
    ensures forall j :: 1 <= j <= r ==> n >= Pow1024(j)
    decreases 5 - k
  {
    if k == 5 || n < Pow1024(k + 1) then k else UnitFrom(n, k + 1)
  }

  /** `num / den` rounded to the nearest integer, halves to even: how `.1f`
      rounds an exactly representable value. */
  function RoundHalfEven(num: nat, den: nat): (t: nat)
    requires den > 0
    ensures 2 * num <= 2 * (t * den) + den
    ensures 2 * (t * den) <= 2 * num + den
    ensures 2 * num == 2 * (t * den) + den || 2 * (t * den) == 2 * num + den ==> t % 2 == 0
  {
    var q := num / den;
    var r := num % den;
    DivMod(num, den);
    MulSucc(q, den);
    if 2 * r < den then q
    else if 2 * r > den then q + 1
    else if q % 2 == 0 then q
    else q + 1
  }

  lemma DivMod(num: nat, den: nat)
    requires den > 0
    ensures num == (num / den) * den + num % den
    ensures 0 <= num % den < den
  {
  }

  lemma MulSucc(q: nat, d: nat)
    ensures (q + 1) * d == q * d + d
  {
  }

  /** A count of tenths written as `.1f` writes it: "12.5" for 125. */
  function Tenths(t: nat): string
  {
    NatToString(t / 10) + "." + [DigitChar(t % 10)]
  }

  /** `t` tenths is n / unit to the nearest tenth. */
  predicate NearestTenth(t: nat, n: nat, unit: nat) {
    && 2 * (10 * n) <= 2 * (t * unit) + unit
    && 2 * (t * unit) <= 2 * (10 * n) + unit
  }

  /** Human-readable size of `n` bytes. */
  function FormatFileSize(n: nat): (r: string)
    ensures n < 1024 ==> r == NatToString(n) + " B" && '.' !in r
    ensures n >= 1024 ==>
      exists t :: r == Tenths(t) + " " + Units[UnitIndex(n)]
                  && NearestTenth(t, n, Pow1024(UnitIndex(n)))
  {
    var k := UnitIndex(n);
    if k == 0 then
      assert n < 1024;
      var r := NatToString(n) + " B";
      assert forall i :: 0 <= i < |NatToString(n)| ==> IsDigit(r[i]);
      r
    else
      var t := RoundHalfEven(10 * n, Pow1024(k));
      assert n >= 1024 by { assert n >= Pow1024(1); }
      Tenths(t) + " " + Units[k]
  }

  // --------------------------------------------------------------- parser

  /** A decimal numeral read by `float()`: sign and the value num / den. */
  datatype Decimal = Decimal(negative: bool, num: nat, den: nat)

  /** `float(s)` for numerals with an optional sign and at most one point;
      `None` where `float` raises. */
  function ParseDecimal(s: string): (r: Option<Decimal>)
    ensures r.Some? ==> r.value.den >= 1
  {
    var t := Strip(s);
    var signed := |t| > 0 && (t[0] == '-' || t[0] == '+');
    var neg := |t| > 0 && t[0] == '-';
    var body := if signed then t[1..] else t;
    var parts := Split(body, '.');
    if |parts| == 1 then
      if |body| > 0 && AllDigits(body) then Some(Decimal(neg, DigitsValue(body), 1)) else None
    else if |parts| == 2 then
      var a := parts[0];
      var b := parts[1];
      if AllDigits(a) && AllDigits(b) && |a| + |b| > 0 then
        Some(Decimal(neg, PointValue(a, b), Pow10(|b|)))
      else None
    else None
  }

  /** The numerator of `a.b` over the denominator 10^|b|. */
  function PointValue(a: string, b: string): nat
    requires AllDigits(a) && AllDigits(b)
  {
    DigitsValue(a) * Pow10(|b|) + DigitsValue(b)
  }

  /** `int(value * m)`: `int()` of a float truncates toward zero. */
  function ScaleTruncate(d: Decimal, m: nat): int
    requires d.den >= 1
  {
    var magnitude := (d.num * m) / d.den;
    if d.negative then -magnitude else magnitude
  }

  function ParseTimes(s: string, m: nat): Option<int>
  {
    match ParseDecimal(s)
    case None => None
    case Some(d) => Some(ScaleTruncate(d, m))
  }

  /** Units in the order the parser tests them: two-letter names before the
      bare "B" that ends every one of them. */
  const ParseOrder: seq<(string, nat)> :=
    [("PB", 5), ("TB", 4), ("GB", 3), ("MB", 2), ("KB", 1), ("B", 0)]

  /** The text ends with none of the unit names at positions i to k - 1 of
      the parse order. */
  predicate NoUnitBetween(t: string, i: nat, k: nat)
    requires i <= k <= |ParseOrder|
  {
    forall l :: i <= l < k ==> !EndsWith(t, ParseOrder[l].0)
  }

  /** The number `t` denotes once the unit at position k of the parse order
      is cut off. */
  function ScaledBy(t: string, k: nat): Option<int>
    requires k < |ParseOrder| && EndsWith(t, ParseOrder[k].0)
  {
    ParseTimes(Strip(t[..|t| - |ParseOrder[k].0|]), Pow1024(ParseOrder[k].1))
  }

  /** The position, from i on, of the first unit name in parse order that
      `t` ends with; |ParseOrder| when there is none. */
  function FirstUnit(t: string, i: nat): (k: nat)
    requires i <= |ParseOrder|
    ensures i <= k <= |ParseOrder| && NoUnitBetween(t, i, k)
    ensures k < |ParseOrder| ==> EndsWith(t, ParseOrder[k].0)
    decreases |ParseOrder| - i
  {
    if i == |ParseOrder| || EndsWith(t, ParseOrder[i].0) then i
    else FirstUnit(t, i + 1)
  }

  function ParseWithUnits(t: string, i: nat): Option<int>
    requires i <= |ParseOrder|
    decreases |ParseOrder| - i
  {
    if i == |ParseOrder| then ParseTimes(t, 1)
    else
      var unit := ParseOrder[i].0;
      if EndsWith(t, unit) then ParseTimes(Strip(t[..|t| - |unit|]), Pow1024(ParseOrder[i].1))
      else ParseWithUnits(t, i + 1)
  }

  /** The walk over the units stops at the first one the text ends with and
      scales by it; with none it reads the text as bytes. */
  lemma {:induction false} ParseWithUnitsFirst(t: string, i: nat)
    requires i <= |ParseOrder|
    ensures FirstUnit(t, i) == |ParseOrder| ==> ParseWithUnits(t, i) == ParseTimes(t, 1)
    ensures FirstUnit(t, i) < |ParseOrder| ==> ParseWithUnits(t, i) == ScaledBy(t, FirstUnit(t, i))
    decreases |ParseOrder| - i
  {
    if i == |ParseOrder| {
    } else if EndsWith(t, ParseOrder[i].0) {
      assert FirstUnit(t, i) == i;
    } else {
      assert FirstUnit(t, i) == FirstUnit(t, i + 1);
      ParseWithUnitsFirst(t, i + 1);
    }
  }

  /** Bytes denoted by a human-readable size; `None` where the source raises
      `ValueError`. */
  function ParseFileSize(s: string): Option<int>
  {
    ParseWithUnits(Strip(s), 0)
  }

  /** Text without a final "B" names no unit and is read as a number of
      bytes. */
  lemma ParseFileSizeBytes(s: string)
    requires !EndsWith(Strip(s), "B")
    ensures ParseFileSize(s) == ParseTimes(Strip(s), 1)
  {
    NoUnitWithoutB(Strip(s));
    ParseWithUnitsFirst(Strip(s), 0);
    var j := FirstUnit(Strip(s), 0);
    if j < |ParseOrder| {
      assert false;
    }
  }

  /** The first unit name, in parse order, that the stripped text ends with
      decides the scale; the rest of the text is read as the number. */
  lemma ParseFileSizeUnit(s: string, k: nat)
    requires k < |ParseOrder| && EndsWith(Strip(s), ParseOrder[k].0)
    requires NoUnitBetween(Strip(s), 0, k)
    ensures ParseFileSize(s) == ScaledBy(Strip(s), k)
  {
    ParseWithUnitsFirst(Strip(s), 0);
    var j := FirstUnit(Strip(s), 0);
    assert j >= k by {
      if j < k {
        assert false;
      }
    }
  }

  /** Every unit name ends in "B", so a text without a final "B" carries
      no unit. */
  lemma NoUnitWithoutB(t: string)
    ensures !EndsWith(t, "B") ==> NoUnitBetween(t, 0, |ParseOrder|)
  {
    forall l | 0 <= l < |ParseOrder| && EndsWith(t, ParseOrder[l].0)
      ensures EndsWith(t, "B")
    {
      var unit := ParseOrder[l].0;
      assert unit[|unit| - 1] == 'B';
      assert t[|t| - 1] == unit[|unit| - 1];
      assert t[|t| - 1..] == "B";
    }
  }

  // --------------------------------------------------------------- lemmas

  lemma StripClean(s: string)
    requires s == [] || (!IsSpace(s[0]) && !IsSpace(s[|s| - 1]))
    ensures Strip(s) == s
  {
  }

  lemma EndsWithSameLength(a: string, b: string, c: string)
    requires |b| == |c|
    ensures EndsWith(a + b, c) <==> b == c
  {
    assert (a + b)[|a + b| - |c|..] == b;
  }

  /** A string ending in a two-letter unit name is scaled by that unit, never
      by the bare "B" every such name also ends with. */
  lemma ParseNamedUnit(x: string, k: nat)
    requires 1 <= k <= 5
    ensures ParseWithUnits(x + Units[k], 0) == ParseTimes(Strip(x), Pow1024(k))
  {
    var s := x + Units[k];
    var j := 5 - k;
    assert ParseOrder[j] == (Units[k], k);
    forall i | 0 <= i < j
      ensures !EndsWith(s, ParseOrder[i].0)
    {
      EndsWithSameLength(x, Units[k], ParseOrder[i].0);
    }
    EndsWithSameLength(x, Units[k], Units[k]);
    assert NoUnitBetween(s, 0, j);
    ParseWithUnitsFirst(s, 0);
    var f := FirstUnit(s, 0);
    assert f >= j by {
      if f < j {
        assert false;
      }
    }
    assert ParseWithUnits(s, 0) == ScaledBy(s, j);
    assert s[..|s| - 2] == x;
  }

  /** The parser's view of a formatted size: the number is read at the
      scale its unit names. */
  lemma ParseFormatted(x: string, k: nat)
    requires k <= 5
    requires |x| > 0 && !IsSpace(x[0]) && !IsSpace(x[|x| - 1])
    ensures ParseFileSize(x + " " + Units[k]) == ParseTimes(x, Pow1024(k))
  {
    var s := x + " " + Units[k];
    assert s[0] == x[0];
    assert s[|s| - 1] == 'B';
    StripClean(s);
    var y := x + " ";
    assert s == y + Units[k];
    StripClean(x);
    assert Strip(y) == x by {
      assert y[0] == x[0] && IsSpace(y[|y| - 1]);
      assert y[..|y| - 1] == x;
    }
    if k >= 1 {
      ParseNamedUnit(y, k);
    } else {
      assert s[..|s| - 1] == y;
      forall i | 0 <= i < 5
        ensures !EndsWith(s, ParseOrder[i].0)
      {
        EndsWithSameLength(x, " B", ParseOrder[i].0);
        assert s == x + " B";
      }
      EndsWithSameLength(y, "B", "B");
      assert ParseWithUnits(s, 0) == ParseWithUnits(s, 5);
    }
  }

  lemma ParseDecimalDigits(n: nat)
    ensures ParseDecimal(NatToString(n)) == Some(Decimal(false, n, 1))
  {
    var s := NatToString(n);
    StripDigits(s);
    DigitsOfNat(n);
    assert IsDigit(s[0]);
    assert '.' !in s by {
      forall i | 0 <= i < |s| ensures s[i] != '.' { assert IsDigit(s[i]); }
    }
    SplitNoSep(s, '.');
  }

  lemma ParseDecimalTenths(t: nat)
    ensures ParseDecimal(Tenths(t)) == Some(Decimal(false, t, 10))
  {
    var a := NatToString(t / 10);
    var c := DigitChar(t % 10);
    TenthsShape(t);
    ParseDecimalPlain(Tenths(t), a, [c]);
    DigitsOfNat(t / 10);
    assert [c][..0] == [];
    assert DigitsValue([c]) == t % 10;
    assert Pow10(1) == 10;
    assert PointValue(a, [c]) == t;
  }

  /** A number of tenths is written as a digit run, a point and one digit,
      with no space around it. */
  lemma TenthsShape(t: nat)
    ensures var s := Tenths(t);
      && |s| > 0 && Strip(s) == s && IsDigit(s[0])
      && Split(s, '.') == [NatToString(t / 10), [DigitChar(t % 10)]]
      && AllDigits(NatToString(t / 10)) && AllDigits([DigitChar(t % 10)])
  {
    var a := NatToString(t / 10);
    var c := DigitChar(t % 10);
    var s := Tenths(t);
    assert s == a + ['.'] + [c];
    assert IsDigit(a[0]) && IsDigit(c);
    assert s[0] == a[0] && s[|s| - 1] == c;
    StripClean(s);
    assert '.' !in a by {
      forall i | 0 <= i < |a| ensures a[i] != '.' { assert IsDigit(a[i]); }
    }
    SplitAtSep(a, '.', [c]);
    SplitNoSep(a, '.');
    SplitNoSep([c], '.');
  }

  /** A numeral without surrounding space or sign that splits at its one
      point into two digit runs reads as the first run scaled by the
      length of the second, plus the second. */
  lemma ParseDecimalPlain(s: string, a: string, b: string)
    requires |s| > 0 && Strip(s) == s && IsDigit(s[0])
    requires |Split(s, '.')| == 2 && Split(s, '.')[0] == a && Split(s, '.')[1] == b
    requires AllDigits(a) && AllDigits(b) && |a| + |b| > 0
    ensures ParseDecimal(s) == Some(Decimal(false, PointValue(a, b), Pow10(|b|)))
  {
    assert !(s[0] == '-' || s[0] == '+');
  }

  /** `n B` reads back as exactly n. */
  lemma BytesRoundTrip(n: nat)
    ensures ParseFileSize(NatToString(n) + " B") == Some(n)
  {
    var x := NatToString(n);
    BytesText(n);
    assert Units[0] == "B";
    var s := x + " " + Units[0];
    assert s == x + " B";
    ParseFormatted(x, 0);
  }

  lemma BytesText(n: nat)
    ensures var x := NatToString(n);
      |x| > 0 && !IsSpace(x[0]) && !IsSpace(x[|x| - 1]) && ParseTimes(x, Pow1024(0)) == Some(n)
  {
    var x := NatToString(n);
    assert IsDigit(x[0]) && IsDigit(x[|x| - 1]);
    ParseDecimalDigits(n);
    assert Pow1024(0) == 1;
    assert (n * 1) / 1 == n;
    assert ScaleTruncate(Decimal(false, n, 1), 1) == n;
  }

  lemma TenthsBounds(n: nat, unit: nat, x: nat, p: int)
    requires unit >= 1
    requires 20 * n <= 2 * x + unit && 2 * x <= 20 * n + unit
    requires p == x / 10
    ensures 20 * p <= 20 * n + unit
    ensures 20 * n < 20 * p + unit + 20
  {
  }

  /** Above 1024 bytes the parser reads back the formatter's tenths scaled
      by the unit, rounded down. */
  lemma ParseOfFormatted(n: nat)
    requires n >= 1024
    ensures var unit := Pow1024(UnitIndex(n));
            ParseFileSize(FormatFileSize(n))
              == Some((RoundHalfEven(10 * n, unit) * unit) / 10)
  {
    var k := UnitIndex(n);
    assert Pow1024(1) == 1024;
    var unit := Pow1024(k);
    var t := RoundHalfEven(10 * n, unit);
    var x := Tenths(t);
    assert IsDigit(NatToString(t / 10)[0]);
    assert x[0] == NatToString(t / 10)[0];
    ParseFormatted(x, k);
    ParseDecimalTenths(t);
  }

  /** Formatting then parsing recovers the byte count: exactly below 1024,
      and otherwise to within half a tenth of the chosen unit (rounded down
      by the parser). */
  lemma {:induction false} FormatParseRoundTrip(n: nat)
    ensures ParseFileSize(FormatFileSize(n)).Some?
    ensures n < 1024 ==> ParseFileSize(FormatFileSize(n)) == Some(n)
    ensures var p := ParseFileSize(FormatFileSize(n)).value;
            var unit := Pow1024(UnitIndex(n));
            20 * p <= 20 * n + unit && 20 * n < 20 * p + unit + 20
  {
    var k := UnitIndex(n);
    if n < 1024 {
      BytesRoundTrip(n);
    } else {
      var unit := Pow1024(k);
      var t := RoundHalfEven(10 * n, unit);
      ParseOfFormatted(n);
      TenthsBounds(n, unit, t * unit, (t * unit) / 10);
    }
  }

  /** Division undoes multiplication. */
  lemma {:induction false} DivOfMultiple(m: nat, d: nat)
    requires d > 0
    ensures (m * d) / d == m && (m * d) % d == 0
  {
    var q := (m * d) / d;
    var r := (m * d) % d;
    DivMod(m * d, d);
    if q < m {
      MulMono(q + 1, m, d);
      MulSucc(q, d);
    } else if q > m {
      MulMono(m + 1, q, d);
      MulSucc(m, d);
    }
  }

  lemma MulMono(a: nat, b: nat, d: nat)
    requires a <= b
    ensures a * d <= b * d
  {
  }

  lemma HalfUnitExact(j: nat, half: nat)
    requires half >= 1
    ensures RoundHalfEven(10 * (j * half), 2 * half) == 5 * j
    ensures ((5 * j) * (2 * half)) / 10 == j * half
  {
    var m := 5 * j;
    assert 10 * (j * half) == m * (2 * half);
    DivOfMultiple(m, 2 * half);
    assert (5 * j) * (2 * half) == (j * half) * 10;
    DivOfMultiple(j * half, 10);
  }

  /** Sizes that are whole multiples of half the chosen unit survive the
      round trip exactly: 1536 -> "1.5 KB" -> 1536. */
  lemma FormatParseExact(n: nat)
    requires n >= 1024 ==> n % (Pow1024(UnitIndex(n)) / 2) == 0
    ensures ParseFileSize(FormatFileSize(n)) == Some(n)
  {
    if n < 1024 {
      BytesRoundTrip(n);
    } else {
      var k := UnitIndex(n);
      var unit := Pow1024(k);
      assert Pow1024(1) == 1024;
      var half := unit / 2;
      assert unit == 2 * half;
      var j := n / half;
      DivMod(n, half);
      assert n == j * half;
      HalfUnitExact(j, half);
      ParseOfFormatted(n);
    }
  }
}

=== FILE: strings.dfy ===
/** The pieces of Python's `str` behaviour the pipeline relies on: case
    folding for suffix tests, `in`, `split`, `strip`, `join`, and the decimal
    conversions done by `str(n)` and `int(s)`. */
module Strings {
  import opened Base

  // ---------------------------------------------------------------- chars

  /** Characters for which Python's `str.isspace()` holds. */
  predicate IsSpace(c: char) {
    var n := c as int;
    || (9 <= n <= 13) || (28 <= n <= 32) || n == 0x85 || n == 0xA0
    || n == 0x1680 || (0x2000 <= n <= 0x200A) || n == 0x2028 || n == 0x2029
    || n == 0x202F || n == 0x205F || n == 0x3000
  }

  predicate NoSpace(s: string) {
    forall i :: 0 <= i < |s| ==> !IsSpace(s[i])
  }

  /** ASCII case folding (the only folding the file-name tests need). */
  function LowerChar(c: char): char {
    if 'A' <= c <= 'Z' then (c as int + 32) as char else c
  }

  function Lower(s: string): (r: string)
    ensures |r| == |s|
    ensures forall i :: 0 <= i < |s| ==> r[i] == LowerChar(s[i])
  {
    seq(|s|, i requires 0 <= i < |s| => LowerChar(s[i]))
  }

  lemma LowerAppend(a: string, b: string)
    ensures Lower(a + b) == Lower(a) + Lower(b)
  {
    assert forall i :: 0 <= i < |a + b| ==> Lower(a + b)[i] == (Lower(a) + Lower(b))[i];
  }

  lemma LowerSlice(s: string, i: int, j: int)
    requires 0 <= i <= j <= |s|
    ensures Lower(s[i..j]) == Lower(s)[i..j]
  {
  }

  /** Folding leaves characters that are not ASCII capitals alone. */
  lemma LowerFixed(s: string)
    requires forall i :: 0 <= i < |s| ==> !('A' <= s[i] <= 'Z')
    ensures Lower(s) == s
  {
  }

  // ------------------------------------------------------- affixes, `in`

  predicate StartsWith<T(==)>(s: seq<T>, p: seq<T>) {
    |p| <= |s| && s[..|p|] == p
  }

  predicate EndsWith<T(==)>(s: seq<T>, suffix: seq<T>) {
    |suffix| <= |s| && s[|s| - |suffix|..] == suffix
  }

  lemma EndsWithAppend<T>(a: seq<T>, b: seq<T>)
    ensures EndsWith(a + b, b)
  {
    assert (a + b)[|a + b| - |b|..] == b;
  }

  /** `pat` sits in `s` starting at index `i`. */
  predicate OccursAt<T(==)>(pat: seq<T>, s: seq<T>, i: int) {
    0 <= i && i + |pat| <= |s| && s[i..i + |pat|] == pat
  }

  /** Python's `pat in s` on strings and byte strings. */
  predicate Occurs<T(==)>(pat: seq<T>, s: seq<T>) {
    exists i | 0 <= i <= |s| - |pat| :: OccursAt(pat, s, i)
  }

  lemma OccursInLarger<T>(pat: seq<T>, a: seq<T>, s: seq<T>, b: seq<T>)
    requires Occurs(pat, s)
    ensures Occurs(pat, a + s + b)
  {
    var i :| 0 <= i <= |s| - |pat| && OccursAt(pat, s, i);
    assert (a + s + b)[|a| + i..|a| + i + |pat|] == s[i..i + |pat|];
    assert OccursAt(pat, a + s + b, |a| + i);
  }

  // ---------------------------------------------------------------- split

  /** Python's `s.split(sep)` for a one-character separator: always at least
      one piece, empty pieces kept. */
  function Split(s: string, sep: char): (r: seq<string>)
    ensures |r| >= 1
  {
    SplitFrom(s, sep, [])
  }

  /** Splitting the rest of `s` when `cur` has been read since the last
      separator. */
  function SplitFrom(s: string, sep: char, cur: string): (r: seq<string>)
    ensures |r| >= 1
    decreases |s|
  {
    if s == [] then [cur]
    else if s[0] == sep then [cur] + SplitFrom(s[1..], sep, [])
    else SplitFrom(s[1..], sep, cur + [s[0]])
  }

  lemma {:induction false} SplitFromNoSep(s: string, sep: char, cur: string)
    requires sep !in s
    ensures SplitFrom(s, sep, cur) == [cur + s]
    decreases |s|
  {
    if s == [] {
      assert cur + s == cur;
    } else {
      SplitFromNoSep(s[1..], sep, cur + [s[0]]);
      assert cur + [s[0]] + s[1..] == cur + s;
    }
  }

  /** A string without the separator is its own single piece. */
  lemma SplitNoSep(s: string, sep: char)
    requires sep !in s
    ensures Split(s, sep) == [s]
  {
    SplitFromNoSep(s, sep, []);
    assert [] + s == s;
  }

  lemma {:induction false} SplitFromAtSep(a: string, sep: char, b: string, cur: string)
    ensures SplitFrom(a + [sep] + b, sep, cur) == SplitFrom(a, sep, cur) + SplitFrom(b, sep, [])
    decreases |a|
  {
    if a == [] {
      assert a + [sep] + b == [sep] + b;
      assert ([sep] + b)[1..] == b;
    } else {
      assert (a + [sep] + b)[0] == a[0];
      assert (a + [sep] + b)[1..] == a[1..] + [sep] + b;
      SplitFromAtSep(a[1..], sep, b, if a[0] == sep then [] else cur + [a[0]]);
    }
  }

  /** Splitting distributes over a separator occurrence. */
  lemma SplitAtSep(a: string, sep: char, b: string)
    ensures Split(a + [sep] + b, sep) == Split(a, sep) + Split(b, sep)
  {
    SplitFromAtSep(a, sep, b, []);
  }

  lemma {:induction false} SplitFromPieces(s: string, sep: char, cur: string)
    requires sep !in cur
    ensures forall p :: p in SplitFrom(s, sep, cur) ==> sep !in p
    decreases |s|
  {
    if s != [] {
      if s[0] == sep {
        SplitFromPieces(s[1..], sep, []);
      } else {
        SplitFromPieces(s[1..], sep, cur + [s[0]]);
      }
    }
  }

  /** No piece contains the separator. */
  lemma SplitPieces(s: string, sep: char)
    ensures forall p :: p in Split(s, sep) ==> sep !in p
  {
    SplitFromPieces(s, sep, []);
  }

  /** `sep.join(pieces)`. */
  function Join(xs: seq<string>, sep: string): string
  {
    if |xs| == 0 then []
    else if |xs| == 1 then xs[0]
    else xs[0] + sep + Join(xs[1..], sep)
  }

  lemma {:induction false} JoinSplitFrom(s: string, sep: char, cur: string)
    ensures Join(SplitFrom(s, sep, cur), [sep]) == cur + s
    decreases |s|
  {
    if s == [] {
    } else if s[0] == sep {
      JoinSplitFrom(s[1..], sep, []);
      var rest := SplitFrom(s[1..], sep, []);
      assert ([cur] + rest)[1..] == rest;
      assert cur + [sep] + s[1..] == cur + s;
    } else {
      JoinSplitFrom(s[1..], sep, cur + [s[0]]);
      assert cur + [s[0]] + s[1..] == cur + s;
    }
  }

  /** Joining the pieces with the separator gives back the string: `split`
      loses nothing. */
  lemma JoinSplit(s: string, sep: char)
    ensures Join(Split(s, sep), [sep]) == s
  {
    JoinSplitFrom(s, sep, []);
  }

  lemma {:induction false} JoinEndsWithLast(xs: seq<string>, sep: string)
    requires |xs| >= 1
    ensures EndsWith(Join(xs, sep), xs[|xs| - 1])
    decreases |xs|
  {
    if |xs| > 1 {
      JoinEndsWithLast(xs[1..], sep);
      var tail := Join(xs[1..], sep);
      assert Join(xs, sep) == (xs[0] + sep) + tail;
      var last := xs[|xs| - 1];
      assert xs[1..][|xs[1..]| - 1] == last;
      assert Join(xs, sep)[|Join(xs, sep)| - |last|..] == tail[|tail| - |last|..];
    }
  }

  /** `s.split(sep)[-1]`: what follows the last separator. */
  function LastPiece(s: string, sep: char): (r: string)
    ensures sep !in r
    ensures EndsWith(s, r)
  {
    var ps := Split(s, sep);
    SplitPieces(s, sep);
    JoinSplit(s, sep);
    JoinEndsWithLast(ps, [sep]);
    ps[|ps| - 1]
  }

  lemma LastPieceAfterSep(a: string, sep: char, b: string)
    requires sep !in b
    ensures LastPiece(a + [sep] + b, sep) == b
  {
    SplitAtSep(a, sep, b);
    SplitNoSep(b, sep);
  }

  // ------------------------------------------------- whitespace: split/strip

  function Flush(cur: string): seq<string> {
    if cur == [] then [] else [cur]
  }

  /** Python's argument-less `s.split()`: maximal runs of non-space
      characters, in order. */
  function SplitWs(s: string): (r: seq<string>)
    ensures forall t :: t in r ==> |t| > 0 && NoSpace(t)
  {
    SplitWsFrom(s, [])
  }

  function SplitWsFrom(s: string, cur: string): (r: seq<string>)
    requires NoSpace(cur)
    ensures forall t :: t in r ==> |t| > 0 && NoSpace(t)
    decreases |s|
  {
    if s == [] then Flush(cur)
    else if IsSpace(s[0]) then Flush(cur) + SplitWsFrom(s[1..], [])
    else SplitWsFrom(s[1..], cur + [s[0]])
  }

  lemma {:induction false} SplitWsFromToken(s: string, cur: string)
    requires NoSpace(cur) && NoSpace(s)
    ensures SplitWsFrom(s, cur) == Flush(cur + s)
    decreases |s|
  {
    if s == [] {
      assert cur + s == cur;
    } else {
      SplitWsFromToken(s[1..], cur + [s[0]]);
      assert cur + [s[0]] + s[1..] == cur + s;
    }
  }

  /** A string with no whitespace splits into at most itself. */
  lemma SplitWsToken(s: string)
    requires NoSpace(s)
    ensures SplitWs(s) == Flush(s)
  {
    SplitWsFromToken(s, []);
    assert [] + s == s;
  }

  lemma {:induction false} SplitWsFromAtSpace(a: string, c: char, b: string, cur: string)
    requires NoSpace(cur) && IsSpace(c)
    ensures SplitWsFrom(a + [c] + b, cur) == SplitWsFrom(a, cur) + SplitWsFrom(b, [])
    decreases |a|
  {
    if a == [] {
      assert a + [c] + b == [c] + b;
      assert ([c] + b)[1..] == b;
    } else {
      assert (a + [c] + b)[0] == a[0];
      assert (a + [c] + b)[1..] == a[1..] + [c] + b;
      if IsSpace(a[0]) {
        SplitWsFromAtSpace(a[1..], c, b, []);
      } else {
        SplitWsFromAtSpace(a[1..], c, b, cur + [a[0]]);
      }
    }
  }

  /** Whitespace separates tokens. */
  lemma SplitWsAtSpace(a: string, c: char, b: string)
    requires IsSpace(c)
    ensures SplitWs(a + [c] + b) == SplitWs(a) + SplitWs(b)
  {
    SplitWsFromAtSpace(a, c, b, []);
  }

  lemma {:induction false} SplitWsFromAllSpace(s: string)
    requires forall i :: 0 <= i < |s| ==> IsSpace(s[i])
    ensures SplitWsFrom(s, []) == []
    decreases |s|
  {
    if s != [] {
      SplitWsFromAllSpace(s[1..]);
    }
  }

  /** Python's `s.strip()`: leading and trailing whitespace removed. */
  function Strip(s: string): (r: string)
    ensures |r| > 0 ==> !IsSpace(r[0]) && !IsSpace(r[|r| - 1])
    decreases |s|
  {
    if s == [] then s
    else if IsSpace(s[0]) then Strip(s[1..])
    else if IsSpace(s[|s| - 1]) then Strip(s[..|s| - 1])
    else s
  }

  /** Python's `s.rstrip(c)`. */
  function RStripChar(s: string, c: char): (r: string)
    ensures |r| > 0 ==> r[|r| - 1] != c
    ensures |r| <= |s| && r == s[..|r|]
    ensures forall i :: |r| <= i < |s| ==> s[i] == c
    decreases |s|
  {
    if s != [] && s[|s| - 1] == c then RStripChar(s[..|s| - 1], c) else s
  }

  // -------------------------------------------------------------- numbers

  predicate IsDigit(c: char) {
    '0' <= c <= '9'
  }

  predicate AllDigits(s: string) {
    forall i :: 0 <= i < |s| ==> IsDigit(s[i])
  }

  function DigitValue(c: char): nat
    requires IsDigit(c)
  {
    c as int - '0' as int
  }

  function DigitChar(d: nat): (c: char)
    requires d < 10
    ensures IsDigit(c) && DigitValue(c) == d
  {
    (d + '0' as int) as char
  }

  /** The value of a string of decimal digits (0 for the empty string). */
  function DigitsValue(s: string): nat
    requires AllDigits(s)
  {
    if s == [] then 0 else DigitsValue(s[..|s| - 1]) * 10 + DigitValue(s[|s| - 1])
  }

  /** Python's `str(n)` for a non-negative integer. */
  function NatToString(n: nat): (r: string)
    ensures |r| >= 1 && AllDigits(r)
  {
    if n < 10 then [DigitChar(n)] else NatToString(n / 10) + [DigitChar(n % 10)]
  }

  /** Python's `str(i)`. */
  function IntToString(i: int): string
  {
    if i < 0 then "-" + NatToString(-i) else NatToString(i)
  }

  /** Reading back what `str(n)` wrote gives `n`. */
  lemma {:induction false} DigitsOfNat(n: nat)
    ensures DigitsValue(NatToString(n)) == n
    decreases n
  {
    if n >= 10 {
      DigitsOfNat(n / 10);
      var s := NatToString(n);
      assert s[..|s| - 1] == NatToString(n / 10);
    }
  }

  /** Digits and underscores only. */
  predicate DigitsOrUnderscores(d: string) {
    forall i :: 0 <= i < |d| ==> IsDigit(d[i]) || d[i] == '_'
  }

  /** A numeral as `int()` reads it: decimal digits, where a single
      underscore may stand between two digits ("2_000"). */
  predicate Grouped(d: string) {
    && |d| > 0 && IsDigit(d[0]) && IsDigit(d[|d| - 1])
    && DigitsOrUnderscores(d) && !Occurs("__", d)
  }

  /** The value of the digits of `d`, underscores skipped. */
  function GroupedValue(d: string): nat
    requires DigitsOrUnderscores(d)
  {
    if d == [] then 0
    else if d[|d| - 1] == '_' then GroupedValue(d[..|d| - 1])
    else GroupedValue(d[..|d| - 1]) * 10 + DigitValue(d[|d| - 1])
  }

  /** Without underscores a numeral's value is that of its digits. */
  lemma {:induction false} GroupedValuePlain(d: string)
    requires AllDigits(d)
    ensures DigitsOrUnderscores(d) && GroupedValue(d) == DigitsValue(d)
    decreases |d|
  {
    if d != [] {
      GroupedValuePlain(d[..|d| - 1]);
    }
  }

  /** Python's `int(s)` on ASCII input: surrounding whitespace, an optional
      sign, then a numeral of decimal digits, single underscores allowed
      between digits; anything else raises, which is `None` here. */
  function ParseInt(s: string): (r: Option<int>)
    ensures r.Some? ==> |Strip(s)| > 0 && IsDigit(Strip(s)[|Strip(s)| - 1])
    ensures r.Some? && r.value < 0 ==> Strip(s)[0] == '-'
    ensures |Strip(s)| > 0 && AllDigits(Strip(s)) ==> r == Some(DigitsValue(Strip(s)))
    ensures |Strip(s)| > 0 && !IsDigit(Strip(s)[|Strip(s)| - 1]) ==> r.None?
  {
    var t := Strip(s);
    var signed := |t| > 0 && (t[0] == '-' || t[0] == '+');
    var d := if signed then t[1..] else t;
    PlainNumeral(t);
    if Grouped(d) then
      assert d[|d| - 1] == t[|t| - 1];
      var v: int := GroupedValue(d);
      Some(if signed && t[0] == '-' then 0 - v else v)
    else None
  }

  lemma StripDigits(s: string)
    requires AllDigits(s)
    ensures Strip(s) == s
  {
    if s != [] {
      assert IsDigit(s[0]) && IsDigit(s[|s| - 1]);
    }
  }

  /** A run of digits holds no underscore pair. */
  lemma DigitsNotPaired(s: string)
    requires AllDigits(s)
    ensures !Occurs("__", s)
  {
    forall i | 0 <= i <= |s| - 2
      ensures !OccursAt("__", s, i)
    {
      assert IsDigit(s[i]);
      assert s[i..i + 2][0] == s[i];
    }
  }

  /** A non-empty run of digits is unsigned and reads as its digits. */
  lemma PlainNumeral(t: string)
    ensures |t| > 0 && AllDigits(t) ==>
      t[0] != '-' && t[0] != '+' && Grouped(t) && GroupedValue(t) == DigitsValue(t)
  {
    if |t| > 0 && AllDigits(t) {
      DigitsGrouped(t);
      assert IsDigit(t[0]);
    }
  }

  /** A plain run of digits is a numeral worth its digits. */
  lemma DigitsGrouped(s: string)
    requires |s| > 0 && AllDigits(s)
    ensures Grouped(s) && GroupedValue(s) == DigitsValue(s)
  {
    DigitsNotPaired(s);
    GroupedValuePlain(s);
    assert IsDigit(s[0]) && IsDigit(s[|s| - 1]);
  }

  /** A plain run of digits reads as its value. */
  lemma ParseIntDigits(s: string)
    requires |s| > 0 && AllDigits(s)
    ensures ParseInt(s) == Some(DigitsValue(s) as int)
  {
    StripDigits(s);
    DigitsGrouped(s);
    assert !(s[0] == '-' || s[0] == '+') by { assert IsDigit(s[0]); }
  }

  /** A minus sign before a run of digits negates its value. */
  lemma ParseIntNegative(s: string)
    requires |s| > 0 && AllDigits(s)
    ensures ParseInt("-" + s) == Some(0 - DigitsValue(s))
  {
    NegatedText(s);
    DigitsGrouped(s);
  }

  lemma NegatedText(s: string)
    requires |s| > 0 && AllDigits(s)
    ensures Strip("-" + s) == "-" + s && ("-" + s)[0] == '-' && ("-" + s)[1..] == s
  {
    var t := "-" + s;
    assert IsDigit(s[|s| - 1]) && t[|t| - 1] == s[|s| - 1];
    assert !IsSpace(t[0]) && !IsSpace(t[|t| - 1]);
  }

  /** A leading blank does not change what `int()` reads. */
  lemma ParseIntBlank(s: string)
    ensures ParseInt(" " + s) == ParseInt(s)
  {
    assert (" " + s)[1..] == s;
  }

  /** `int("2_0") == 20`: an underscore may group digits. */
  lemma ParseIntGrouped()
    ensures ParseInt("2_0") == Some(20)
  {
    var d := "2_0";
    assert Strip(d) == d;
    assert !OccursAt("__", d, 0) by { assert d[0..2] == "2_"; }
    assert !OccursAt("__", d, 1) by { assert d[1..3] == "_0"; }
    assert Grouped(d);
    assert GroupedValue(d) == GroupedValue("2_") * 10 by {
      assert d[..2] == "2_";
    }
    assert GroupedValue("2_") == GroupedValue("2") by {
      assert "2_"[..1] == "2";
    }
    assert GroupedValue("2") == 2 by {
      assert "2"[..0] == "";
    }
  }

  /** `int(" -5 ") == -5`: surrounding blanks and a sign are read. */
  lemma ParseIntSigned()
    ensures ParseInt(" -5 ") == Some(-5)
  {
    assert Strip(" -5 ") == "-5";
    assert "-5"[1..] == "5";
    ParseIntDigits("5");
  }

  /** `int()` refuses a doubled, a leading and a trailing underscore. */
  lemma ParseIntRejects()
    ensures ParseInt("2__0").None? && ParseInt("_20").None? && ParseInt("20_").None?
  {
    assert Strip("2__0") == "2__0" && !Grouped("2__0") by {
      assert OccursAt("__", "2__0", 1);
    }
    assert Strip("_20") == "_20" && !Grouped("_20");
    assert Strip("20_") == "20_" && !Grouped("20_");
  }

  /** `int(str(n)) == n`. */
  lemma ParseIntOfNat(n: nat)
    ensures ParseInt(NatToString(n)) == Some(n)
  {
    DigitsOfNat(n);
    ParseIntDigits(NatToString(n));
  }
}

=== FILE: validator.dfy ===
/** The validator's decisions around XSD validation: which schema file the
    document names, whether that schema is one of the five shipped ones,
    and how the outcome and at most twenty schema errors become messages.
    Parsing and validating XML are not modelled: the root element's
    attributes and what the schema makes of the document are inputs. */
module Validator {
  import opened Base
  import opened Strings
  import opened Paths
  import opened SchemaLocation

  /** One entry of the schema's error log. */
  datatype XsdError = XsdError(message: string, line: int)

  /** What opening and applying a schema file gives: the file is absent, or
      it was loaded and judged the document. */
  datatype SchemaFile = Missing | Loaded(valid: bool, errors: seq<XsdError>)

  /** What a validation call gives its caller: the `(success, version,
      messages)` triple, or an exception raised out of it, sorted the way the
      scheduler's handlers sort them. */
  datatype Outcome =
    | Returned(valid: bool, version: Option<string>, messages: seq<string>)
    | MemoryExc(msg: string)
    | PipeExc(msg: string)
    | OtherExc(msg: string, typeName: string)

  const SupportedVersions: seq<string> := ["1.0.0", "1.1.0", "1.1.1", "1.2.0", "1.3.0"]

  const SupportedSchemas: seq<string> :=
    ["mzIdentML1.0.0.xsd", "mzIdentML1.1.0.xsd", "mzIdentML1.1.1.xsd", "mzIdentML1.2.0.xsd", "mzIdentML1.3.0.xsd"]

  const NoLocationMsg: string := "No schema location found in the XML document."
  const BadFormatMsg: string := "Invalid schema location format."
  const InvalidHeader: string := "XML is invalid. First 20 errors:"
  const MaxErrors: nat := 20

  /** The supported schema files are exactly those named after a supported
      version. */
  lemma SupportedSchemaNames(fname: string)
    ensures fname in SupportedSchemas <==>
      exists i :: 0 <= i < |SupportedVersions| && fname == Prefix + SupportedVersions[i] + Suffix
  {
    assert forall i :: 0 <= i < 5 ==> SupportedSchemas[i] == Prefix + SupportedVersions[i] + Suffix;
  }

  /** A supported schema's file name carries one of the supported
      versions. */
  lemma SupportedVersionOf(fname: string)
    requires fname in SupportedSchemas
    ensures FileNameVersion(fname).Some? && FileNameVersion(fname).value in SupportedVersions
  {
    SupportedSchemaNames(fname);
    var i :| 0 <= i < |SupportedVersions| && fname == Prefix + SupportedVersions[i] + Suffix;
    FileNameVersionIff(fname, SupportedVersions[i]);
  }

  /** `f"Error: {message}, Line: {line}"`. */
  function ErrorLine(e: XsdError): string {
    "Error: " + e.message + ", Line: " + IntToString(e.line)
  }

  /** One message per log entry, in log order. */
  function ErrorLines(errors: seq<XsdError>): (r: seq<string>)
    ensures |r| == |errors|
    ensures forall k :: 0 <= k < |errors| ==> r[k] == ErrorLine(errors[k])
  {
    if errors == [] then [] else [ErrorLine(errors[0])] + ErrorLines(errors[1..])
  }

  /** What a rejecting schema reports: the header, then one line for each
      of the first twenty log entries, in log order. */
  function Rejection(errors: seq<XsdError>): (r: seq<string>)
    ensures var n := if |errors| < MaxErrors then |errors| else MaxErrors;
      && |r| == 1 + n
      && r[0] == InvalidHeader
      && forall k :: 0 <= k < n ==> r[k + 1] == ErrorLine(errors[k])
  {
    var shown := if |errors| <= MaxErrors then errors else errors[..MaxErrors];
    [InvalidHeader] + ErrorLines(shown)
  }

  /** The schema file the location names, for a location the validator
      accepts: an even, non-zero number of tokens, the last being the URL. */
  function SchemaName(root: RootAttrs): (r: Option<string>)
    ensures r.Some? ==> ChooseLocation(root).Some?
    ensures r.Some? ==> var ts := SplitWs(ChooseLocation(root).value);
      |ts| > 0 && |ts| % 2 == 0 && r.value == UrlFileName(ts[|ts| - 1])
  {
    match ChooseLocation(root)
    case None => None
    case Some(loc) =>
      var parts := SplitWs(loc);
      if |parts| == 0 || |parts| % 2 != 0 then None
      else Some(UrlFileName(parts[|parts| - 1]))
  }

  /** The part of the validation after the schema file name is known: an
      unsupported name is refused with the version it carries, a missing
      schema file is reported by path, and otherwise the schema's judgement
      is passed on, a rejection with its first twenty errors. */
  function CheckSchema(fname: string, schemaDir: string, files: string -> SchemaFile): (r: Outcome)
    ensures r.Returned? && r.version == FileNameVersion(fname)
    ensures 1 <= |r.messages| + (if r.valid then 1 else 0) && |r.messages| <= 1 + MaxErrors
    ensures r.valid ==> r.messages == []
    ensures fname !in SupportedSchemas ==> !r.valid && r.messages == ["Unsupported schema: " + fname]
    ensures fname in SupportedSchemas && files(PathJoin(schemaDir, fname)).Missing? ==>
              !r.valid && r.messages == ["Schema file not found: " + PathJoin(schemaDir, fname)]
    ensures r.valid <==> (fname in SupportedSchemas
              && files(PathJoin(schemaDir, fname)).Loaded? && files(PathJoin(schemaDir, fname)).valid)
    ensures fname in SupportedSchemas && files(PathJoin(schemaDir, fname)).Loaded?
              && !files(PathJoin(schemaDir, fname)).valid ==>
              !r.valid && r.messages == Rejection(files(PathJoin(schemaDir, fname)).errors)
  {
    var version := FileNameVersion(fname);
    if fname !in SupportedSchemas then Returned(false, version, ["Unsupported schema: " + fname])
    else
      var path := PathJoin(schemaDir, fname);
      match files(path)
      case Missing => Returned(false, version, ["Schema file not found: " + path])
      case Loaded(valid, errors) =>
        if valid then Returned(true, version, [])
        else Returned(false, version, Rejection(errors))
  }

  /** The validation of one document whose root element has attributes
      `root`, with `files` saying what each path under the schema directory
      `schemaDir` holds. A whitespace-only location has no last token and
      the lookup raises `IndexError`. */
  function ValidateImpl(root: RootAttrs, schemaDir: string, files: string -> SchemaFile): (r: Outcome)
    ensures r.Returned? || r == OtherExc("list index out of range", "IndexError")
    ensures r.Returned? ==> |r.messages| <= 1 + MaxErrors
    ensures r.Returned? && r.valid ==> r.messages == []
    ensures ChooseLocation(root).None? ==> r == Returned(false, None, [NoLocationMsg])
    ensures ChooseLocation(root).Some? && |SplitWs(ChooseLocation(root).value)| % 2 != 0 ==>
              r == Returned(false, None, [BadFormatMsg])
    ensures SchemaName(root).Some? ==> r == CheckSchema(SchemaName(root).value, schemaDir, files)
    ensures (r.Returned? && r.valid) <==>
              SchemaName(root).Some? && SchemaName(root).value in SupportedSchemas
              && files(PathJoin(schemaDir, SchemaName(root).value)).Loaded?
              && files(PathJoin(schemaDir, SchemaName(root).value)).valid
  {
    match ChooseLocation(root)
    case None => Returned(false, None, [NoLocationMsg])
    case Some(loc) =>
      var parts := SplitWs(loc);
      if |parts| % 2 != 0 then Returned(false, None, [BadFormatMsg])
      else if |parts| == 0 then OtherExc("list index out of range", "IndexError")
      else CheckSchema(UrlFileName(parts[|parts| - 1]), schemaDir, files)
  }

  /** A document the schema accepts is reported valid with a supported
      version and no messages. */
  lemma ValidHasSupportedVersion(root: RootAttrs, schemaDir: string, files: string -> SchemaFile)
    requires ValidateImpl(root, schemaDir, files).Returned? && ValidateImpl(root, schemaDir, files).valid
    ensures var r := ValidateImpl(root, schemaDir, files);
      r.version.Some? && r.version.value in SupportedVersions
  {
    SupportedVersionOf(SchemaName(root).value);
  }

  /** A location holding one URL and nothing else is rejected as malformed,
      although the report builder reads such a location without complaint. */
  lemma SingleUrlRejected(root: RootAttrs, url: string, schemaDir: string, files: string -> SchemaFile)
    requires root.schemaLocation == Some(url) && |url| > 0 && NoSpace(url)
    ensures ValidateImpl(root, schemaDir, files) == Returned(false, None, [BadFormatMsg])
    ensures ReportVersion(Some(root)) == if Truthy(root.version) then root.version else None
  {
    assert |SplitWs(ChooseLocation(root).value)| == 1 by {
      SplitWsToken(url);
    }
    ReportVersionOfSingleUrl(url, root.noNamespaceLocation, root.version);
  }

  /** `f"Validation timed out after {timeout}s"`. */
  function TimeoutMsg(timeout: int): string {
    "Validation " + TimedOut + " after " + IntToString(timeout) + "s"
  }

  const TimedOut: string := "timed out"

  /** The default time allowed for one validation, in seconds. */
  const DefaultTimeout: int := 600

  /** The validation run under a time limit: the worker's outcome when it
      finishes in time, otherwise a failure with no version and the single
      time-out message. */
  function ValidateWithTimeout(worker: Outcome, timedOut: bool, timeout: int): (r: Outcome)
    ensures timedOut ==> r.Returned? && !r.valid && r.version.None? && |r.messages| == 1
    ensures timedOut ==> Occurs("timed out", Lower(r.messages[0]))
    ensures !timedOut ==> r == worker
  {
    if timedOut then
      TimeoutMentioned(timeout);
      Returned(false, None, [TimeoutMsg(timeout)])
    else worker
  }

  /** The time-out message, case-folded, contains "timed out". */
  lemma TimeoutMentioned(timeout: int)
    ensures Occurs("timed out", Lower(TimeoutMsg(timeout)))
  {
    var tail := " after " + IntToString(timeout) + "s";
    assert TimeoutMsg(timeout) == "Validation " + TimedOut + tail;
    LowerFixed(TimedOut);
    OccursFolded("Validation ", TimedOut, tail);
  }

  /** Text without capitals survives case folding of what surrounds it. */
  lemma OccursFolded(a: string, w: string, b: string)
    requires Lower(w) == w
    ensures Occurs(w, Lower(a + w + b))
  {
    var s := a + w + b;
    LowerSlice(s, |a|, |a| + |w|);
    assert s[|a|..|a| + |w|] == w;
    assert OccursAt(w, Lower(s), |a|);
  }
}
